=== FILE: README.md ===
# stratosml core, modelled in Dafny

This project models the core of stratosml, a small reverse-mode automatic
differentiation library written as C++ headers over Armadillo matrices:

- **Tensors** (`tensors.dfy`, over `matrices.dfy`). A tensor is a real
  buffer plus a separately stored `TensorShape`. The model covers the
  constructors, the shape classification and `reshape`. It also covers the
  in-place broadcast behind `+=`/`-=`/`/=`, the element-wise broadcast behind
  `+ - / % pow`, the case split of `*`, and the entry-wise and per-column
  functions.
- **The computation graph** (`nodes.dfy`, `ops.hpp` builders in `ops.dfy`).
  - Nodes live in an arena in creation order. An operation node refers only
    to earlier nodes.
  - Gradient accumulators of the trainable nodes (`VariableNode`) are a map
    from node index to tensor.
  - `derive` is a recursive function that threads that map through one
    depth-first pass, with each operation's local rule exactly as written.
  - Handles (`Constant`, `Variable`, `ConstantOrVariable`) are node indices.
    `v += x` and `v -= x` return the re-pointed handle.
- **Losses** (`losses.dfy`): mean squared error and mean absolute error. The
  model states what they build, their values, and what a backward pass
  through them delivers.
- **Schedules and optimizers** (`schedules.dfy`, `optimizers.dfy`).
  - The three learning-rate schedulers, with their argument checks and
    `step`.
  - Gradient descent, momentum and Adam, as operations that take a graph and
    return the grown graph and the re-pointed handles.
- **Layers** (`layers.dfy`): `Layer` weight registration and `Dense`
  construction, `build` and `forward`.
- **Data** (`data.dfy`).
  - `Series` and `DataFrame` column bookkeeping and cell access.
  - `Series::Scale` with its four scalers, and `DataFrame::Scale` as a loop
    over the `std::unordered_map` of series, in a visit order given as a
    parameter.
  - The `.csv` extension test.
  - The CSV loader: header labels, `GetMatrixSize`'s row and column scan, and
    where each field lands.

Things outside the model are passed in as parameters:

- Transcendental functions (`sin`, `cos`, `tan`, `log`, `exp`, `sqrt` and
  non-integer powers) are fields of a `Math` record parameter. A power with a
  natural exponent is computed exactly.
- File contents arrive as the lines `getline` would return, or as nothing
  when the file cannot be opened.
- `stof` is a parser parameter: it returns a number, or nothing when the text
  is not a number.

Three mappings from C++ behaviour:

- Armadillo's size-mismatch exceptions become `Err(ShapeMismatch)`.
- Bounds-check exceptions become `Err(IndexOutOfBounds)`.
- Undefined behaviour in the source becomes a precondition. Examples are
  reading the first entry of an empty shape and using the kernel before
  `build`.

## Model

| member | source | states |
|---|---|---|
| Tensors.Classification | src/stratosml/core/autodiff/tensor.hpp:93-107 | `is_scalar` holds exactly for 1 x 1 buffers and `is_vector` for other buffers with one row or one column; column and row vectors split the vectors between them, never overlap, and exclude scalars |
| Tensors.Empty | src/stratosml/core/autodiff/tensor.hpp:51 | the default tensor has a 0 x 0 buffer and an empty stored shape |
| Tensors.FromShape | src/stratosml/core/autodiff/tensor.hpp:53-56 | a tensor made from a shape is zero-filled, has `shape[0]` rows and exactly one column whatever the rank, and stores the caller's shape |
| Tensors.FromScalar | src/stratosml/core/autodiff/tensor.hpp:72 | a number gives a 1 x 1 buffer holding it, with an empty stored shape |
| Tensors.FromList | src/stratosml/core/autodiff/tensor.hpp:74 | a flat list of n numbers gives an n x 1 column holding them, with stored shape {n} |
| Tensors.FromNested | src/stratosml/core/autodiff/tensor.hpp:76-79 | a nested list gives one row per inner list, as wide as the longest; short rows are zero-padded, and the stored shape equals the buffer's dimensions |
| Tensors.FromMat | src/stratosml/core/autodiff/tensor.hpp:81 | a raw matrix is kept as the buffer and its dimensions become the stored shape |
| Tensors.ZerosOfSize | src/stratosml/core/autodiff/tensor.hpp:60-64 | the zero-fill constructor gives an all-zero buffer of the requested size |
| Tensors.ZerosLike | src/stratosml/core/autodiff/tensor.hpp:66-70 | zero-filling like another tensor keeps its buffer size and its stored shape |
| Tensors.Reshaped | src/stratosml/core/autodiff/tensor.hpp:109-111 | `reshape` gives the buffer the new dimensions but leaves the stored shape as it was |
| Tensors.ShapeDrift | src/stratosml/core/autodiff/tensor.hpp:109-111 | a shape-built tensor is one column wide whatever its stored shape, and reshaping it never brings the stored shape back in line |
| Tensors.Transposed | src/stratosml/core/autodiff/tensor.hpp:117-119 | `t()` swaps rows and columns entry by entry |
| Tensors.InPlace | src/stratosml/core/autodiff/tensor.hpp:170-195 | in-place operations fit the right operand first: a scalar left takes the sum of all right entries, a scalar right is tiled, and a 1 x n row left with an n-row right takes the right's row sums; otherwise the right is used unchanged and the operation fails unless the sizes are equal; the left keeps its size and stored shape |
| Tensors.InPlaceSameDims | src/stratosml/core/autodiff/tensor.hpp:154-157 | with equal buffer sizes `+=`, `-=` and `/=` are plain entry-wise operations |
| Tensors.AccumulateTwice | src/stratosml/core/autodiff/tensor.hpp:154 | adding two gradients into an accumulator in turn leaves their entry-wise sum |
| Tensors.InPlaceRoundTrip | src/stratosml/core/autodiff/tensor.hpp:154-155 | `-=` by the same right operand undoes a successful `+=` |
| Tensors.Combine | src/stratosml/core/autodiff/tensor.hpp:213-247 | a scalar side is tiled to the other side's size; two non-scalars with the left's columns equal to the right's rows combine with the right transposed; anything else is used as is, and unequal sizes fail |
| Tensors.ScalarBroadcastCommutes | src/stratosml/core/autodiff/tensor.hpp:219-227 | `x + t` and `t + x` agree and add x to every entry |
| Tensors.BroadcastExample | src/stratosml/core/autodiff/tensor.hpp:263 | `5 + [[1,2],[3,4]]` and `[[1,2],[3,4]] + 5` both equal `[[6,7],[8,9]]` |
| Tensors.MinusUndoesPlus | src/stratosml/core/autodiff/tensor.hpp:263-264 | subtracting an operand of the same size undoes adding it, square sizes included |
| Tensors.Product | src/stratosml/core/autodiff/tensor.hpp:286-305 | `*` scales by a scalar on either side, gives the outer product of two columns, and is otherwise a matrix product that fails unless the inner dimensions agree |
| Tensors.ScaledBy | src/stratosml/core/autodiff/tensor.hpp:307-308 | a number times a tensor multiplies every entry |
| Tensors.ScalarProductAgrees | src/stratosml/core/autodiff/tensor.hpp:286-308 | a 1 x 1 factor on either side of `*`, or on the left of `%`, scales exactly as the raw-number overload does |
| Tensors.PowerTwo | src/stratosml/core/autodiff/tensor.hpp:255-258 | `pow(t, 2)` squares every entry |
| Tensors.Apply | src/stratosml/core/autodiff/tensor.hpp:313-321 | unary minus, `abs`, `sin`, `cos`, `tan` and `log` act entry by entry and keep the size |
| Tensors.Mean | src/stratosml/core/autodiff/tensor.hpp:322 | `mean` averages each column, so an n x 1 input gives a 1 x 1 result |
| Tensors.MeanOfConstant | src/stratosml/core/autodiff/tensor.hpp:322 | the mean of a constant buffer is that constant |
| Tensors.Stddev | src/stratosml/core/autodiff/tensor.hpp:324 | `stddev` reduces per column, and a single row has deviation zero |
| Tensors.Largest | src/stratosml/core/autodiff/tensor.hpp:145-147 | `max()` exists exactly when the buffer has an entry, and is then one of the entries and at least every entry; otherwise it fails with `NoElements` |
| Tensors.Smallest | src/stratosml/core/autodiff/tensor.hpp:141-143 | `min()` exists exactly when the buffer has an entry, and is then one of the entries and at most every entry; otherwise it fails with `NoElements` |
| Nodes.ReachesBelow | src/stratosml/core/autodiff/ops.hpp:19-24 | every node a node reaches was created no later than it, so the graph is acyclic |
| Nodes.Accumulate | src/stratosml/core/autodiff/node.hpp:42-44 | `grad += g` changes only that node's accumulator and keeps its size and stored shape |
| Nodes.Backward | src/stratosml/core/autodiff/node.hpp:10-18 | a backward pass keeps the graph's nodes and changes only the accumulators of nodes the root reaches |
| Nodes.DeriveFrame | src/stratosml/core/autodiff/ops.hpp:19-24 | a pass neither reads nor writes an accumulator its start node does not reach |
| Nodes.DeriveLocal | src/stratosml/core/autodiff/node.hpp:35-61 | only the accumulators of trainable nodes the pass reaches can change |
| Nodes.DeriveKeepsSizes | src/stratosml/core/autodiff/node.hpp:42-44 | every accumulator keeps its node's buffer size through a pass |
| Nodes.ConstantRightStep | src/stratosml/core/autodiff/node.hpp:69 | a gradient sent to a constant right operand is dropped |
| Nodes.ConstantInert | src/stratosml/core/autodiff/node.hpp:64-70 | a constant node changes no accumulator and calls no other node |
| Nodes.IndependentAccumulates | src/stratosml/core/autodiff/node.hpp:42-44 | an independent leaf never resets: after two passes its accumulator holds the old value plus both gradients, and nothing else moved |
| Nodes.DependentForwards | src/stratosml/core/autodiff/node.hpp:57-60 | a dependent node's pass is the wrapped node's pass, with the dependent node's own accumulator advanced by the same gradient |
| Nodes.SharedOperandAccumulates | src/stratosml/core/autodiff/ops.hpp:33-36 | for y = x op x with x an independent leaf, whatever the operator, x gains both local gradients, one contribution per use, and no other accumulator moves |
| Nodes.SquareAccumulates | src/stratosml/core/autodiff/ops.hpp:59-62 | for y = x * x seeded with a constant c, x gains 2c times its own value |
| Nodes.MulSwapsOperands | src/stratosml/core/autodiff/ops.hpp:59-62 | `Mul` sends each operand the seed times the other operand's value, through the matrix `*` |
| Nodes.DivIgnoresGradient | src/stratosml/core/autodiff/ops.hpp:72-77 | a `Div` node's pass is the same whatever gradient arrives |
| Ops.Append | src/stratosml/core/autodiff/node.hpp:24-32 | a new node goes at the end of the arena; only a trainable one gets an accumulator, all zeros and of its value's size |
| Ops.Lift | src/stratosml/core/autodiff/ops.hpp:206-230 | a number or a raw tensor used as an operand is promoted to a fresh constant node holding it; a node is used as is |
| Ops.BuildBinary | src/stratosml/core/autodiff/ops.hpp:179-203 | an operator promotes its operands, computes the value once from their current values, and appends exactly one operation node; it fails exactly when the tensor operation does |
| Ops.RawOperandBuilds | src/stratosml/core/autodiff/ops.hpp:233-234 | `node ± tensor` appends the tensor's constant, then the operation node over the node and that constant |
| Ops.BuildUnary | src/stratosml/core/autodiff/ops.hpp:255-270 | `abs`, `mean`, `sin`, `cos` and `tan` of a node append one node with the function's value and no accumulator |
| Ops.NewConstant | src/stratosml/core/autodiff/node.hpp:100-106 | `Constant` wraps a fresh constant leaf and adds no accumulator |
| Ops.NewVariable | src/stratosml/core/autodiff/node.hpp:129-135 | `Variable` from a value wraps a fresh independent leaf with an all-zero accumulator of its size |
| Ops.VariableOfShape | src/stratosml/core/autodiff/node.hpp:127 | `Variable(shape)` wraps a leaf holding the shape-built tensor |
| Ops.VariableOf | src/stratosml/core/autodiff/node.hpp:137 | `Variable` from a node wraps a new dependent node with that node's value and a zero accumulator |
| Ops.VariableViewForwards | src/stratosml/core/autodiff/node.hpp:84-86 | viewing a handle as a `Variable` adds a dependent node whose backward pass is the wrapped node's pass plus the seed in its own accumulator |
| Ops.AddTensor | src/stratosml/core/autodiff/node.hpp:153 | `v += t` re-points v to a fresh independent leaf holding old value + t, or fails when they do not combine |
| Ops.SubtractTensor | src/stratosml/core/autodiff/node.hpp:145 | `v -= t` re-points v to a fresh independent leaf holding old value - t, or fails when they do not combine |
| Ops.FreshLeafDetached | src/stratosml/core/autodiff/node.hpp:145 | the re-pointed leaf reaches only itself, so it no longer passes gradients to the old node |
| Ops.AddThenSubtractTensor | src/stratosml/core/autodiff/node.hpp:145-153 | `v += t` then `v -= t` gives a leaf with v's entries again |
| Ops.UpdateNode | src/stratosml/core/autodiff/node.hpp:147-160 | `v ± e` with a node appends the operation node and a dependent node over it, which v now points to; the old node is untouched and only the dependent node gets an accumulator |
| Ops.DoubleExample | src/stratosml/core/autodiff/ops.hpp:179 | x + x at x = 3 is 6, and a pass seeded with 1 leaves 2 in x's accumulator |
| Losses.LossValue | src/stratosml/core/autodiff/nn/losses.hpp:13-23 | the loss value exists exactly when y_pred - y_true does |
| Losses.Difference | src/stratosml/core/autodiff/nn/losses.hpp:15 | both losses subtract y_true from y_pred, taking their arguments as (y_true, y_pred) |
| Losses.SquaredMean | src/stratosml/core/autodiff/nn/losses.hpp:15 | `mean(pow(d, 2))` wrapped in a `Variable` appends four nodes, and only the last gets an accumulator |
| Losses.AbsoluteMean | src/stratosml/core/autodiff/nn/losses.hpp:21 | `mean(abs(d))` wrapped in a `Variable` appends three nodes, and only the last gets an accumulator |
| Losses.Evaluate | src/stratosml/core/autodiff/nn/losses.hpp:14-16 | a loss fails exactly when the subtraction does; otherwise it returns a `Variable` holding the loss value, the only new accumulator |
| Losses.EvaluateLayout | src/stratosml/core/autodiff/nn/losses.hpp:15 | a loss keeps every existing node and places the difference `y_pred - y_true` right after them |
| Losses.EvaluateShape | src/stratosml/core/autodiff/nn/losses.hpp:20-22 | after the difference come the squared mean's nodes or the absolute mean's nodes |
| Losses.MseValue | src/stratosml/core/autodiff/nn/losses.hpp:14-16 | for two columns the mean squared error is the average of the squared residuals |
| Losses.MaeValue | src/stratosml/core/autodiff/nn/losses.hpp:20-22 | for two columns the mean absolute error is the average of the absolute residuals |
| Losses.SquareLeftGrad | src/stratosml/core/autodiff/ops.hpp:104-112 | squaring sends 2c times the residuals to its base, for a 1 x 1 seed c |
| Losses.SquareRightGradColumn | src/stratosml/core/autodiff/ops.hpp:108-111 | for a column of residuals the exponent's gradient always has a size |
| Losses.MseRowsFail | src/stratosml/core/autodiff/ops.hpp:108-111 | for a 1 x m row of residuals with m >= 2 the exponent's gradient fails with a size mismatch |
| Losses.MseGradient | src/stratosml/core/autodiff/nn/losses.hpp:15 | backward from the mean squared error of columns with seed c gives y_pred 2c(y_pred - y_true) and y_true its negation, with no 1/n factor |
| Losses.AbsGrad | src/stratosml/core/autodiff/ops.hpp:86-94 | `abs` sends back -c, c or a 1 x 1 zero, chosen by the sign of the first entry of its input alone |
| Losses.MaeGradient | src/stratosml/core/autodiff/nn/losses.hpp:21 | backward from the mean absolute error gives y_pred the one-entry gradient of `abs` and y_true its negation |
| Schedules.NewFixed | src/stratosml/core/optimizers/schedules.hpp:21-23 | the base scheduler rejects an initial rate that is not above zero with its message |
| Schedules.NewStepDecay | src/stratosml/core/optimizers/schedules.hpp:39-42 | step decay checks the rate, then the decay rate in (0, 1), then a non-zero step size, each with its own message |
| Schedules.NewExponentialDecay | src/stratosml/core/optimizers/schedules.hpp:57-59 | exponential decay checks the rate, then the decay rate in (0, 1) |
| Schedules.Step | src/stratosml/core/optimizers/schedules.hpp:25-27 | `step` changes only the rate, and the base schedule changes nothing |
| Schedules.StepKeepsWellformed | src/stratosml/core/optimizers/schedules.hpp:44-46 | a well-formed schedule stays well-formed at any epoch; a step-decay rate stays in (0, initial] |
| Schedules.StepIdempotent | src/stratosml/core/optimizers/schedules.hpp:44-46 | the rate depends on the epoch alone, so a later step forgets earlier ones |
| Schedules.StepDecayBlocks | src/stratosml/core/optimizers/schedules.hpp:45 | the step-decay rate is constant within each block of `step_size` epochs |
| Schedules.StepDecayMonotone | src/stratosml/core/optimizers/schedules.hpp:45 | the step-decay rate never rises as the epoch grows and never exceeds the initial rate |
| Schedules.StepDecayOneBlock | src/stratosml/core/optimizers/schedules.hpp:45 | one full block later the step-decay rate is one decay factor smaller |
| Optimizers.NewGradientDescent | src/stratosml/core/optimizers/optimizers.hpp:26 | an optimizer built from a number makes a base scheduler, so a rate that is not above zero is rejected |
| Optimizers.NewMomentum | src/stratosml/core/optimizers/optimizers.hpp:60 | momentum starts with a base scheduler and no velocities |
| Optimizers.NewAdam | src/stratosml/core/optimizers/optimizers.hpp:90 | Adam starts with t = 0 and no moments |
| Optimizers.RateFollowsScheduler | src/stratosml/core/optimizers/optimizers.hpp:44-50 | after a step-decay scheduler steps at epoch e, the next descent reads the rate initial * decay^(e / step_size), and a descent after a later epoch moves no entry of a parameter further than one after an earlier epoch |
| Optimizers.SlowerMovesLess | src/stratosml/core/optimizers/optimizers.hpp:48 | of two descents along the same gradient, the one at the smaller non-negative rate moves no entry further |
| Optimizers.Descended | src/stratosml/core/optimizers/optimizers.hpp:48 | the descent value is the old value minus lr times the accumulator, and it always exists |
| Optimizers.DescentEntries | src/stratosml/core/optimizers/optimizers.hpp:48 | entry by entry the descent subtracts lr times the gradient, with the gradient transposed for a square parameter that is not 1 x 1 |
| Optimizers.DescentRebinds | src/stratosml/core/optimizers/optimizers.hpp:48 | each update, after earlier ones in the same step, appends exactly a fresh leaf holding the descent value computed from the original graph |
| Optimizers.DescentStep | src/stratosml/core/optimizers/optimizers.hpp:44-50 | a step keeps the list's length and order, re-points every parameter to a fresh leaf with a zero accumulator, and changes nothing already in the graph |
| Optimizers.MomentumBuild | src/stratosml/core/optimizers/optimizers.hpp:62-66 | `build` appends one zero velocity per parameter, in order, made from the parameter's stored shape |
| Optimizers.VelocityRebindsFails | src/stratosml/core/optimizers/optimizers.hpp:72 | a velocity update fails exactly when momentum * v - lr * grad, computed from the original graph, does |
| Optimizers.VelocityRebinds | src/stratosml/core/optimizers/optimizers.hpp:72 | otherwise the velocity is re-pointed to a new node holding that value, with a zero accumulator |
| Optimizers.ParamRebindsFails | src/stratosml/core/optimizers/optimizers.hpp:73 | `param += v` fails exactly when the parameter's value and the new velocity do not combine |
| Optimizers.ParamRebinds | src/stratosml/core/optimizers/optimizers.hpp:73 | otherwise the parameter is re-pointed to a dependent node holding old value + new velocity |
| Optimizers.MomentumStep | src/stratosml/core/optimizers/optimizers.hpp:68-75 | a step fails with a size mismatch exactly when some update does not fit; otherwise every velocity and parameter moves to its new node, seven nodes per parameter, and velocities past the list stay |
| Optimizers.AdamBuild | src/stratosml/core/optimizers/optimizers.hpp:92-97 | `build` appends a zero second moment and a zero first moment per parameter, in order |
| Optimizers.FirstTerm | src/stratosml/core/optimizers/optimizers.hpp:103 | the first moment adds (1 - beta1) times the gradient, entry by entry |
| Optimizers.SquareTerm | src/stratosml/core/optimizers/optimizers.hpp:105 | the second moment adds (1 - beta2) times the squared gradient, entry by entry |
| Optimizers.MomentRebinds | src/stratosml/core/optimizers/optimizers.hpp:103-105 | a moment update appends its blend and re-points the moment to a node holding beta * moment + term, computed from the original graph |
| Optimizers.TermsKept | src/stratosml/core/optimizers/optimizers.hpp:102-106 | earlier updates of a step do not change the terms a later moment adds |
| Optimizers.AdamStep | src/stratosml/core/optimizers/optimizers.hpp:99-108 | a step increments t by one and re-points every moment, ten nodes per parameter; no parameter moves, and it fails with a size mismatch exactly when some moment update does not fit |
| Layers.NewLayer | src/stratosml/core/layers/layer.hpp:46-49 | a layer rejects zero units and starts with no weights and the `Linear` activation |
| Layers.AddWeight | src/stratosml/core/layers/layer.hpp:27-35 | `add_weight` appends exactly one new zero-gradient leaf built from the shape and returns it; the list form behaves the same |
| Layers.AddWeightRegisters | src/stratosml/core/layers/layer.hpp:27-31 | the new weight is last on the list and a trainable leaf of the requested shape, and a registered layer stays registered |
| Layers.RegisteredHandles | src/stratosml/core/layers/layer.hpp:41 | a registered layer's weights are parameters an optimizer can take |
| Layers.NewDense | src/stratosml/core/layers/dense.hpp:22-24 | `Dense` applies the units check, then registers exactly one weight, the biases, of shape {units} |
| Layers.DefaultDense | src/stratosml/core/layers/dense.hpp:22 | the default `Dense()` has one unit and a single zero bias |
| Layers.NewDenseRegisters | src/stratosml/core/layers/dense.hpp:22-24 | a new dense layer is registered |
| Layers.Build | src/stratosml/core/layers/dense.hpp:26-28 | `build` appends a kernel of shape {last input dimension, units} and re-points the kernel to it |
| Layers.ConstructThenBuild | src/stratosml/core/layers/dense.hpp:22-28 | after construction and one `build` the weights are exactly [biases, kernel], and the kernel's buffer is one column wide |
| Layers.RebuildAppends | src/stratosml/core/layers/dense.hpp:26-28 | a second `build` appends another kernel and re-points the handle; the first stays on the list |
| Layers.Forward | src/stratosml/core/layers/dense.hpp:30-33 | `forward` appends the product, the sum and a dependent node holding inputs * kernel + biases, which `Linear` returns unchanged |
| Layers.RowForward | src/stratosml/core/layers/dense.hpp:31 | one row through a built layer gives one output per bias: the row's dot product with the kernel plus that bias |
| Layers.BatchForward | src/stratosml/core/layers/dense.hpp:31 | a batch of several rows adds to several biases only when the batch size equals the number of biases |
| Data.NamedSeries | src/stratosml/core/data/data.hpp:46 | `Series(name)` has an empty buffer |
| Data.SizedSeries | src/stratosml/core/data/data.hpp:47-49 | `Series(name, size)` is a column of `size` zeros with stored shape {size} |
| Data.Element | src/stratosml/core/data/data.hpp:53-59 | element access succeeds exactly inside the buffer |
| Data.SetElement | src/stratosml/core/data/data.hpp:53-55 | writing an element succeeds exactly inside the buffer and keeps its size and shape |
| Data.SetElementReads | src/stratosml/core/data/data.hpp:53-55 | the written element reads back the new value, and every other element is unchanged |
| Data.MaxAbsScaled | src/stratosml/core/data/data.hpp:77-78 | `data / abs(data).max()` fails with `NoElements` exactly on a buffer with no entries; otherwise it keeps the size, every entry lies in [-1, 1], and unless every entry is 0 some entry is -1 or 1. An all-zero buffer stays all zero, which is the model's division by zero; the program gets NaN there |
| Data.MinMaxScaled | src/stratosml/core/data/data.hpp:80-81 | `(data - min) / (max - min)` fails with `NoElements` exactly on a buffer with no entries; otherwise it keeps the size, every entry lies in [0, 1], and unless all entries are equal some entry is 0 and some is 1. A buffer of equal entries becomes all zero, which is the model's division by zero; the program gets NaN there |
| Data.Centred | src/stratosml/core/data/data.hpp:83 | `data - mean(data)` succeeds exactly when the buffer has at most one row or one column, since the row of column means must broadcast; otherwise it fails with a size mismatch |
| Data.Standardised | src/stratosml/core/data/data.hpp:83-84 | `Standart` scaling fails exactly when the centring does, and keeps the size |
| Data.MeanNormalised | src/stratosml/core/data/data.hpp:86-87 | `Mean` scaling fails with `NoElements` on a buffer with no entries, with a size mismatch when the centring does not broadcast, and succeeds otherwise at the same size |
| Data.ScaleSeries | src/stratosml/core/data/data.hpp:74-91 | `Series::Scale` keeps the name and size; every scaler but `Standart` fails with `NoElements` on an empty buffer, and any other failure is a size mismatch |
| Data.MaxAbsBounded | src/stratosml/core/data/data.hpp:77-78 | after `MaxAbs` a non-empty series has every entry in [-1, 1]; for an all-zero series this rests on the model's division by zero |
| Data.MinMaxBounded | src/stratosml/core/data/data.hpp:80-81 | after `MinMax` a non-empty series has every entry in [0, 1]; for a series of equal entries this rests on the model's division by zero |
| Data.Column | src/stratosml/core/data/data.hpp:125-132 | `df[name]` throws exactly when the name is not a key of the map |
| Data.Cell | src/stratosml/core/data/data.hpp:116-122 | `df(row, col)` reaches element `row` of the col-th listed column, and throws otherwise |
| Data.SetCell | src/stratosml/core/data/data.hpp:116-118 | writing a cell succeeds exactly when the cell exists and changes values only |
| Data.SetCellReads | src/stratosml/core/data/data.hpp:116-118 | with distinct names, the written cell reads back and every other cell is unchanged |
| Data.Shape | src/stratosml/core/data/data.hpp:150-152 | `GetShape` is (stored size of the first listed column, number of names), and throws without a first column |
| Data.AddColumn | src/stratosml/core/data/data.hpp:155-170 | `AddColumn` appends the name and maps it to the series |
| Data.AddColumnDuplicates | src/stratosml/core/data/data.hpp:167-170 | re-adding a name lists it once more and keeps only the new series under it |
| Data.FirstIndex | src/stratosml/core/data/data.hpp:173 | the search stops at the first listing of the name |
| Data.RemoveColumn | src/stratosml/core/data/data.hpp:172-178 | `RemoveColumn` throws when the name is not listed; otherwise it erases the first listing only and leaves the map alone |
| Data.RemoveColumnCounts | src/stratosml/core/data/data.hpp:172-178 | removal lists the name once less and every other name as often as before, and the removed series stays reachable |
| Data.AddThenRemove | src/stratosml/core/data/data.hpp:172-178 | adding a new name and removing it restores the list, while `df[name]` still finds the series |
| Data.ScaleFrame | src/stratosml/core/data/data.hpp:180-184 | `DataFrame::Scale` scales a copy of every series in the map, listed or not: whatever the visit order, it succeeds exactly when every series scales, and then leaves the frame unchanged; otherwise it fails with the error of the first failing series in the visit order |
| Data.ScaleSeesRemoved | src/stratosml/core/data/data.hpp:172-184 | after `RemoveColumn` the frame scales exactly when it did before, and fails with the same error in the same visit order, because the removed series is still in the map |
| Data.ScaleFailsOnEmpty | src/stratosml/core/data/data.hpp:180-184 | a series with no entries anywhere in the map makes the frame fail under every scaler but `Standart` in every visit order, with `NoElements` under `MaxAbs` and `MinMax` |
| Data.EmptyColumnFails | src/stratosml/core/data/data.hpp:46 | a frame whose one column was made by `Series(name)` fails to scale with `NoElements` under every scaler but `Standart` |
| Data.EmptyColumnStandardises | src/stratosml/core/data/data.hpp:83 | under `Standart` that frame scales and is unchanged |
| Data.RemovedColumnStillFails | src/stratosml/core/data/data.hpp:172-184 | removing that column leaves no listed column, yet `MaxAbs` scaling still fails with `NoElements` |
| Data.ScaleOrderDecidesError | src/stratosml/core/data/data.hpp:110 | with an empty series "a" and a 2×2 series "b" in the map, `Mean` scaling fails in both visit orders, with `NoElements` when "a" comes first and with a size mismatch when "b" comes first |
| Data.JoinSplit | src/stratosml/core/data/data.hpp:296-298 | splitting at commas and joining again gives back the line, and no piece holds a comma |
| Data.SplitJoin | src/stratosml/core/data/data.hpp:296-298 | comma-free pieces joined and split again come back unchanged |
| Data.FieldsJoin | src/stratosml/core/data/data.hpp:361-364 | the fields read from a joined line are the pieces, when none holds a comma and the last is not empty |
| Data.LastDot | src/stratosml/core/data/data.hpp:249 | `rfind(".")` finds the last dot, or none when there is no dot |
| Data.CsvNameIff | src/stratosml/core/data/data.hpp:249-261 | the extension test accepts exactly the names ending in ".csv" |
| Data.ScanRowsCounts | src/stratosml/core/data/data.hpp:304-341 | `GetMatrixSize` counts the lines up to the first empty one or the end, and takes the widest of them as the column count |
| Data.AddColumns | src/stratosml/core/data/data.hpp:348-350 | the header loop adds each label, in order, as a column of zeros sized to the counted rows |
| Data.FreshColumnsFit | src/stratosml/core/data/data.hpp:348-350 | in freshly added columns a cell exists exactly at a label's position and a counted row |
| Data.WriteFieldsLayout | src/stratosml/core/data/data.hpp:361-364 | writing a line's fields changes values only |
| Data.WriteFieldsWritesAt | src/stratosml/core/data/data.hpp:361-364 | field c of a line lands in column c of its row |
| Data.WriteRowsWrites | src/stratosml/core/data/data.hpp:355-367 | after the row loop, cell (r, c) holds field c of line r, and rows outside the lines are untouched |
| Data.FreshRowsFit | src/stratosml/core/data/data.hpp:355-367 | writing lines into fresh columns succeeds exactly when every field parses, no line is wider than the header, and every non-empty line is within the counted rows |
| Data.FreshRowsLayout | src/stratosml/core/data/data.hpp:345-350 | the loaded frame has the labels as columns, each sized to the counted rows |
| Data.FreshRowsCells | src/stratosml/core/data/data.hpp:355-367 | with distinct labels, cell (r, c) holds field c of line r |
| Data.LoadCsvFits | src/stratosml/core/data/data.hpp:343-370 | loading a file into an empty frame succeeds exactly when every field parses, no line is wider than the header, and no non-empty line follows the first empty one |
| Data.LoadCsvContents | src/stratosml/core/data/data.hpp:343-370 | a loaded frame's columns are the header labels, sized to the counted rows, and with distinct labels each cell holds its field |
| Data.Load | src/stratosml/core/data/data.hpp:246-284 | `Load` answers false and leaves the frame alone without a ".csv" extension or an openable file; otherwise it answers true with the CSV loaded, or fails as the loader does |

## Left out

- Training loop: `Model` in src/stratosml/core.hpp runs the loop with wall-clock timing and console output, so it is not part of this model. The example driver in src/stratosml/tests/main.cpp is not part of this model either.
- Console and stream output is not modelled: `operator<<`, `print`, and the `cerr`/`cout` messages of `Load`.
- Opening and closing files is a parameter. The file is the list of lines, or nothing when it cannot be opened.
- `stof` is a parser parameter. Parsing is left out because it is a library call.
- Floating point is modelled as real numbers. IEEE rounding, infinities and NaN are not modelled, so dividing by zero gives 0 here (`Quot`).
- Data.MaxAbsScaled: on a non-empty buffer whose entries are all 0, the program divides 0 by 0 and every entry becomes NaN. The model gives 0 in every entry, so the [-1, 1] bound holds there only because of `Quot`. The contract states that case in its own clause.
- Data.MinMaxScaled: on a non-empty buffer whose entries are all equal, `max - min` is 0 and every entry becomes NaN in the program. The model gives 0 in every entry, so the [0, 1] bound holds there only because of `Quot`. The contract states that case in its own clause.
- Data.MaxAbsBounded: the bound for an all-zero series rests on `Quot`; the program gives NaN there.
- Data.MinMaxBounded: the bound for a series of equal entries rests on `Quot`; the program gives NaN there.
- Transcendental functions are not modelled. `sin`, `cos`, `tan`, `log`, `exp`, `sqrt` and non-integer powers come from a parameter record. Only natural-number powers are computed exactly.
- Armadillo's debug check on `min()` and `max()` of a buffer with no entries is modelled as the error `NoElements`; a build with those checks disabled is not modelled.
- Data.ScaleSeries: C++ leaves the order of the two operands of `/` unspecified. The model reads `max() - min()` before `data - mean(data)` under `Mean`; this matters only for a buffer with no columns and at least two rows. The `default` branch of the switch cannot be reached with the four scalers, so it is not modelled.
- Data.Standardised: `stddev` goes through the `sqrt` parameter, so no bound on the scaled entries is stated; the contract gives exactly when it fails and the size.
- Data.ScaleFrame: each series is scaled as a copy (`auto [name, series]`), so the scaled values are dropped and only success or the error is observable.
- Data.ScaleFrame: the series live in an `std::unordered_map` (data.hpp:110), whose iteration order depends on the hash function and bucket layout and is unspecified. The order is a parameter (any listing of the keys, each once); which order a given map uses is not modelled. Whether scaling fails is the same in every order, but the error can differ (`Data.ScaleOrderDecidesError`).
- `ExponentialDecay::step` is modelled with `exp` as a parameter, so no numeric property of it is stated beyond the scheduler staying well-formed.
- Activations: `Sigmoid`, `Relu` and `SoftMax` have no call operator in the source, so only `Linear` is modelled.
- The `Layer()` default constructor is left out. It is only reached as a base of a derived class, and `Dense` always calls the checking constructor.
- `Initializer`/`Zeros` and `*=` on tensors are left out. None of the modelled code uses them.
- The frame's `shape` member is never written, so it is not kept. `GetColumns` is a plain accessor with no row.
- Memory is not modelled: `shared_ptr` reference counts, object lifetimes and leaked raw pointers (`new Series`, `new LearningRateScheduler`, the `Layer` activation) are replaced by an index arena.
- Reading past a `std::vector`'s end with `[]` is undefined behaviour, so these cases are preconditions:
  - `m[i]` or `v[i]` before `build`;
  - `shape[0]` of an empty shape;
  - a null `kernel` before `build`.
- Optimizers.AdamStep: `t` is an unbounded natural. The source's `size_t` would wrap after 2^64 steps.
- Optimizers.AdamStep: `epsilon` is never read by the live step, and no bias-corrected parameter update exists in the source (it is commented out). So the model updates the moments only.
- Optimizers.AdamStep: `t += 1` runs before the loop, so a step that throws in a later moment update has already incremented `t` and re-pointed the earlier moments. Nothing in the source catches the exception; the model returns only the error.
- Optimizers.MomentumStep: for a parameter with at least two rows and two columns the update fails with a size mismatch. A shape-built velocity is one column wide, so it does not fit a wider parameter. The contract states exactly when a step fails; it gives the new values through the update's tensor operations rather than entry by entry.
- Optimizers.MomentumStep: a step that throws at a later parameter has already re-pointed the earlier velocities and parameters. Nothing in the source catches the exception; the model returns only the error.
- Optimizers.MomentumStep: a parameter list that repeats the same handle object is modelled as two separate handles. In the source, the second `*param += v[i]` starts from the parameter the first one re-pointed; the model updates both entries from the node the list held at the start.
- Optimizers.DescentStep: a parameter list that repeats the same handle object is modelled as two separate handles, each updated from the node the list held at the start. In the source, the second `*param -= …` starts from the already re-pointed parameter.
- Nodes.Derive: a failing tensor operation in the middle of a pass returns an error. The accumulators already written before the throw are not kept.
- Data.LoadCsv: when a field throws partway, the frame's partly written state is likewise not kept. Only the error is returned.
- Data.Load: the `int ext_pos` conversion and the `pair<int, int>` narrowing of the row count in `LoadCSV` are not modelled. Both matter only beyond 2^31 characters or rows.
- Tensors.FromShape: `shape[1] || 1` reads `dims[1]` even for rank-1 shapes. The value cannot affect the result, so it is ignored.
- Tensors.Stddev: the per-entry values for more than one row go through `sqrt`, which is a parameter. The contract states the size and the single-row case.
- Losses.MseGradient: the gradient is stated for column inputs. For rows the pass fails (`MseRowsFail`), and other shapes are not characterised.

=== FILE: data.dfy ===
/** Tabular data: `Series`, `DataFrame` and the CSV loader of
    src/stratosml/core/data/data.hpp.

    A frame keeps two structures that only `AddColumn` keeps in step: a map
    from column name to series, and the ordered list of column names.
    Positional access goes through the list, access by name through the map.

    The file is given as the lines `getline` would return, and a stream
    position as an index into them; opening the file is a parameter (the
    lines, or nothing when it cannot be opened), and so is the float parser
    `stof` (a number, or nothing when the text is not one). */
module Data {
  import opened Wrappers
  import opened Numerics
  import opened Matrices
  import opened Tensors

  datatype Scaler = MaxAbs | MinMax | Standart | Mean

  datatype Series = Series(name: string, data: Tensor)

  /** `Series(name)`: an empty buffer. */
  function NamedSeries(name: string): (s: Series)
    ensures s.name == name && Rows(s.data) == 0 && Cols(s.data) == 0 && s.data.shape == []
  {
    Series(name, Empty())
  }

  /** `Series(name, size)`: a column of `size` zeros with stored shape {size}. */
  function SizedSeries(name: string, size: nat): (s: Series)
    ensures s.name == name && Rows(s.data) == size && Cols(s.data) == 1 && s.data.shape == [size]
    ensures forall i | 0 <= i < size :: At(s.data, i, 0) == 0.0
  {
    Series(name, FromShape([size]))
  }

  /** `GetSize`: the first stored dimension. Reading it needs rank >= 1. */
  function SizeOf(s: Series): nat
    requires |s.data.shape| >= 1
  {
    s.data.shape[0]
  }

  // ---------------------------------------------------------------------
  // Element access: `Tensor::operator()(size_t)`, Armadillo's bounds-checked
  // linear index, which runs down the columns.
  // ---------------------------------------------------------------------

  /** Linear index k as (row, column). */
  function Position(t: Tensor, k: nat): (int, int)
    requires k < Rows(t) * Cols(t)
  {
    (k % Rows(t), k / Rows(t))
  }

  function Element(t: Tensor, k: nat): (res: Result<real>)
    ensures res.Ok? <==> k < Rows(t) * Cols(t)
    ensures res.Err? ==> res.error == IndexOutOfBounds
  {
    if k < Rows(t) * Cols(t) then Ok(At(t, Position(t, k).0, Position(t, k).1)) else Err(IndexOutOfBounds)
  }

  /** Two linear indices inside the buffer name the same entry only when
      they are equal. */
  lemma PositionInjective(t: Tensor, k: nat, k': nat)
    requires k < Rows(t) * Cols(t) && k' < Rows(t) * Cols(t) && k != k'
    ensures Position(t, k) != Position(t, k')
  {
    var r := Rows(t);
    assert k == r * (k / r) + k % r;
    assert k' == r * (k' / r) + k' % r;
  }

  /** A linear index inside the buffer names an entry inside it. */
  lemma PositionInside(t: Tensor, k: nat)
    requires k < Rows(t) * Cols(t)
    ensures 0 <= Position(t, k).0 < Rows(t) && 0 <= Position(t, k).1 < Cols(t)
  {
    var r := Rows(t);
    assert k == r * (k / r) + k % r;
  }

  /** `data(k) = x`: the element is written when k is inside the buffer;
      otherwise Armadillo's bounds check throws. */
  function SetElement(t: Tensor, k: nat, x: real): (res: Result<Tensor>)
    ensures res.Ok? <==> k < Rows(t) * Cols(t)
    ensures res.Err? ==> res.error == IndexOutOfBounds
    ensures res.Ok? ==> SameDims(res.value, t) && res.value.shape == t.shape
  {
    if k < Rows(t) * Cols(t) then
      var p := Position(t, k);
      Ok(Tensor(Tabulate(Rows(t), Cols(t), (i, j) => if (i, j) == p then x else At(t, i, j)), t.shape))
    else Err(IndexOutOfBounds)
  }

  /** Reading back: the written element holds x and every other element is
      as it was. */
  lemma SetElementReads(t: Tensor, k: nat, x: real, k': nat)
    requires k < Rows(t) * Cols(t)
    ensures Element(SetElement(t, k, x).value, k') == if k' == k then Ok(x) else Element(t, k')
  {
    var u := SetElement(t, k, x).value;
    var p := Position(t, k);
    PositionInside(t, k);
    assert At(u, p.0, p.1) == x;
    if k' != k && k' < Rows(t) * Cols(t) {
      PositionInside(t, k');
      PositionInjective(t, k, k');
      var q := Position(t, k');
      assert At(u, q.0, q.1) == At(t, q.0, q.1);
    }
  }

  // ---------------------------------------------------------------------
  // Scaling: `Series::Scale`
  // ---------------------------------------------------------------------

  /** Whether `data - mean(data)` broadcasts: the mean has one row per
      column (none for an empty buffer), so the buffer must be a column or
      have at most one row. */
  predicate Centerable(t: Tensor)
  {
    Rows(t) <= 1 || Cols(t) == 1
  }

  /** `t - a` for a number a: entry by entry, at t's size. */
  lemma ShiftBy(t: Tensor, a: real)
    ensures Minus(t, FromScalar(a)).Ok?
    ensures var u := Minus(t, FromScalar(a)).value;
      SameDims(u, t) && forall i, j | 0 <= i < Rows(t) && 0 <= j < Cols(t) :: At(u, i, j) == At(t, i, j) - a
  {
  }

  /** `t / b` for a number b: entry by entry, at t's size. */
  lemma DivideBy(t: Tensor, b: real)
    ensures Quotient(t, FromScalar(b)).Ok?
    ensures var u := Quotient(t, FromScalar(b)).value;
      SameDims(u, t) && forall i, j | 0 <= i < Rows(t) && 0 <= j < Cols(t) :: At(u, i, j) == Quot(At(t, i, j), b)
  {
  }

  /** Every entry is 0. */
  predicate AllZero(t: Tensor)
  {
    forall i, j | 0 <= i < Rows(t) && 0 <= j < Cols(t) :: At(t, i, j) == 0.0
  }

  /** Every entry is the same, so the largest is the smallest. */
  predicate Flat(t: Tensor)
  {
    forall i, j, k, l | 0 <= i < Rows(t) && 0 <= j < Cols(t) && 0 <= k < Rows(t) && 0 <= l < Cols(t) ::
      At(t, i, j) == At(t, k, l)
  }

  /** `data / abs(data).max()`: every entry is divided by the largest
      absolute entry, so each lies in [-1, 1] and the largest reaches -1 or
      1. An all-zero buffer divides 0 by 0: the program's IEEE division
      gives NaN in every entry, the model's `Quot` gives 0. */
  function MaxAbsScaled(t: Tensor): (r: Result<Tensor>)
    ensures r.Ok? <==> !NoEntries(t)
    ensures r.Err? ==> r.error == NoElements
    ensures r.Ok? ==> SameDims(r.value, t)
    ensures r.Ok? ==> forall i, j | 0 <= i < Rows(t) && 0 <= j < Cols(t) :: -1.0 <= At(r.value, i, j) <= 1.0
    ensures r.Ok? && !AllZero(t) ==> exists i, j | 0 <= i < Rows(t) && 0 <= j < Cols(t) :: AbsReal(At(r.value, i, j)) == 1.0
    ensures r.Ok? && AllZero(t) ==> AllZero(r.value)
  {
    var top :- Largest(Absolute(t));
    WithinTop(t, top);
    TopReached(t, top);
    Ok(Quotient(t, FromScalar(top)).value)
  }

  /** Dividing by the largest absolute entry sends that entry to -1 or 1,
      unless every entry is 0, when every quotient is `Quot`'s 0. */
  lemma TopReached(t: Tensor, top: real)
    requires forall i, j | 0 <= i < Rows(t) && 0 <= j < Cols(t) :: At(Absolute(t), i, j) <= top
    requires exists i, j | 0 <= i < Rows(t) && 0 <= j < Cols(t) :: At(Absolute(t), i, j) == top
    ensures Quotient(t, FromScalar(top)).Ok?
    ensures var u := Quotient(t, FromScalar(top)).value;
      && (!AllZero(t) ==> exists i, j | 0 <= i < Rows(t) && 0 <= j < Cols(t) :: AbsReal(At(u, i, j)) == 1.0)
      && (AllZero(t) ==> AllZero(u))
  {
    DivideBy(t, top);
    var u := Quotient(t, FromScalar(top)).value;
    if !AllZero(t) {
      var a, b :| 0 <= a < Rows(t) && 0 <= b < Cols(t) && At(t, a, b) != 0.0;
      assert At(Absolute(t), a, b) == AbsReal(At(t, a, b)) <= top;
      var k, l :| 0 <= k < Rows(t) && 0 <= l < Cols(t) && At(Absolute(t), k, l) == top;
      assert AbsReal(At(t, k, l)) == top > 0.0;
      assert At(u, k, l) == Quot(At(t, k, l), top);
      QuotOfSize(At(t, k, l), top);
    }
  }

  /** A number divided by its own size is -1 or 1. */
  lemma QuotOfSize(x: real, m: real)
    requires AbsReal(x) == m > 0.0
    ensures AbsReal(Quot(x, m)) == 1.0
  {
    if x < 0.0 {
      assert x == -m;
      assert x / m == -1.0;
    }
  }

  /** Dividing by a bound on the absolute entries leaves every entry in [-1, 1]. */
  lemma WithinTop(t: Tensor, top: real)
    requires forall i, j | 0 <= i < Rows(t) && 0 <= j < Cols(t) :: At(Absolute(t), i, j) <= top
    ensures Quotient(t, FromScalar(top)).Ok?
    ensures var u := Quotient(t, FromScalar(top)).value;
      SameDims(u, t) && forall i, j | 0 <= i < Rows(t) && 0 <= j < Cols(t) :: -1.0 <= At(u, i, j) <= 1.0
  {
    DivideBy(t, top);
    var u := Quotient(t, FromScalar(top)).value;
    forall i, j | 0 <= i < Rows(t) && 0 <= j < Cols(t)
      ensures -1.0 <= At(u, i, j) <= 1.0
    {
      assert At(Absolute(t), i, j) == AbsReal(At(t, i, j));
      QuotWithinOne(At(t, i, j), top);
    }
  }

  /** `(data - data.min()) / (data.max() - data.min())`: the smallest entry
      goes to 0 and the largest to 1, so every entry lies in [0, 1]. A
      buffer whose entries are all equal divides 0 by 0: the program's IEEE
      division gives NaN in every entry, the model's `Quot` gives 0. */
  function MinMaxScaled(t: Tensor): (r: Result<Tensor>)
    ensures r.Ok? <==> !NoEntries(t)
    ensures r.Err? ==> r.error == NoElements
    ensures r.Ok? ==> SameDims(r.value, t)
    ensures r.Ok? ==> forall i, j | 0 <= i < Rows(t) && 0 <= j < Cols(t) :: 0.0 <= At(r.value, i, j) <= 1.0
    ensures r.Ok? && !Flat(t) ==>
      && (exists i, j | 0 <= i < Rows(t) && 0 <= j < Cols(t) :: At(r.value, i, j) == 0.0)
      && (exists i, j | 0 <= i < Rows(t) && 0 <= j < Cols(t) :: At(r.value, i, j) == 1.0)
    ensures r.Ok? && Flat(t) ==> AllZero(r.value)
  {
    var hi :- Largest(t);
    var lo := Smallest(t).value;
    SpreadInUnit(t, lo, hi);
    SpreadReached(t, lo, hi);
    Ok(Quotient(Minus(t, FromScalar(lo)).value, FromScalar(hi - lo)).value)
  }

  /** Shifting by the smallest entry and dividing by the spread to the
      largest sends those two entries to 0 and 1, unless all entries are
      equal, when every quotient is `Quot`'s 0. */
  lemma SpreadReached(t: Tensor, lo: real, hi: real)
    requires forall i, j | 0 <= i < Rows(t) && 0 <= j < Cols(t) :: lo <= At(t, i, j) <= hi
    requires exists i, j | 0 <= i < Rows(t) && 0 <= j < Cols(t) :: At(t, i, j) == lo
    requires exists i, j | 0 <= i < Rows(t) && 0 <= j < Cols(t) :: At(t, i, j) == hi
    ensures Minus(t, FromScalar(lo)).Ok? && Quotient(Minus(t, FromScalar(lo)).value, FromScalar(hi - lo)).Ok?
    ensures var u := Quotient(Minus(t, FromScalar(lo)).value, FromScalar(hi - lo)).value;
      && (!Flat(t) ==>
        && (exists i, j | 0 <= i < Rows(t) && 0 <= j < Cols(t) :: At(u, i, j) == 0.0)
        && (exists i, j | 0 <= i < Rows(t) && 0 <= j < Cols(t) :: At(u, i, j) == 1.0))
      && (Flat(t) ==> AllZero(u))
  {
    if Flat(t) {
      FlatSpreadZero(t, lo, hi);
    } else {
      SpreadPositive(t, lo, hi);
      SpreadEnds(t, lo, hi);
    }
  }

  /** All entries equal: lo and hi are both that entry, so every quotient
      divides by 0. */
  lemma FlatSpreadZero(t: Tensor, lo: real, hi: real)
    requires exists i, j | 0 <= i < Rows(t) && 0 <= j < Cols(t) :: At(t, i, j) == lo
    requires exists i, j | 0 <= i < Rows(t) && 0 <= j < Cols(t) :: At(t, i, j) == hi
    requires Flat(t)
    ensures Minus(t, FromScalar(lo)).Ok? && Quotient(Minus(t, FromScalar(lo)).value, FromScalar(hi - lo)).Ok?
    ensures AllZero(Quotient(Minus(t, FromScalar(lo)).value, FromScalar(hi - lo)).value)
  {
    ShiftBy(t, lo);
    var d := Minus(t, FromScalar(lo)).value;
    DivideBy(d, hi - lo);
    var u := Quotient(d, FromScalar(hi - lo)).value;
    var a, b :| 0 <= a < Rows(t) && 0 <= b < Cols(t) && At(t, a, b) == lo;
    var c, e :| 0 <= c < Rows(t) && 0 <= e < Cols(t) && At(t, c, e) == hi;
    assert At(t, a, b) == At(t, c, e);
    forall i, j | 0 <= i < Rows(t) && 0 <= j < Cols(t)
      ensures At(u, i, j) == 0.0
    {
      assert At(u, i, j) == Quot(At(d, i, j), 0.0);
    }
  }

  /** With lo < hi, the entries at lo and hi go to 0 and 1. */
  lemma SpreadEnds(t: Tensor, lo: real, hi: real)
    requires exists i, j | 0 <= i < Rows(t) && 0 <= j < Cols(t) :: At(t, i, j) == lo
    requires exists i, j | 0 <= i < Rows(t) && 0 <= j < Cols(t) :: At(t, i, j) == hi
    requires lo < hi
    ensures Minus(t, FromScalar(lo)).Ok? && Quotient(Minus(t, FromScalar(lo)).value, FromScalar(hi - lo)).Ok?
    ensures var u := Quotient(Minus(t, FromScalar(lo)).value, FromScalar(hi - lo)).value;
      && (exists i, j | 0 <= i < Rows(t) && 0 <= j < Cols(t) :: At(u, i, j) == 0.0)
      && (exists i, j | 0 <= i < Rows(t) && 0 <= j < Cols(t) :: At(u, i, j) == 1.0)
  {
    ShiftBy(t, lo);
    var d := Minus(t, FromScalar(lo)).value;
    DivideBy(d, hi - lo);
    var u := Quotient(d, FromScalar(hi - lo)).value;
    var a, b :| 0 <= a < Rows(t) && 0 <= b < Cols(t) && At(t, a, b) == lo;
    var c, e :| 0 <= c < Rows(t) && 0 <= e < Cols(t) && At(t, c, e) == hi;
    QuotEnds(hi - lo);
    assert At(d, a, b) == 0.0 && At(d, c, e) == hi - lo;
    assert At(u, a, b) == Quot(At(d, a, b), hi - lo) == 0.0;
    assert At(u, c, e) == Quot(At(d, c, e), hi - lo) == 1.0;
  }

  /** Two different entries between lo and hi leave room between them. */
  lemma SpreadPositive(t: Tensor, lo: real, hi: real)
    requires forall i, j | 0 <= i < Rows(t) && 0 <= j < Cols(t) :: lo <= At(t, i, j) <= hi
    requires !Flat(t)
    ensures lo < hi
  {
    var i, j, k, l :| 0 <= i < Rows(t) && 0 <= j < Cols(t) && 0 <= k < Rows(t) && 0 <= l < Cols(t)
      && At(t, i, j) != At(t, k, l);
    assert lo <= At(t, i, j) <= hi && lo <= At(t, k, l) <= hi;
  }

  /** Shifting by a lower bound lo and dividing by the spread to an upper
      bound hi leaves every entry in [0, 1]. */
  lemma SpreadInUnit(t: Tensor, lo: real, hi: real)
    requires forall i, j | 0 <= i < Rows(t) && 0 <= j < Cols(t) :: lo <= At(t, i, j) <= hi
    ensures Minus(t, FromScalar(lo)).Ok? && Quotient(Minus(t, FromScalar(lo)).value, FromScalar(hi - lo)).Ok?
    ensures var u := Quotient(Minus(t, FromScalar(lo)).value, FromScalar(hi - lo)).value;
      SameDims(u, t) && forall i, j | 0 <= i < Rows(t) && 0 <= j < Cols(t) :: 0.0 <= At(u, i, j) <= 1.0
  {
    ShiftBy(t, lo);
    var d := Minus(t, FromScalar(lo)).value;
    DivideBy(d, hi - lo);
    var u := Quotient(d, FromScalar(hi - lo)).value;
    forall i, j | 0 <= i < Rows(t) && 0 <= j < Cols(t)
      ensures 0.0 <= At(u, i, j) <= 1.0
    {
      assert At(d, i, j) == At(t, i, j) - lo;
      QuotInUnit(At(d, i, j), hi - lo);
    }
  }

  /** `data - mean(data)`: it broadcasts exactly for a `Centerable` buffer,
      and keeps the buffer's size. */
  function Centred(t: Tensor): (r: Result<Tensor>)
    ensures r.Ok? <==> Centerable(t)
    ensures r.Err? ==> r.error == ShapeMismatch
    ensures r.Ok? ==> SameDims(r.value, t)
  {
    Minus(t, Tensors.Mean(t))
  }

  /** `(data - mean(data)) / stddev(data)`. */
  function Standardised(fns: Math, t: Tensor): (r: Result<Tensor>)
    ensures r.Ok? <==> Centerable(t)
    ensures r.Err? ==> r.error == ShapeMismatch
    ensures r.Ok? ==> SameDims(r.value, t)
  {
    var d :- Centred(t);
    Ok(Quotient(d, Stddev(fns, t)).value)
  }

  /** `(data - mean(data)) / (data.max() - data.min())`. */
  function MeanNormalised(t: Tensor): (r: Result<Tensor>)
    ensures r.Ok? <==> !NoEntries(t) && Centerable(t)
    ensures NoEntries(t) ==> r == Err(NoElements)
    ensures r.Err? && !NoEntries(t) ==> r.error == ShapeMismatch
    ensures r.Ok? ==> SameDims(r.value, t)
  {
    var hi :- Largest(t);
    var lo := Smallest(t).value;
    var d :- Centred(t);
    DivideBy(d, hi - lo);
    Ok(Quotient(d, FromScalar(hi - lo)).value)
  }

  /** `Series::Scale(scaler)`: the series' buffer is rescaled, or the call
      fails. `max()` and `min()` fail, both alike, on a buffer with no
      entries; the divisions by a single number always broadcast. C++ leaves
      the order of the two operands of `/` open; the model reads
      `max() - min()` first. The `default` branch cannot be reached with the
      four scalers. */
  function ScaleSeries(fns: Math, s: Series, scaler: Scaler): (r: Result<Series>)
    ensures r.Ok? ==> r.value.name == s.name && SameDims(r.value.data, s.data)
    ensures !scaler.Standart? && NoEntries(s.data) ==> r == Err(NoElements)
    ensures scaler.MaxAbs? || scaler.MinMax? ==> (r.Ok? <==> !NoEntries(s.data))
    ensures scaler.Mean? ==> (r.Ok? <==> !NoEntries(s.data) && Centerable(s.data))
    ensures scaler.Standart? ==> (r.Ok? <==> Centerable(s.data))
    ensures r.Err? && !NoEntries(s.data) ==> r.error == ShapeMismatch
  {
    var d :- match scaler
      case MaxAbs => MaxAbsScaled(s.data)
      case MinMax => MinMaxScaled(s.data)
      case Standart => Standardised(fns, s.data)
      case Mean => MeanNormalised(s.data);
    Ok(s.(data := d))
  }

  /** After `MaxAbs` every entry lies in [-1, 1]. */
  lemma MaxAbsBounded(fns: Math, s: Series)
    requires !NoEntries(s.data)
    ensures ScaleSeries(fns, s, MaxAbs).Ok?
    ensures var t := ScaleSeries(fns, s, MaxAbs).value.data;
      forall i, j | 0 <= i < Rows(t) && 0 <= j < Cols(t) :: -1.0 <= At(t, i, j) <= 1.0
  {
    assert ScaleSeries(fns, s, MaxAbs).value.data == MaxAbsScaled(s.data).value;
  }

  /** After `MinMax` every entry lies in [0, 1]. */
  lemma MinMaxBounded(fns: Math, s: Series)
    requires !NoEntries(s.data)
    ensures ScaleSeries(fns, s, MinMax).Ok?
    ensures var t := ScaleSeries(fns, s, MinMax).value.data;
      forall i, j | 0 <= i < Rows(t) && 0 <= j < Cols(t) :: 0.0 <= At(t, i, j) <= 1.0
  {
    assert ScaleSeries(fns, s, MinMax).value.data == MinMaxScaled(s.data).value;
  }

  // ---------------------------------------------------------------------
  // DataFrame
  // ---------------------------------------------------------------------

  /** The frame's `shape` member is never written, so it is not kept. */
  datatype DataFrame = DataFrame(data: map<string, Series>, columns: seq<string>)

  const EmptyFrame := DataFrame(map[], [])

  /** Every listed column has a series. `AddColumn` and `RemoveColumn` keep
      this; the map may hold more. */
  predicate Consistent(df: DataFrame)
  {
    forall i | 0 <= i < |df.columns| :: df.columns[i] in df.data
  }

  /** `df[name]`: the series under that name in the map. */
  function Column(df: DataFrame, name: string): (res: Result<Series>)
    ensures res.Ok? <==> name in df.data
    ensures res.Ok? ==> res.value == df.data[name]
    ensures res.Err? ==> res.error == InvalidArgument("Column does not exist")
  {
    if name !in df.data then Err(InvalidArgument("Column does not exist")) else Ok(df.data[name])
  }

  /** `df(row, col)`: the col-th listed name (`columns.at`), its series
      (`data.at`), then element `row` of it; each step can throw. */
  function Cell(df: DataFrame, row: nat, col: nat): (res: Result<real>)
    ensures res.Ok? <==> CellFits(df, row, col)
    ensures res.Err? ==> res.error == IndexOutOfBounds
  {
    if col >= |df.columns| || df.columns[col] !in df.data then Err(IndexOutOfBounds)
    else Element(df.data[df.columns[col]].data, row)
  }

  /** Whether `df(row, col)` reaches an element. */
  predicate CellFits(df: DataFrame, row: nat, col: nat)
  {
    && col < |df.columns| && df.columns[col] in df.data
    && row < Rows(df.data[df.columns[col]].data) * Cols(df.data[df.columns[col]].data)
  }

  /** `df(row, col) = x`. */
  function SetCell(df: DataFrame, row: nat, col: nat, x: real): (res: Result<DataFrame>)
    ensures res.Ok? <==> CellFits(df, row, col)
    ensures res.Err? ==> res.error == IndexOutOfBounds
    ensures res.Ok? ==> SameLayout(df, res.value)
  {
    if col >= |df.columns| || df.columns[col] !in df.data then Err(IndexOutOfBounds)
    else
      var name := df.columns[col];
      var s := df.data[name];
      var t :- SetElement(s.data, row, x);
      Ok(df.(data := df.data[name := s.(data := t)]))
  }

  /** Same names, same keys, and every series of the same name, buffer
      dimensions and stored shape: only element values may differ. */
  predicate SameLayout(a: DataFrame, b: DataFrame)
  {
    && a.columns == b.columns && a.data.Keys == b.data.Keys
    && forall k | k in a.data :: a.data[k].name == b.data[k].name && SameDims(a.data[k].data, b.data[k].data) && a.data[k].data.shape == b.data[k].data.shape
  }

  /** Columns listed under distinct names. */
  predicate Distinct(columns: seq<string>)
  {
    forall i, j | 0 <= i < j < |columns| :: columns[i] != columns[j]
  }

  /** After `df(row, col) = x` the cell reads x back; with distinct column
      names, every other cell reads as before. */
  lemma SetCellReads(df: DataFrame, row: nat, col: nat, x: real, row': nat, col': nat)
    requires CellFits(df, row, col) && Distinct(df.columns)
    ensures Cell(SetCell(df, row, col, x).value, row', col') == if (row', col') == (row, col) then Ok(x) else Cell(df, row', col')
  {
    var name := df.columns[col];
    SetElementReads(df.data[name].data, row, x, row');
    if col' < |df.columns| && col' != col {
      assert df.columns[col'] != name;
    }
  }

  /** `GetShape()`: (size of the first listed column, number of names). The
      first name is read with `columns.at(0)` and its series with
      `data.at`, which throw when missing; the size needs the series' stored
      shape to have rank >= 1. */
  function Shape(df: DataFrame): (res: Result<(nat, nat)>)
    requires |df.columns| > 0 && df.columns[0] in df.data ==> |df.data[df.columns[0]].data.shape| >= 1
    ensures res.Ok? <==> |df.columns| > 0 && df.columns[0] in df.data
    ensures res.Err? ==> res.error == IndexOutOfBounds
    ensures res.Ok? ==> res.value.1 == |df.columns| && res.value.0 == df.data[df.columns[0]].data.shape[0]
  {
    if |df.columns| == 0 || df.columns[0] !in df.data then Err(IndexOutOfBounds)
    else Ok((SizeOf(df.data[df.columns[0]]), |df.columns|))
  }

  /** `AddColumn(series)`: the map entry under the series' name is set
      (replacing any earlier one) and the name is appended to the list, even
      if it is already there. `AddColumn(name)` and `AddColumn(name, size)`
      add `NamedSeries(name)` and `SizedSeries(name, size)`. */
  function AddColumn(df: DataFrame, s: Series): (r: DataFrame)
    ensures r.columns == df.columns + [s.name]
    ensures r.data == df.data[s.name := s]
    ensures Consistent(df) ==> Consistent(r)
  {
    DataFrame(df.data[s.name := s], df.columns + [s.name])
  }

  /** The number of times a name is listed. */
  function Occurrences(columns: seq<string>, name: string): nat
  {
    if columns == [] then 0
    else Occurrences(columns[..|columns| - 1], name) + (if columns[|columns| - 1] == name then 1 else 0)
  }

  /** Adding a name already listed lists it once more and keeps only the new
      series under it. */
  lemma {:induction false} AddColumnDuplicates(df: DataFrame, s: Series)
    ensures Occurrences(AddColumn(df, s).columns, s.name) == Occurrences(df.columns, s.name) + 1
    ensures Column(AddColumn(df, s), s.name) == Ok(s)
    ensures forall k | k in df.data && k != s.name :: Column(AddColumn(df, s), k) == Column(df, k)
  {
    var r := AddColumn(df, s);
    assert r.columns[..|r.columns| - 1] == df.columns;
  }

  /** Where `std::find` stops: the first index holding the name. */
  function FirstIndex(columns: seq<string>, name: string): (i: nat)
    requires name in columns
    ensures i < |columns| && columns[i] == name && name !in columns[..i]
  {
    if columns[0] == name then 0 else 1 + FirstIndex(columns[1..], name)
  }

  /** `RemoveColumn(name)`: throws its message when the name is not listed;
      otherwise erases the first listing only. The map is left alone. */
  function RemoveColumn(df: DataFrame, name: string): (res: Result<DataFrame>)
    ensures res.Ok? <==> name in df.columns
    ensures res.Err? ==> res.error == Thrown("RemoveColumn: Column not found.")
    ensures res.Ok? ==> res.value.data == df.data
    ensures res.Ok? ==>
      var i := FirstIndex(df.columns, name);
      res.value.columns == df.columns[..i] + df.columns[i + 1..]
  {
    if name !in df.columns then Err(Thrown("RemoveColumn: Column not found."))
    else
      var i := FirstIndex(df.columns, name);
      Ok(df.(columns := df.columns[..i] + df.columns[i + 1..]))
  }

  /** Removing one listing: the name is listed once less, every other name
      as often as before; the frame stays consistent and the removed column
      is still reachable by name. */
  lemma RemoveColumnCounts(df: DataFrame, name: string, other: string)
    requires name in df.columns && other != name
    ensures var r := RemoveColumn(df, name).value;
      && multiset(r.columns) == multiset(df.columns) - multiset{name}
      && multiset(r.columns)[other] == multiset(df.columns)[other]
      && (Consistent(df) ==> Consistent(r))
      && (name in df.data ==> Column(r, name) == Column(df, name))
  {
    var i := FirstIndex(df.columns, name);
    var r := RemoveColumn(df, name).value;
    assert df.columns == df.columns[..i] + [name] + df.columns[i + 1..];
    if Consistent(df) {
      forall j | 0 <= j < |r.columns|
        ensures r.columns[j] in r.data
      {
        if j < i {
          assert r.columns[j] == df.columns[j];
        } else {
          assert r.columns[j] == df.columns[j + 1];
        }
      }
    }
  }

  /** Adding a new name and removing it again restores the list, but the
      series stays in the map: `df[name]` still finds it. */
  lemma AddThenRemove(df: DataFrame, s: Series)
    requires s.name !in df.columns
    ensures RemoveColumn(AddColumn(df, s), s.name).Ok?
    ensures RemoveColumn(AddColumn(df, s), s.name).value.columns == df.columns
    ensures Column(RemoveColumn(AddColumn(df, s), s.name).value, s.name) == Ok(s)
  {
    var a := AddColumn(df, s);
    assert a.columns[|df.columns|] == s.name;
    assert FirstIndex(a.columns, s.name) == |df.columns|;
    assert a.columns[..|df.columns|] == df.columns;
  }

  // ---------------------------------------------------------------------
  // `DataFrame::Scale`: a loop over an `std::unordered_map`
  // ---------------------------------------------------------------------

  /** An order in which the iterators of an `std::unordered_map` may visit
      its keys: each key exactly once. Which order a given map uses depends
      on its hash function and bucket layout, and is unspecified. */
  predicate VisitOrder(ns: seq<string>, keys: set<string>)
  {
    && (forall i | 0 <= i < |ns| :: ns[i] in keys)
    && (forall k | k in keys :: k in ns)
    && Distinct(ns)
  }

  /** The loop over the names ns, in order: each series is copied and the
      copy passed to `scale`, and the first failure ends the loop. */
  function ScaleEach(df: DataFrame, ns: seq<string>, scale: Series -> Result<Series>): (r: Result<DataFrame>)
    requires forall i | 0 <= i < |ns| :: ns[i] in df.data
    ensures r.Ok? <==> forall i | 0 <= i < |ns| :: scale(df.data[ns[i]]).Ok?
    ensures r.Ok? ==> r.value == df
    ensures r.Err? ==> exists i | 0 <= i < |ns| ::
      && scale(df.data[ns[i]]) == Err(r.error)
      && forall i' | 0 <= i' < i :: scale(df.data[ns[i']]).Ok?
  {
    if ns == [] then Ok(df)
    else
      var _ :- scale(df.data[ns[0]]);
      var r := ScaleEach(df, ns[1..], scale);
      assert forall i | 1 <= i < |ns| :: ns[1..][i - 1] == ns[i];
      r
  }

  /** `DataFrame::Scale(scaler)`, visiting the map's keys in the order
      `order`: each series is copied and the copy scaled, so on success the
      frame is unchanged; the first failure in that order is the frame's
      failure. Whether it fails does not depend on the order. */
  function ScaleFrame(fns: Math, df: DataFrame, scaler: Scaler, order: seq<string>): (r: Result<DataFrame>)
    requires VisitOrder(order, df.data.Keys)
    ensures r.Ok? <==> forall name | name in df.data :: ScaleSeries(fns, df.data[name], scaler).Ok?
    ensures r.Ok? ==> r.value == df
    ensures r.Err? ==> exists i | 0 <= i < |order| ::
      && ScaleSeries(fns, df.data[order[i]], scaler) == Err(r.error)
      && forall j | 0 <= j < i :: ScaleSeries(fns, df.data[order[j]], scaler).Ok?
  {
    ScaleEach(df, order, s => ScaleSeries(fns, s, scaler))
  }

  /** `RemoveColumn` leaves the map alone, so a removed column is still
      scaled: in any visit order, the frame scales exactly when it did
      before the removal, and fails with the same error. */
  lemma ScaleSeesRemoved(fns: Math, df: DataFrame, name: string, scaler: Scaler, order: seq<string>)
    requires RemoveColumn(df, name).Ok? && VisitOrder(order, df.data.Keys)
    ensures VisitOrder(order, RemoveColumn(df, name).value.data.Keys)
    ensures ScaleFrame(fns, RemoveColumn(df, name).value, scaler, order).Ok? == ScaleFrame(fns, df, scaler, order).Ok?
    ensures ScaleFrame(fns, df, scaler, order).Err? ==>
      ScaleFrame(fns, RemoveColumn(df, name).value, scaler, order) == ScaleFrame(fns, df, scaler, order)
  {
  }

  /** A frame holding a series with no entries, listed or not, fails to
      scale under every scaler but `Standart`, whatever the visit order;
      under `MaxAbs` and `MinMax` no other failure is possible, so the
      error is Armadillo's. */
  lemma ScaleFailsOnEmpty(fns: Math, df: DataFrame, name: string, scaler: Scaler, order: seq<string>)
    requires name in df.data && NoEntries(df.data[name].data) && !scaler.Standart?
    requires VisitOrder(order, df.data.Keys)
    ensures ScaleFrame(fns, df, scaler, order).Err?
    ensures scaler.MaxAbs? || scaler.MinMax? ==> ScaleFrame(fns, df, scaler, order) == Err(NoElements)
  {
    assert ScaleSeries(fns, df.data[name], scaler) == Err(NoElements);
    var r := ScaleFrame(fns, df, scaler, order);
    if scaler.MaxAbs? || scaler.MinMax? {
      var i :| 0 <= i < |order| && ScaleSeries(fns, df.data[order[i]], scaler) == Err(r.error);
      assert NoEntries(df.data[order[i]].data);
    }
  }

  /** A frame with one column, created by `Series(name)` and so empty. */
  function EmptyColumnFrame(name: string): (df: DataFrame)
    ensures df.columns == [name] && df.data.Keys == {name}
    ensures NoEntries(df.data[name].data) && Rows(df.data[name].data) == 0
  {
    AddColumn(EmptyFrame, NamedSeries(name))
  }

  /** Such a frame fails to scale under every scaler but `Standart`, with
      Armadillo's error; its one key is visited alone. */
  lemma EmptyColumnFails(fns: Math, name: string, scaler: Scaler)
    requires !scaler.Standart?
    ensures VisitOrder([name], EmptyColumnFrame(name).data.Keys)
    ensures ScaleFrame(fns, EmptyColumnFrame(name), scaler, [name]) == Err(NoElements)
  {
    var df := EmptyColumnFrame(name);
    assert VisitOrder([name], df.data.Keys);
    ScaleFailsOnEmpty(fns, df, name, scaler, [name]);
  }

  /** Under `Standart` the empty buffer broadcasts, so the frame scales and
      is unchanged. */
  lemma EmptyColumnStandardises(fns: Math, name: string)
    ensures VisitOrder([name], EmptyColumnFrame(name).data.Keys)
    ensures ScaleFrame(fns, EmptyColumnFrame(name), Standart, [name]) == Ok(EmptyColumnFrame(name))
  {
    var df := EmptyColumnFrame(name);
    assert VisitOrder([name], df.data.Keys);
    assert Centerable(df.data[name].data);
  }

  /** Removing the column empties the list but not the map, so the frame
      still fails to scale. */
  lemma RemovedColumnStillFails(fns: Math, name: string)
    ensures RemoveColumn(EmptyColumnFrame(name), name).Ok?
    ensures RemoveColumn(EmptyColumnFrame(name), name).value.columns == []
    ensures VisitOrder([name], RemoveColumn(EmptyColumnFrame(name), name).value.data.Keys)
    ensures ScaleFrame(fns, RemoveColumn(EmptyColumnFrame(name), name).value, MaxAbs, [name]) == Err(NoElements)
  {
    var df := EmptyColumnFrame(name);
    assert FirstIndex(df.columns, name) == 0;
    var d := RemoveColumn(df, name).value;
    assert d.data == df.data;
    assert VisitOrder([name], d.data.Keys);
    ScaleFailsOnEmpty(fns, d, name, MaxAbs, [name]);
  }

  /** A frame holding an empty series "a" and a 2×2 series "b". */
  function TwoSeriesFrame(): (df: DataFrame)
    ensures df.data.Keys == {"a", "b"}
    ensures NoEntries(df.data["a"].data)
    ensures Rows(df.data["b"].data) == 2 && Cols(df.data["b"].data) == 2
  {
    AddColumn(AddColumn(EmptyFrame, NamedSeries("a")), Series("b", ZerosOfSize(2, 2)))
  }

  /** The error depends on the visit order. Under `Mean`, "a" fails on its
      missing entries and "b" fails because a 2×2 buffer cannot be centred
      by its 1×2 column means. The frame fails in either order, but
      visiting "a" first gives Armadillo's error, and visiting "b" first
      gives the size mismatch. */
  lemma ScaleOrderDecidesError(fns: Math)
    ensures VisitOrder(["a", "b"], TwoSeriesFrame().data.Keys)
    ensures VisitOrder(["b", "a"], TwoSeriesFrame().data.Keys)
    ensures ScaleFrame(fns, TwoSeriesFrame(), Mean, ["a", "b"]) == Err(NoElements)
    ensures ScaleFrame(fns, TwoSeriesFrame(), Mean, ["b", "a"]) == Err(ShapeMismatch)
  {
    var df := TwoSeriesFrame();
    assert VisitOrder(["a", "b"], df.data.Keys);
    assert VisitOrder(["b", "a"], df.data.Keys);
    assert ScaleSeries(fns, df.data["a"], Mean) == Err(NoElements);
    assert ScaleSeries(fns, df.data["b"], Mean) == Err(ShapeMismatch);
  }

  // ---------------------------------------------------------------------
  // Splitting a line on commas: `getline(linestream, field, ',')` in a loop
  // ---------------------------------------------------------------------

  /** The pieces between commas: one more than there are commas. */
  function Split(line: string): (ps: seq<string>)
    ensures |ps| >= 1
  {
    if line == [] then [[]]
    else if line[0] == ',' then [[]] + Split(line[1..])
    else
      var rest := Split(line[1..]);
      [[line[0]] + rest[0]] + rest[1..]
  }

  /** The fields the loop reads: the pieces, except that a last piece that
      is empty is never read, since `getline` fails when it extracts
      nothing. So "" has no field and "a,b," has two. */
  function Fields(line: string): (fs: seq<string>)
  {
    var ps := Split(line);
    if ps[|ps| - 1] == [] then ps[..|ps| - 1] else ps
  }

  predicate NoComma(s: string)
  {
    forall i | 0 <= i < |s| :: s[i] != ','
  }

  /** Fields written out with a comma between each two. */
  function Join(fs: seq<string>): string
  {
    if fs == [] then [] else if |fs| == 1 then fs[0] else fs[0] + [','] + Join(fs[1..])
  }

  /** Splitting and joining again gives back the line, and no piece holds a
      comma. */
  lemma {:induction false} JoinSplit(line: string)
    ensures Join(Split(line)) == line
    ensures forall i | 0 <= i < |Split(line)| :: NoComma(Split(line)[i])
  {
    if line != [] {
      var rest := Split(line[1..]);
      JoinSplit(line[1..]);
      if line[0] == ',' {
        assert Split(line) == [[]] + rest;
        assert Split(line)[1..] == rest;
        assert line == [] + [','] + line[1..];
        forall i | 0 <= i < |Split(line)|
          ensures NoComma(Split(line)[i])
        {
          if i > 0 {
            assert Split(line)[i] == rest[i - 1];
          }
        }
      } else {
        var ps := Split(line);
        assert ps[0] == [line[0]] + rest[0] && ps[1..] == rest[1..];
        if |rest| == 1 {
          assert line == [line[0]] + line[1..];
        } else {
          assert Join(rest) == rest[0] + [','] + Join(rest[1..]);
          assert line == [line[0]] + line[1..];
        }
        forall i | 0 <= i < |ps|
          ensures NoComma(ps[i])
        {
          if i == 0 {
            assert NoComma(rest[0]);
          } else {
            assert ps[i] == rest[i];
          }
        }
      }
    }
  }

  /** A comma-free text is a single piece. */
  lemma {:induction false} SplitPlain(a: string)
    requires NoComma(a)
    ensures Split(a) == [a]
  {
    if a != [] {
      SplitPlain(a[1..]);
      assert [a[0]] + a[1..] == a;
    }
  }

  /** A comma-free text followed by a comma is a first piece. */
  lemma {:induction false} SplitFirst(a: string, rest: string)
    requires NoComma(a)
    ensures Split(a + [','] + rest) == [a] + Split(rest)
  {
    if a == [] {
      assert ([] + [','] + rest)[1..] == rest;
    } else {
      SplitFirst(a[1..], rest);
      assert (a + [','] + rest)[1..] == a[1..] + [','] + rest;
      assert [a[0]] + a[1..] == a;
    }
  }

  /** Joining comma-free pieces and splitting again gives them back. */
  lemma {:induction false} SplitJoin(fs: seq<string>)
    requires |fs| >= 1
    requires forall i | 0 <= i < |fs| :: NoComma(fs[i])
    ensures Split(Join(fs)) == fs
  {
    if |fs| == 1 {
      SplitPlain(fs[0]);
    } else {
      SplitJoin(fs[1..]);
      SplitFirst(fs[0], Join(fs[1..]));
      assert [fs[0]] + fs[1..] == fs;
    }
  }

  /** Fields come back from their joined line when none holds a comma and
      the last is not empty (an empty last field would not be read). */
  lemma FieldsJoin(fs: seq<string>)
    requires forall i | 0 <= i < |fs| :: NoComma(fs[i])
    requires fs != [] ==> fs[|fs| - 1] != []
    ensures Fields(Join(fs)) == fs
  {
    if fs != [] {
      SplitJoin(fs);
    }
  }

  // ---------------------------------------------------------------------
  // The extension check of `Load`
  // ---------------------------------------------------------------------

  /** `filename.rfind(".")`. */
  function LastDot(s: string): (r: Option<nat>)
    ensures r.Some? ==> r.value < |s| && s[r.value] == '.' && forall i | r.value < i < |s| :: s[i] != '.'
    ensures r.None? ==> forall i | 0 <= i < |s| :: s[i] != '.'
  {
    if s == [] then None
    else if s[|s| - 1] == '.' then Some(|s| - 1)
    else LastDot(s[..|s| - 1])
  }

  /** There is a dot and the text after the last one is exactly "csv". */
  predicate IsCsvName(filename: string)
  {
    var p := LastDot(filename);
    p.Some? && filename[p.value + 1..] == "csv"
  }

  /** The extension test accepts exactly the names ending in ".csv". */
  lemma CsvNameIff(filename: string)
    ensures IsCsvName(filename) <==> |filename| >= 4 && filename[|filename| - 4..] == ".csv"
  {
    var n := |filename|;
    var p := LastDot(filename);
    if n >= 4 && filename[n - 4..] == ".csv" {
      assert filename[n - 4] == '.' && filename[n - 3] == 'c' && filename[n - 2] == 's' && filename[n - 1] == 'v';
      assert p.Some? && p.value == n - 4;
      assert filename[p.value + 1..] == "csv";
    }
    if IsCsvName(filename) {
      assert |filename[p.value + 1..]| == 3;
      assert p.value == n - 4;
      assert filename[n - 4..] == [filename[n - 4]] + filename[p.value + 1..];
    }
  }

  // ---------------------------------------------------------------------
  // Reading the file
  // ---------------------------------------------------------------------

  /** `GetColumnLabels`: the fields of the first line (none when the file
      has no line); the stream is left after that line. */
  function ColumnLabels(lines: seq<string>): seq<string>
  {
    if lines == [] then [] else Fields(lines[0])
  }

  /** Where the header leaves the stream. */
  function AfterHeader(lines: seq<string>): nat
  {
    if lines == [] then 0 else 1
  }

  function Max(a: nat, b: nat): nat
  {
    if a < b then b else a
  }

  /** The number of fields of each line. */
  function Widths(lines: seq<string>): (ws: seq<nat>)
    ensures |ws| == |lines| && forall j | 0 <= j < |lines| :: ws[j] == |Fields(lines[j])|
  {
    seq(|lines|, j requires 0 <= j < |lines| => |Fields(lines[j])|)
  }

  /** The loop of `GetMatrixSize` from line i, with `rows` lines counted
      and `cols` the widest so far (ws holds each line's field count): it
      stops at the end or at an empty line. */
  function ScanRows(lines: seq<string>, ws: seq<nat>, i: nat, rows: nat, cols: nat): (nat, nat)
    requires i <= |lines| == |ws|
    decreases |lines| - i
  {
    if i == |lines| || lines[i] == [] then (rows, cols)
    else ScanRows(lines, ws, i + 1, rows + 1, Max(cols, ws[i]))
  }

  /** `GetMatrixSize` from position pos. It restores the stream position, so
      it is a function of the lines and pos alone. */
  function MatrixSize(lines: seq<string>, pos: nat): (nat, nat)
    requires pos <= |lines|
  {
    ScanRows(lines, Widths(lines), pos, 0, 0)
  }

  /** What the scan has established after reaching line i. */
  predicate Scanned(lines: seq<string>, ws: seq<nat>, pos: nat, i: nat, cols: nat)
    requires pos <= i <= |lines| == |ws|
  {
    && (forall j | pos <= j < i :: lines[j] != [] && ws[j] <= cols)
    && (i == pos ==> cols == 0)
    && (i > pos ==> exists j | pos <= j < i :: ws[j] == cols)
  }

  lemma {:induction false} ScanRowsCounts(lines: seq<string>, ws: seq<nat>, pos: nat, i: nat, cols: nat)
    requires pos <= i <= |lines| == |ws| && Scanned(lines, ws, pos, i, cols)
    ensures var r := ScanRows(lines, ws, i, i - pos, cols);
      && pos + r.0 <= |lines| && Scanned(lines, ws, pos, pos + r.0, r.1)
      && (pos + r.0 == |lines| || lines[pos + r.0] == [])
    decreases |lines| - i
  {
    if i < |lines| && lines[i] != [] {
      var c := Max(cols, ws[i]);
      var w: nat := i;
      if i > pos && c == cols {
        w :| pos <= w < i && ws[w] == cols;
      }
      assert pos <= w < i + 1 && ws[w] == c;
      ScanRowsCounts(lines, ws, pos, i + 1, c);
    }
  }

  /** The header loop of `LoadCSV`: `AddColumn(label, size)` for each label,
      in order. */
  function AddColumns(df: DataFrame, labels: seq<string>, size: nat): (r: DataFrame)
    ensures r.columns == df.columns + labels
    ensures r.data.Keys == df.data.Keys + set l | l in labels
    ensures forall l | l in labels :: r.data[l] == SizedSeries(l, size)
    ensures forall k | k in df.data && k !in labels :: r.data[k] == df.data[k]
    decreases |labels|
  {
    if labels == [] then df
    else
      var r := AddColumns(AddColumn(df, SizedSeries(labels[0], size)), labels[1..], size);
      assert labels == [labels[0]] + labels[1..];
      r
  }

  /** `stof`: the number, or the `invalid_argument` it throws. */
  function ParseField(parse: string -> Option<real>, text: string): (res: Result<real>)
  {
    if parse(text).None? then Err(InvalidArgument("stof")) else Ok(parse(text).value)
  }

  /** The inner loop of `LoadCSV`: field c of the line into `df(row, col + c)`.
      The number is parsed before the cell is looked up. */
  function WriteFields(df: DataFrame, row: nat, fields: seq<string>, col: nat, parse: string -> Option<real>): (res: Result<DataFrame>)
    ensures res.Ok? ==> res.value.columns == df.columns
    decreases |fields|
  {
    if fields == [] then Ok(df)
    else
      var x :- ParseField(parse, fields[0]);
      var d :- SetCell(df, row, col, x);
      WriteFields(d, row, fields[1..], col + 1, parse)
  }

  /** Writing fields changes values only: the frame keeps its layout. */
  lemma {:induction false} WriteFieldsLayout(df: DataFrame, row: nat, fields: seq<string>, col: nat, parse: string -> Option<real>)
    requires WriteFields(df, row, fields, col, parse).Ok?
    ensures SameLayout(df, WriteFields(df, row, fields, col, parse).value)
    decreases |fields|
  {
    if fields != [] {
      var d := SetCell(df, row, col, parse(fields[0]).value).value;
      WriteFieldsLayout(d, row, fields[1..], col + 1, parse);
    }
  }

  /** The fields of every line, in order. */
  function Records(lines: seq<string>): (rs: seq<seq<string>>)
    ensures |rs| == |lines|
  {
    if lines == [] then [] else [Fields(lines[0])] + Records(lines[1..])
  }

  /** Record j is the fields of line j. */
  lemma {:induction false} RecordsFields(lines: seq<string>, j: nat)
    requires j < |lines|
    ensures Records(lines)[j] == Fields(lines[j])
  {
    if j > 0 {
      RecordsFields(lines[1..], j - 1);
    }
  }

  /** The outer loop: every remaining line, row by row, empty ones included;
      a line is given here by its fields. */
  function WriteRows(df: DataFrame, rows: seq<seq<string>>, row: nat, parse: string -> Option<real>): (res: Result<DataFrame>)
    ensures res.Ok? ==> res.value.columns == df.columns
    decreases |rows|
  {
    if rows == [] then Ok(df)
    else
      var d :- WriteFields(df, row, rows[0], 0, parse);
      WriteRows(d, rows[1..], row + 1, parse)
  }

  /** Writing rows changes values only: the frame keeps its layout. */
  lemma {:induction false} WriteRowsLayout(df: DataFrame, rows: seq<seq<string>>, row: nat, parse: string -> Option<real>)
    requires WriteRows(df, rows, row, parse).Ok?
    ensures SameLayout(df, WriteRows(df, rows, row, parse).value)
    decreases |rows|
  {
    if rows != [] {
      var d := WriteFields(df, row, rows[0], 0, parse).value;
      WriteFieldsLayout(df, row, rows[0], 0, parse);
      WriteRowsLayout(d, rows[1..], row + 1, parse);
    }
  }

  /** A cell reachable in one frame is reachable in any frame of the same layout. */
  lemma LayoutFits(a: DataFrame, b: DataFrame, row: nat, col: nat)
    requires SameLayout(a, b)
    ensures CellFits(a, row, col) <==> CellFits(b, row, col)
  {
    if col < |a.columns| && a.columns[col] in a.data {
      var k := a.columns[col];
      assert SameDims(a.data[k].data, b.data[k].data);
    }
  }

  /** Every field parses and lands on a cell of row `row`, field c in
      column col + c. */
  predicate RowFits(df: DataFrame, row: nat, fields: seq<string>, col: nat, parse: string -> Option<real>)
    decreases |fields|
  {
    fields == [] || (parse(fields[0]).Some? && CellFits(df, row, col) && RowFits(df, row, fields[1..], col + 1, parse))
  }

  /** One field: its text parses and cell (row, col) exists. */
  predicate FieldFits(df: DataFrame, row: nat, col: nat, text: string, parse: string -> Option<real>)
  {
    parse(text).Some? && CellFits(df, row, col)
  }

  /** The same, field by field: field k fits cell (row, col + k). */
  lemma {:induction false} RowFitsEach(df: DataFrame, row: nat, fields: seq<string>, col: nat, parse: string -> Option<real>)
    ensures RowFits(df, row, fields, col, parse) <==>
      forall k | 0 <= k < |fields| :: FieldFits(df, row, col + k, fields[k], parse)
    decreases |fields|
  {
    if fields != [] {
      var tail := fields[1..];
      RowFitsEach(df, row, tail, col + 1, parse);
      if RowFits(df, row, fields, col, parse) {
        forall k | 0 <= k < |fields|
          ensures FieldFits(df, row, col + k, fields[k], parse)
        {
          if k > 0 {
            assert tail[k - 1] == fields[k];
            assert FieldFits(df, row, col + 1 + (k - 1), tail[k - 1], parse);
          }
        }
      }
      if forall k | 0 <= k < |fields| :: FieldFits(df, row, col + k, fields[k], parse) {
        RowFitsFromEach(df, row, fields, col, parse);
      }
    }
  }

  lemma {:induction false} RowFitsFromEach(df: DataFrame, row: nat, fields: seq<string>, col: nat, parse: string -> Option<real>)
    requires forall k | 0 <= k < |fields| :: FieldFits(df, row, col + k, fields[k], parse)
    ensures RowFits(df, row, fields, col, parse)
    decreases |fields|
  {
    if fields != [] {
      var tail := fields[1..];
      assert FieldFits(df, row, col + 0, fields[0], parse);
      forall k | 0 <= k < |tail|
        ensures FieldFits(df, row, col + 1 + k, tail[k], parse)
      {
        assert tail[k] == fields[k + 1];
        assert FieldFits(df, row, col + (k + 1), fields[k + 1], parse);
      }
      RowFitsFromEach(df, row, tail, col + 1, parse);
    }
  }

  /** Whether the fields fit depends only on the frame's layout. */
  lemma {:induction false} RowFitsLayout(a: DataFrame, b: DataFrame, row: nat, fields: seq<string>, col: nat, parse: string -> Option<real>)
    requires SameLayout(a, b)
    ensures RowFits(a, row, fields, col, parse) <==> RowFits(b, row, fields, col, parse)
    decreases |fields|
  {
    if fields != [] {
      LayoutFits(a, b, row, col);
      RowFitsLayout(a, b, row, fields[1..], col + 1, parse);
    }
  }

  /** Writing a line's fields succeeds exactly when they all fit: a field
      past the last listed column, a row past a column's end or a text that
      is not a number throws. */
  lemma {:induction false} WriteFieldsFits(df: DataFrame, row: nat, fields: seq<string>, col: nat, parse: string -> Option<real>)
    ensures WriteFields(df, row, fields, col, parse).Ok? <==> RowFits(df, row, fields, col, parse)
    decreases |fields|
  {
    if fields != [] && parse(fields[0]).Some? && CellFits(df, row, col) {
      var d := SetCell(df, row, col, parse(fields[0]).value).value;
      WriteFieldsFits(d, row, fields[1..], col + 1, parse);
      RowFitsLayout(df, d, row, fields[1..], col + 1, parse);
    }
  }

  /** With distinct column names, writing a line leaves every cell outside
      the written stretch of row `row` as it was. */
  lemma {:induction false} WriteFieldsKeeps(df: DataFrame, row: nat, fields: seq<string>, col: nat, parse: string -> Option<real>, r: nat, c: nat)
    requires Distinct(df.columns) && WriteFields(df, row, fields, col, parse).Ok?
    requires r != row || c < col || c >= col + |fields|
    ensures Cell(WriteFields(df, row, fields, col, parse).value, r, c) == Cell(df, r, c)
    decreases |fields|
  {
    if fields != [] {
      var x := parse(fields[0]).value;
      var d := SetCell(df, row, col, x).value;
      assert d.columns == df.columns;
      var rest := WriteFields(d, row, fields[1..], col + 1, parse);
      assert WriteFields(df, row, fields, col, parse) == rest;
      SetCellReads(df, row, col, x, r, c);
      WriteFieldsKeeps(d, row, fields[1..], col + 1, parse, r, c);
      assert Cell(rest.value, r, c) == Cell(d, r, c);
    }
  }

  /** With distinct column names, the first field lands in cell (row, col). */
  lemma WriteFieldsWritesFirst(df: DataFrame, row: nat, fields: seq<string>, col: nat, parse: string -> Option<real>)
    requires Distinct(df.columns) && WriteFields(df, row, fields, col, parse).Ok?
    requires fields != []
    ensures Cell(WriteFields(df, row, fields, col, parse).value, row, col) == ParseField(parse, fields[0])
  {
    var x := parse(fields[0]).value;
    var d := SetCell(df, row, col, x).value;
    assert d.columns == df.columns;
    var rest := WriteFields(d, row, fields[1..], col + 1, parse);
    assert WriteFields(df, row, fields, col, parse) == rest;
    SetCellReads(df, row, col, x, row, col);
    WriteFieldsKeeps(d, row, fields[1..], col + 1, parse, row, col);
    assert Cell(rest.value, row, col) == Ok(x);
  }

  /** With distinct column names, the field for column c (at position
      c - col of the line) lands in cell (row, c). */
  lemma {:induction false} WriteFieldsWritesAt(df: DataFrame, row: nat, fields: seq<string>, col: nat, parse: string -> Option<real>, c: nat)
    requires Distinct(df.columns) && WriteFields(df, row, fields, col, parse).Ok?
    requires col <= c < col + |fields|
    ensures Cell(WriteFields(df, row, fields, col, parse).value, row, c) == ParseField(parse, fields[c - col])
    decreases |fields|, 1
  {
    if c == col {
      WriteFieldsWritesFirst(df, row, fields, col, parse);
    } else {
      WriteFieldsWritesLater(df, row, fields, col, parse, c);
    }
  }

  /** `WriteFieldsWritesAt` past the first field: the rest of the line is
      written from column col + 1 on. */
  lemma {:induction false} WriteFieldsWritesLater(df: DataFrame, row: nat, fields: seq<string>, col: nat, parse: string -> Option<real>, c: nat)
    requires Distinct(df.columns) && WriteFields(df, row, fields, col, parse).Ok?
    requires col < c < col + |fields|
    ensures Cell(WriteFields(df, row, fields, col, parse).value, row, c) == ParseField(parse, fields[c - col])
    decreases |fields|, 0
  {
    var d := SetCell(df, row, col, parse(fields[0]).value).value;
    assert d.columns == df.columns;
    var rest := WriteFields(d, row, fields[1..], col + 1, parse);
    assert WriteFields(df, row, fields, col, parse) == rest;
    WriteFieldsWritesAt(d, row, fields[1..], col + 1, parse, c);
    AfterFirst(fields, c - (col + 1), c - col);
  }

  /** Element k of s[1..] is element k + 1 of s. */
  lemma AfterFirst<T>(s: seq<T>, k: nat, j: nat)
    requires j == k + 1 && j < |s|
    ensures s[1..][k] == s[j]
  {
  }

  /** Every line fits its row, line r in row `row + r`. */
  predicate RowsFit(df: DataFrame, rows: seq<seq<string>>, row: nat, parse: string -> Option<real>)
    decreases |rows|
  {
    rows == [] || (RowFits(df, row, rows[0], 0, parse) && RowsFit(df, rows[1..], row + 1, parse))
  }

  lemma {:induction false} RowsFitLayout(a: DataFrame, b: DataFrame, rows: seq<seq<string>>, row: nat, parse: string -> Option<real>)
    requires SameLayout(a, b)
    ensures RowsFit(a, rows, row, parse) <==> RowsFit(b, rows, row, parse)
    decreases |rows|
  {
    if rows != [] {
      RowFitsLayout(a, b, row, rows[0], 0, parse);
      RowsFitLayout(a, b, rows[1..], row + 1, parse);
    }
  }

  /** The same, line by line. */
  lemma {:induction false} RowsFitEach(df: DataFrame, rows: seq<seq<string>>, row: nat, parse: string -> Option<real>)
    ensures RowsFit(df, rows, row, parse) <==> forall k | 0 <= k < |rows| :: RowFits(df, row + k, rows[k], 0, parse)
    decreases |rows|
  {
    if rows != [] {
      RowsFitEach(df, rows[1..], row + 1, parse);
      forall k | 1 <= k < |rows|
        ensures RowFits(df, row + k, rows[k], 0, parse) <==> RowFits(df, row + 1 + (k - 1), rows[1..][k - 1], 0, parse)
      {
        assert rows[1..][k - 1] == rows[k];
      }
    }
  }

  /** All the lines are written exactly when every one fits its row. */
  lemma {:induction false} WriteRowsFits(df: DataFrame, rows: seq<seq<string>>, row: nat, parse: string -> Option<real>)
    ensures WriteRows(df, rows, row, parse).Ok? <==> RowsFit(df, rows, row, parse)
    decreases |rows|
  {
    if rows != [] {
      WriteFieldsFits(df, row, rows[0], 0, parse);
      var w := WriteFields(df, row, rows[0], 0, parse);
      if w.Ok? {
        WriteFieldsLayout(df, row, rows[0], 0, parse);
        WriteRowsFits(w.value, rows[1..], row + 1, parse);
        RowsFitLayout(df, w.value, rows[1..], row + 1, parse);
      }
    }
  }

  /** All the lines are written exactly when line k fits row `row + k`,
      for every k. */
  lemma WriteRowsFitsEach(df: DataFrame, rows: seq<seq<string>>, row: nat, parse: string -> Option<real>)
    ensures WriteRows(df, rows, row, parse).Ok? <==> forall k | 0 <= k < |rows| :: RowFits(df, row + k, rows[k], 0, parse)
  {
    WriteRowsFits(df, rows, row, parse);
    RowsFitEach(df, rows, row, parse);
  }

  /** With distinct column names, writing the lines leaves every row
      outside them as it was. */
  lemma {:induction false} WriteRowsKeeps(df: DataFrame, rows: seq<seq<string>>, row: nat, parse: string -> Option<real>, r: nat, c: nat)
    requires Distinct(df.columns) && WriteRows(df, rows, row, parse).Ok?
    requires r < row || r >= row + |rows|
    ensures Cell(WriteRows(df, rows, row, parse).value, r, c) == Cell(df, r, c)
    decreases |rows|
  {
    if rows != [] {
      var d := WriteFields(df, row, rows[0], 0, parse).value;
      assert d.columns == df.columns;
      var rest := WriteRows(d, rows[1..], row + 1, parse);
      assert WriteRows(df, rows, row, parse) == rest;
      WriteFieldsKeeps(df, row, rows[0], 0, parse, r, c);
      WriteRowsKeeps(d, rows[1..], row + 1, parse, r, c);
      assert Cell(rest.value, r, c) == Cell(d, r, c);
    }
  }

  /** With distinct column names, field c of the line for row r (line
      r - row) ends up in cell (r, c). */
  lemma {:induction false} WriteRowsWritesAt(df: DataFrame, rows: seq<seq<string>>, row: nat, parse: string -> Option<real>, r: nat, c: nat)
    requires Distinct(df.columns) && WriteRows(df, rows, row, parse).Ok?
    requires row <= r < row + |rows| && c < |rows[r - row]|
    ensures Cell(WriteRows(df, rows, row, parse).value, r, c) == ParseField(parse, rows[r - row][c])
    decreases |rows|
  {
    var d := WriteFields(df, row, rows[0], 0, parse).value;
    assert d.columns == df.columns;
    var rest := WriteRows(d, rows[1..], row + 1, parse);
    assert WriteRows(df, rows, row, parse) == rest;
    if r == row {
      WriteFieldsWritesAt(df, row, rows[0], 0, parse, c);
      WriteRowsKeeps(d, rows[1..], row + 1, parse, row, c);
      assert Cell(rest.value, r, c) == Cell(d, row, c);
    } else {
      assert rows[1..][r - (row + 1)] == rows[r - row];
      WriteRowsWritesAt(d, rows[1..], row + 1, parse, r, c);
      assert Cell(rest.value, r, c) == ParseField(parse, rows[r - row][c]);
    }
  }

  /** Both together, for every cell. */
  lemma WriteRowsWrites(df: DataFrame, rows: seq<seq<string>>, row: nat, parse: string -> Option<real>)
    requires Distinct(df.columns) && WriteRows(df, rows, row, parse).Ok?
    ensures var res := WriteRows(df, rows, row, parse).value;
      forall k, c | 0 <= k < |rows| && 0 <= c < |rows[k]| :: Cell(res, row + k, c) == ParseField(parse, rows[k][c])
    ensures var res := WriteRows(df, rows, row, parse).value;
      forall r: nat, c: nat | r < row || r >= row + |rows| :: Cell(res, r, c) == Cell(df, r, c)
  {
    var res := WriteRows(df, rows, row, parse).value;
    forall k, c | 0 <= k < |rows| && 0 <= c < |rows[k]|
      ensures Cell(res, row + k, c) == ParseField(parse, rows[k][c])
    {
      WriteRowsWritesAt(df, rows, row, parse, row + k, c);
    }
    forall r: nat, c: nat | r < row || r >= row + |rows| { WriteRowsKeeps(df, rows, row, parse, r, c); }
  }

  /** The columns a load into an empty frame makes: cell (r, c) exists
      exactly when c is a label's position and r one of the counted rows. */
  lemma FreshColumnsFit(labels: seq<string>, size: nat, r: nat, c: nat)
    ensures CellFits(AddColumns(EmptyFrame, labels, size), r, c) <==> c < |labels| && r < size
  {
    var d := AddColumns(EmptyFrame, labels, size);
    if c < |labels| {
      assert labels[c] in labels;
      assert d.data[labels[c]] == SizedSeries(labels[c], size);
    }
  }

  /** `LoadCSV(f, df)`: the header's labels become columns sized to the
      counted rows, then every line after the header is written into the
      frame. It returns true whenever nothing throws. */
  function LoadCsv(lines: seq<string>, df: DataFrame, parse: string -> Option<real>): (res: Result<DataFrame>)
  {
    var pos := AfterHeader(lines);
    var size := MatrixSize(lines, pos);
    var d := AddColumns(df, ColumnLabels(lines), size.0);
    WriteRows(d, Records(lines[pos..]), 0, parse)
  }

  /** A line with every field parsing, no wider than the labels and, unless
      empty, within the size, fits fresh columns. */
  lemma FreshRowFitsIf(labels: seq<string>, size: nat, row: nat, fields: seq<string>, parse: string -> Option<real>)
    requires forall c | 0 <= c < |fields| :: parse(fields[c]).Some?
    requires |fields| <= |labels| && (fields == [] || row < size)
    ensures RowFits(AddColumns(EmptyFrame, labels, size), row, fields, 0, parse)
  {
    var d := AddColumns(EmptyFrame, labels, size);
    forall k | 0 <= k < |fields|
      ensures FieldFits(d, row, 0 + k, fields[k], parse)
    {
      FreshColumnsFit(labels, size, row, k);
    }
    RowFitsEach(d, row, fields, 0, parse);
  }

  /** One line written into fresh columns fits exactly when every field
      parses, the line is no wider than the labels and, unless it is empty,
      its row is within the size. */
  lemma FreshRowFits(labels: seq<string>, size: nat, row: nat, fields: seq<string>, parse: string -> Option<real>)
    ensures RowFits(AddColumns(EmptyFrame, labels, size), row, fields, 0, parse) <==>
      && (forall c | 0 <= c < |fields| :: parse(fields[c]).Some?)
      && |fields| <= |labels|
      && (fields == [] || row < size)
  {
    var d := AddColumns(EmptyFrame, labels, size);
    if RowFits(d, row, fields, 0, parse) {
      RowFitsEach(d, row, fields, 0, parse);
      forall c | 0 <= c < |fields|
        ensures parse(fields[c]).Some?
      {
        assert FieldFits(d, row, 0 + c, fields[c], parse);
      }
      if fields != [] {
        assert FieldFits(d, row, 0 + (|fields| - 1), fields[|fields| - 1], parse);
        FreshColumnsFit(labels, size, row, |fields| - 1);
      }
    }
    if && (forall c | 0 <= c < |fields| :: parse(fields[c]).Some?)
       && |fields| <= |labels|
       && (fields == [] || row < size)
    {
      FreshRowFitsIf(labels, size, row, fields, parse);
    }
  }

  /** Lines that fit `width` fresh columns of `size` rows: every field
      parses, no line is wider than the columns, and every non-empty line
      lies within the rows. */
  predicate Loadable(rows: seq<seq<string>>, width: nat, size: nat, parse: string -> Option<real>)
  {
    && (forall r, c | 0 <= r < |rows| && 0 <= c < |rows[r]| :: parse(rows[r][c]).Some?)
    && (forall r | 0 <= r < |rows| :: |rows[r]| <= width)
    && (forall r | 0 <= r < |rows| && rows[r] != [] :: r < size)
  }

  /** Every line of a write into fresh columns that succeeds parses, is
      no wider than the labels and, unless empty, lies within the size. */
  lemma FreshRowsFitOnly(labels: seq<string>, size: nat, rows: seq<seq<string>>, parse: string -> Option<real>)
    requires WriteRows(AddColumns(EmptyFrame, labels, size), rows, 0, parse).Ok?
    ensures Loadable(rows, |labels|, size, parse)
  {
    var d := AddColumns(EmptyFrame, labels, size);
    WriteRowsFitsEach(d, rows, 0, parse);
    forall r | 0 <= r < |rows|
      ensures (forall c | 0 <= c < |rows[r]| :: parse(rows[r][c]).Some?) && |rows[r]| <= |labels| && (rows[r] == [] || r < size)
    {
      assert RowFits(d, 0 + r, rows[r], 0, parse);
      FreshRowFits(labels, size, r, rows[r], parse);
    }
  }

  /** Lines from row `row` on, each parsing, no wider than the labels and,
      unless empty, within the size, fit the fresh columns. */
  lemma {:induction false} FreshRowsFitFrom(labels: seq<string>, size: nat, rows: seq<seq<string>>, row: nat, parse: string -> Option<real>)
    requires forall r, c | 0 <= r < |rows| && 0 <= c < |rows[r]| :: parse(rows[r][c]).Some?
    requires forall r | 0 <= r < |rows| :: |rows[r]| <= |labels|
    requires forall r | 0 <= r < |rows| && rows[r] != [] :: row + r < size
    ensures RowsFit(AddColumns(EmptyFrame, labels, size), rows, row, parse)
    decreases |rows|
  {
    if rows != [] {
      assert forall c | 0 <= c < |rows[0]| :: parse(rows[0][c]).Some?;
      FreshRowFitsIf(labels, size, row, rows[0], parse);
      var tail := rows[1..];
      assert forall r | 0 <= r < |tail| :: tail[r] == rows[r + 1];
      FreshRowsFitFrom(labels, size, tail, row + 1, parse);
    }
  }

  /** Conversely, such lines are written without an error. */
  lemma FreshRowsFitIf(labels: seq<string>, size: nat, rows: seq<seq<string>>, parse: string -> Option<real>)
    requires Loadable(rows, |labels|, size, parse)
    ensures WriteRows(AddColumns(EmptyFrame, labels, size), rows, 0, parse).Ok?
  {
    FreshRowsFitFrom(labels, size, rows, 0, parse);
    WriteRowsFits(AddColumns(EmptyFrame, labels, size), rows, 0, parse);
  }

  /** Writing lines into fresh columns succeeds exactly when every field
      parses, no line is wider than the labels and every non-empty line's
      row is within the size. */
  lemma FreshRowsFit(labels: seq<string>, size: nat, rows: seq<seq<string>>, parse: string -> Option<real>)
    ensures WriteRows(AddColumns(EmptyFrame, labels, size), rows, 0, parse).Ok? <==> Loadable(rows, |labels|, size, parse)
  {
    if WriteRows(AddColumns(EmptyFrame, labels, size), rows, 0, parse).Ok? {
      FreshRowsFitOnly(labels, size, rows, parse);
    }
    if Loadable(rows, |labels|, size, parse) {
      FreshRowsFitIf(labels, size, rows, parse);
    }
  }

  /** Fresh columns written with the lines keep the labels as columns,
      each sized to `size`. */
  lemma FreshRowsLayout(labels: seq<string>, size: nat, rows: seq<seq<string>>, parse: string -> Option<real>)
    requires WriteRows(AddColumns(EmptyFrame, labels, size), rows, 0, parse).Ok?
    ensures var res := WriteRows(AddColumns(EmptyFrame, labels, size), rows, 0, parse).value;
      && res.columns == labels
      && forall l | l in labels :: l in res.data && res.data[l].data.shape == [size]
    ensures var res := WriteRows(AddColumns(EmptyFrame, labels, size), rows, 0, parse).value;
      labels != [] ==> Shape(res) == Ok((size, |labels|))
  {
    var d := AddColumns(EmptyFrame, labels, size);
    WriteRowsLayout(d, rows, 0, parse);
    forall l | l in labels
      ensures d.data[l].data.shape == [size]
    {
      assert d.data[l] == SizedSeries(l, size);
    }
  }

  /** With distinct labels, cell (r, c) holds field c of line r. */
  lemma FreshRowsCells(labels: seq<string>, size: nat, rows: seq<seq<string>>, parse: string -> Option<real>)
    requires Distinct(labels)
    requires WriteRows(AddColumns(EmptyFrame, labels, size), rows, 0, parse).Ok?
    ensures var res := WriteRows(AddColumns(EmptyFrame, labels, size), rows, 0, parse).value;
      forall r, c | 0 <= r < |rows| && 0 <= c < |rows[r]| :: Cell(res, r, c) == ParseField(parse, rows[r][c])
  {
    var d := AddColumns(EmptyFrame, labels, size);
    var res := WriteRows(d, rows, 0, parse).value;
    assert d.columns == labels;
    forall r, c | 0 <= r < |rows| && 0 <= c < |rows[r]|
      ensures Cell(res, r, c) == ParseField(parse, rows[r][c])
    {
      WriteRowsWritesAt(d, rows, 0, parse, r, c);
      assert rows[r - 0] == rows[r];
    }
  }

  /** Loading into an empty frame succeeds exactly when every field of
      every line after the header parses, no line is wider than the header,
      and no non-empty line comes after the first empty one (the rows
      counted). */
  lemma LoadCsvFits(lines: seq<string>, parse: string -> Option<real>)
    ensures var labels := ColumnLabels(lines);
      var rows := Records(lines[AfterHeader(lines)..]);
      var size := MatrixSize(lines, AfterHeader(lines)).0;
      LoadCsv(lines, EmptyFrame, parse).Ok? <==> Loadable(rows, |labels|, size, parse)
  {
    var labels := ColumnLabels(lines);
    var rows := Records(lines[AfterHeader(lines)..]);
    var size := MatrixSize(lines, AfterHeader(lines)).0;
    assert LoadCsv(lines, EmptyFrame, parse) == WriteRows(AddColumns(EmptyFrame, labels, size), rows, 0, parse);
    FreshRowsFit(labels, size, rows, parse);
  }

  /** A load into an empty frame has the header's labels as its columns,
      each sized to the counted rows; with distinct labels, cell (r, c)
      holds field c of data line r. */
  lemma LoadCsvContents(lines: seq<string>, parse: string -> Option<real>)
    requires LoadCsv(lines, EmptyFrame, parse).Ok?
    ensures var res := LoadCsv(lines, EmptyFrame, parse).value;
      && res.columns == ColumnLabels(lines)
      && forall l | l in res.columns :: l in res.data && res.data[l].data.shape == [MatrixSize(lines, AfterHeader(lines)).0]
    ensures var res := LoadCsv(lines, EmptyFrame, parse).value;
      res.columns != [] ==> Shape(res) == Ok((MatrixSize(lines, AfterHeader(lines)).0, |res.columns|))
    ensures var res := LoadCsv(lines, EmptyFrame, parse).value;
      var rows := Records(lines[AfterHeader(lines)..]);
      Distinct(ColumnLabels(lines)) ==>
        forall r, c | 0 <= r < |rows| && 0 <= c < |rows[r]| :: Cell(res, r, c) == ParseField(parse, rows[r][c])
  {
    var labels := ColumnLabels(lines);
    var rows := Records(lines[AfterHeader(lines)..]);
    var size := MatrixSize(lines, AfterHeader(lines)).0;
    assert LoadCsv(lines, EmptyFrame, parse) == WriteRows(AddColumns(EmptyFrame, labels, size), rows, 0, parse);
    FreshRowsLayout(labels, size, rows, parse);
    if Distinct(labels) {
      FreshRowsCells(labels, size, rows, parse);
    }
  }

  datatype Loaded = Loaded(loaded: bool, frame: DataFrame)

  /** `Load(filename, df)`: false, with the frame untouched, when the name
      has no ".csv" extension or the file cannot be opened; otherwise the
      CSV is read into the frame and the answer is true. */
  function Load(filename: string, file: Option<seq<string>>, df: DataFrame, parse: string -> Option<real>): (res: Result<Loaded>)
    ensures !IsCsvName(filename) || file.None? ==> res == Ok(Loaded(false, df))
    ensures IsCsvName(filename) && file.Some? ==> (res.Ok? <==> LoadCsv(file.value, df, parse).Ok?)
    ensures res.Ok? && res.value.loaded ==> res.value.frame == LoadCsv(file.value, df, parse).value
  {
    if !IsCsvName(filename) then Ok(Loaded(false, df))
    else if file.None? then Ok(Loaded(false, df))
    else
      var d :- LoadCsv(file.value, df, parse);
      Ok(Loaded(true, d))
  }
}

=== FILE: layers.dfy ===
/** Layers: src/stratosml/core/layers/layer.hpp and
    src/stratosml/core/layers/dense.hpp.

    A layer owns an ordered list of weights, each a `shared_ptr<var>` to a
    trainable leaf; here a weight is the index of its node in the arena and
    every operation that makes nodes takes the graph and returns the grown
    one. `Dense` keeps two of those handles by name: the biases (made by the
    constructor) and the kernel (made by `build`, absent before). */
module Layers {
  import opened Wrappers
  import opened Matrices
  import opened Numerics
  import opened Tensors
  import opened Nodes
  import opened Ops
  import opened Optimizers

  /** The activations with a call operator; `Linear` is the only one. */
  datatype Activation = Linear

  /** `Activation::operator()`: `Linear` hands back its input handle, a copy
      of the same node, so the graph does not grow. */
  function Activate(a: Activation, b: Built): Built
  {
    match a
    case Linear => b
  }

  datatype Layer = Layer(units: nat, name: string, weights: seq<nat>, activation: Activation)

  /** `Layer(units, name)`: rejects zero units; the weight list starts empty
      and the activation is `Linear`. */
  function NewLayer(units: nat, name: string): (res: Result<Layer>)
    ensures res.Ok? <==> units >= 1
    ensures res.Err? ==> res.error.InvalidArgument?
    ensures res.Ok? ==> res.value.units == units && res.value.name == name
    ensures res.Ok? ==> res.value.weights == [] && res.value.activation == Linear
  {
    if units < 1 then Err(InvalidArgument("The number of neurons in a layer should be bigger than zero."))
    else Ok(Layer(units, name, [], Linear))
  }

  /** A layer whose weights are trainable leaves of g, in creation order. */
  predicate Registered(g: Graph, l: Layer)
  {
    && (forall i | 0 <= i < |l.weights| :: l.weights[i] < |g.nodes| && g.nodes[l.weights[i]].op == IndependentLeaf)
    && (forall i, j | 0 <= i < j < |l.weights| :: l.weights[i] < l.weights[j])
  }

  /** A layer after `add_weight`, and the handle it returned. */
  datatype Added = Added(graph: Graph, layer: Layer, weight: nat)

  /** `add_weight(shape)` (and its initializer-list form, which only wraps
      the list in a `TensorShape`): a `Variable(shape)`, pushed on the weight
      list and returned. Reading `shape[0]` needs rank >= 1. */
  function AddWeight(g: Graph, l: Layer, shape: seq<nat>): (res: Added)
    requires Valid(g) && |shape| >= 1
    ensures Valid(res.graph) && Extends(g, res.graph)
    ensures res.weight == |g.nodes| && res.graph.nodes == g.nodes + [Node(IndependentLeaf, FromShape(shape))]
    ensures res.graph.grads == g.grads[res.weight := ZerosLike(FromShape(shape))]
    ensures res.layer == l.(weights := l.weights + [res.weight])
  {
    var v := VariableOfShape(g, shape);
    Added(v.graph, l.(weights := l.weights + [v.node]), v.node)
  }

  /** The new weight is the last element of the list, a trainable leaf of
      the requested shape whose accumulator is zero, and a registered layer
      stays registered. */
  lemma AddWeightRegisters(g: Graph, l: Layer, shape: seq<nat>)
    requires Valid(g) && |shape| >= 1 && Registered(g, l)
    ensures var a := AddWeight(g, l, shape);
      && Registered(a.graph, a.layer)
      && a.layer.weights[|a.layer.weights| - 1] == a.weight
      && a.graph.nodes[a.weight].val.shape == shape
      && Rows(a.graph.nodes[a.weight].val) == shape[0]
      && a.weight in a.graph.grads
      && forall i, j | 0 <= i < Rows(a.graph.grads[a.weight]) && 0 <= j < Cols(a.graph.grads[a.weight]) ::
           At(a.graph.grads[a.weight], i, j) == 0.0
  {
    var a := AddWeight(g, l, shape);
    var ws := a.layer.weights;
    forall i | 0 <= i < |ws|
      ensures ws[i] < |a.graph.nodes| && a.graph.nodes[ws[i]].op == IndependentLeaf
    {
      if i < |l.weights| {
        assert ws[i] == l.weights[i];
        assert a.graph.nodes[ws[i]] == g.nodes[ws[i]];
      }
    }
    forall i, j | 0 <= i < j < |ws|
      ensures ws[i] < ws[j]
    {
      if j == |l.weights| {
        assert ws[i] == l.weights[i] && l.weights[i] < |g.nodes|;
      }
    }
    assert SameDims(a.graph.grads[a.weight], FromShape(shape));
  }

  /** The weights of a registered layer are parameters an optimizer can take. */
  lemma {:induction false} RegisteredHandles(g: Graph, l: Layer)
    requires Registered(g, l)
    ensures Handles(g, l.weights)
  {
    forall i | 0 <= i < |l.weights|
      ensures Handle(g, l.weights[i])
    {
      assert g.nodes[l.weights[i]].op == IndependentLeaf;
    }
  }

  /** `Dense`: a layer with its biases handle and, once built, its kernel. */
  datatype Dense = Dense(layer: Layer, biases: nat, kernel: Option<nat>)

  datatype DenseBuilt = DenseBuilt(graph: Graph, dense: Dense)

  /** `Dense(units, name)`: the `Layer` constructor's check, then the biases,
      a weight of shape {units}. */
  function NewDense(g: Graph, units: nat, name: string): (res: Result<DenseBuilt>)
    requires Valid(g)
    ensures res.Ok? <==> units >= 1
    ensures res.Err? ==> res.error.InvalidArgument?
    ensures res.Ok? ==>
      var d := res.value.dense;
      && Valid(res.value.graph) && Extends(g, res.value.graph)
      && d.layer == Layer(units, name, [|g.nodes|], Linear)
      && d.biases == |g.nodes| && d.kernel.None?
      && res.value.graph.nodes == g.nodes + [Node(IndependentLeaf, FromShape([units]))]
  {
    var l :- NewLayer(units, name);
    var a := AddWeight(g, l, [units]);
    Ok(DenseBuilt(a.graph, Dense(a.layer, a.weight, None)))
  }

  /** `Dense()`: one unit and an empty name, which passes the units test; the
      biases are a single zero. */
  lemma DefaultDense(g: Graph)
    requires Valid(g)
    ensures NewDense(g, 1, "").Ok?
    ensures var b := NewDense(g, 1, "").value;
      && b.dense.layer.units == 1 && b.dense.layer.weights == [b.dense.biases]
      && IsScalar(b.graph.nodes[b.dense.biases].val) && At(b.graph.nodes[b.dense.biases].val, 0, 0) == 0.0
  {
    var b := NewDense(g, 1, "").value;
    assert b.graph.nodes[b.dense.biases] == Node(IndependentLeaf, FromShape([1]));
  }

  /** A new dense layer is registered: its one weight, the biases, is a
      trainable leaf. */
  lemma NewDenseRegisters(g: Graph, units: nat, name: string)
    requires Valid(g) && units >= 1
    ensures NewDense(g, units, name).Ok?
    ensures var c := NewDense(g, units, name).value; Registered(c.graph, c.dense.layer)
  {
    var c := NewDense(g, units, name).value;
    assert c.graph.nodes[|g.nodes|] == Node(IndependentLeaf, FromShape([units]));
  }

  /** `build(input_shape)`: a kernel of shape {last input dimension, units},
      pushed on the weight list; the kernel handle is re-pointed to it. The
      last dimension is `input_shape[rank - 1]`, so the rank must be at least
      one (`rank - 1` on `size_t` would wrap). */
  function Build(g: Graph, d: Dense, inputShape: seq<nat>): (res: DenseBuilt)
    requires Valid(g) && |inputShape| >= 1
    ensures Valid(res.graph) && Extends(g, res.graph)
    ensures res.graph.nodes == g.nodes + [Node(IndependentLeaf, FromShape([inputShape[|inputShape| - 1], d.layer.units]))]
    ensures res.dense.layer == d.layer.(weights := d.layer.weights + [|g.nodes|])
    ensures res.dense.biases == d.biases && res.dense.kernel == Some(|g.nodes|)
  {
    var a := AddWeight(g, d.layer, [inputShape[|inputShape| - 1], d.layer.units]);
    DenseBuilt(a.graph, d.(layer := a.layer, kernel := Some(a.weight)))
  }

  /** After the constructor and one `build` the weights are exactly
      [biases, kernel]: a {units} column of zeros and the kernel, whose
      stored shape is {d, units} but whose buffer, as every tensor made from
      a shape, is d x 1. */
  lemma ConstructThenBuild(g: Graph, units: nat, name: string, inputShape: seq<nat>)
    requires Valid(g) && units >= 1 && |inputShape| >= 1
    ensures NewDense(g, units, name).Ok?
    ensures var c := NewDense(g, units, name).value;
      var b := Build(c.graph, c.dense, inputShape);
      var last := inputShape[|inputShape| - 1];
      && b.dense.layer.weights == [b.dense.biases, b.dense.kernel.value]
      && b.dense.biases == |g.nodes| && b.dense.kernel == Some(|g.nodes| + 1)
      && b.graph.nodes[b.dense.biases].val.shape == [units]
      && Rows(b.graph.nodes[b.dense.biases].val) == units && Cols(b.graph.nodes[b.dense.biases].val) == 1
      && b.graph.nodes[b.dense.kernel.value].val.shape == [last, units]
      && Rows(b.graph.nodes[b.dense.kernel.value].val) == last && Cols(b.graph.nodes[b.dense.kernel.value].val) == 1
  {
    var c := NewDense(g, units, name).value;
    var b := Build(c.graph, c.dense, inputShape);
    var last := inputShape[|inputShape| - 1];
    assert b.graph.nodes == g.nodes + [Node(IndependentLeaf, FromShape([units])), Node(IndependentLeaf, FromShape([last, units]))];
  }

  /** A second `build` appends a second kernel and re-points the handle; the
      first kernel stays on the weight list and in the graph. */
  lemma RebuildAppends(g: Graph, d: Dense, s1: seq<nat>, s2: seq<nat>)
    requires Valid(g) && |s1| >= 1 && |s2| >= 1 && Registered(g, d.layer)
    ensures var b1 := Build(g, d, s1);
      var b2 := Build(b1.graph, b1.dense, s2);
      && b2.dense.layer.weights == d.layer.weights + [|g.nodes|, |g.nodes| + 1]
      && b2.dense.kernel == Some(|g.nodes| + 1) && b2.dense.biases == d.biases
      && Registered(b2.graph, b2.dense.layer)
  {
    var b1 := Build(g, d, s1);
    AddWeightRegisters(g, d.layer, [s1[|s1| - 1], d.layer.units]);
    AddWeightRegisters(b1.graph, b1.dense.layer, [s2[|s2| - 1], d.layer.units]);
  }

  /** The value `forward` computes: `inputs * kernel + biases`. */
  function DenseValue(xv: Tensor, kv: Tensor, bv: Tensor): Result<Tensor>
  {
    var p :- Product(xv, kv);
    Plus(p, bv)
  }

  /** `forward(inputs)`: the product node, the sum node, and the `var z` the
      sum is assigned to, a dependent node; `Linear` returns z itself. A
      kernel must have been built (the handle is null before). */
  function Forward(fns: Math, g: Graph, d: Dense, x: nat): (res: Result<Built>)
    requires Valid(g) && x < |g.nodes| && d.biases < |g.nodes| && d.kernel.Some? && d.kernel.value < |g.nodes|
    ensures res.Ok? <==> DenseValue(g.nodes[x].val, g.nodes[d.kernel.value].val, g.nodes[d.biases].val).Ok?
    ensures res.Ok? ==>
      var n, k := |g.nodes|, d.kernel.value;
      var p := Product(g.nodes[x].val, g.nodes[k].val).value;
      var s := DenseValue(g.nodes[x].val, g.nodes[k].val, g.nodes[d.biases].val).value;
      && Valid(res.value.graph) && Extends(g, res.value.graph)
      && res.value.graph.nodes == g.nodes + [Node(Binary(MulExpr, x, k), p), Node(Binary(AddExpr, n, d.biases), s), Node(Dependent(n + 1), s)]
      && res.value.node == n + 2 && res.value.graph.nodes[res.value.node].val == s
      && res.value.graph.grads == g.grads[n + 2 := ZerosLike(s)]
  {
    var k := d.kernel.value;
    var p :- BuildBinary(fns, g, ProductOp, Ref(x), Ref(k));
    assert p.graph.nodes[d.biases] == g.nodes[d.biases];
    var s :- BuildBinary(fns, p.graph, PlusOp, Ref(p.node), Ref(d.biases));
    var z := VariableOf(s.graph, s.node);
    Ok(Activate(d.layer.activation, z))
  }

  /** One sample, a 1 x m row with m >= 2, through a built layer: the row
      times the m x 1 kernel is a single number, which the biases column
      broadcasts, so the output has one entry per bias:
      entry i is the row's dot product with the kernel plus bias i. */
  lemma RowForward(xv: Tensor, kv: Tensor, bv: Tensor)
    requires Rows(xv) == 1 && Cols(xv) >= 2 && Rows(kv) == Cols(xv) && Cols(kv) == 1 && Cols(bv) == 1
    ensures DenseValue(xv, kv, bv).Ok?
    ensures var s := DenseValue(xv, kv, bv).value;
      && SameDims(s, bv)
      && forall i | 0 <= i < Rows(bv) :: At(s, i, 0) == Dot(xv.value, kv.value, 0, 0) + At(bv, i, 0)
  {
    var p := Product(xv, kv).value;
    assert Rows(p) == 1 && Cols(p) == 1 && At(p, 0, 0) == Dot(xv.value, kv.value, 0, 0);
    var s := Plus(p, bv).value;
    forall i | 0 <= i < Rows(bv)
      ensures At(s, i, 0) == Dot(xv.value, kv.value, 0, 0) + At(bv, i, 0)
    {
      assert At(s, i, 0) == AddReal(At(p, 0, 0), At(bv, i, 0));
    }
  }

  /** A batch of n >= 2 rows of width m >= 2 gives an n x 1 product, which
      a column of u >= 2 biases only adds to when n == u. */
  lemma BatchForward(xv: Tensor, kv: Tensor, bv: Tensor)
    requires Rows(xv) >= 2 && Cols(xv) >= 2 && Rows(kv) == Cols(xv) && Cols(kv) == 1
    requires Rows(bv) >= 2 && Cols(bv) == 1
    ensures DenseValue(xv, kv, bv).Ok? <==> Rows(xv) == Rows(bv)
  {
    var p := Product(xv, kv).value;
    assert Rows(p) == Rows(xv) && Cols(p) == 1;
    assert !IsScalar(p) && !IsScalar(bv);
  }
}

=== FILE: losses.dfy ===
/** The loss functions of src/stratosml/core/autodiff/nn/losses.hpp.

    A loss builds its expression into the graph and returns a `Variable`
    wrapping the result: mean squared error is `mean(pow(y_pred - y_true, 2))`
    and mean absolute error `mean(abs(y_pred - y_true))`. Both reduce per
    column, so for the usual n x 1 columns the loss is a 1 x 1 tensor. */
module Losses {
  import opened Wrappers
  import opened Numerics
  import opened Matrices
  import opened Tensors
  import opened Nodes
  import opened Ops

  datatype Loss = MeanSquaredError | MeanAbsoluteError

  /** The loss's value on two tensors: `mean(pow(d, 2))` or `mean(abs(d))`
      with d = y_pred - y_true. Only the subtraction can fail; squaring with a
      1 x 1 exponent always fits. */
  function LossValue(fns: Math, loss: Loss, yTrue: Tensor, yPred: Tensor): (res: Result<Tensor>)
    ensures res.Ok? <==> Combinable(yPred, yTrue)
  {
    var d :- Minus(yPred, yTrue);
    Ok(Reduce(fns, loss, d))
  }

  /** What each loss makes of the residuals d. */
  function Reduce(fns: Math, loss: Loss, d: Tensor): Tensor
  {
    match loss
    case MeanSquaredError =>
      PowerTwo(fns, d);
      Mean(Power(fns, d, FromScalar(2.0)).value)
    case MeanAbsoluteError => Mean(Absolute(d))
  }

  /** Nodes k + 1 to k + 4 square node k, average it and wrap it: the
      constant 2, the power, the mean and the dependent node. */
  predicate SquaredMeanOf(nodes: seq<Node>, k: nat)
  {
    && k + 4 < |nodes|
    && nodes[k + 1] == Node(ConstantLeaf, FromScalar(2.0))
    && nodes[k + 2].op == Binary(PowExpr, k, k + 1)
    && nodes[k + 3].op == Unary(MeanExpr, k + 2)
    && nodes[k + 4].op == Dependent(k + 3)
  }

  /** Nodes k + 1 to k + 3 take `abs` of node k, average it and wrap it. */
  predicate AbsMeanOf(nodes: seq<Node>, k: nat)
  {
    && k + 3 < |nodes|
    && nodes[k + 1].op == Unary(AbsExpr, k)
    && nodes[k + 2].op == Unary(MeanExpr, k + 1)
    && nodes[k + 3].op == Dependent(k + 2)
  }

  /** Node k is `y_pred - y_true` and the nodes after it form the mean
      squared error. */
  predicate MseGraph(nodes: seq<Node>, k: nat, yTrue: nat, yPred: nat)
  {
    && yTrue < k && yPred < k && SquaredMeanOf(nodes, k)
    && nodes[k].op == Binary(SubExpr, yPred, yTrue)
  }

  /** Node k is `y_pred - y_true` and the nodes after it form the mean
      absolute error. */
  predicate MaeGraph(nodes: seq<Node>, k: nat, yTrue: nat, yPred: nat)
  {
    && yTrue < k && yPred < k && AbsMeanOf(nodes, k)
    && nodes[k].op == Binary(SubExpr, yPred, yTrue)
  }

  /** `pow(d, 2)` for the last node d: the constant 2 and the power node
      appended, no accumulator added. */
  function Squared(fns: Math, g: Graph, k: nat): (res: Built)
    requires Valid(g) && |g.nodes| == k + 1
    ensures Valid(res.graph) && res.node == k + 2 && res.graph.grads == g.grads
    ensures res.graph.nodes == g.nodes + [Node(ConstantLeaf, FromScalar(2.0)),
      Node(Binary(PowExpr, k, k + 1), Power(fns, g.nodes[k].val, FromScalar(2.0)).value)]
  {
    PowerTwo(fns, g.nodes[k].val);
    BuildBinary(fns, g, PowOp, Ref(k), Scalar(2.0)).value
  }

  /** `Variable(mean(pow(d, 2)))` for the last node d: four nodes appended,
      the last with a fresh zero accumulator. Squaring by a 1 x 1 exponent
      always fits, so this cannot fail. */
  function SquaredMean(fns: Math, g: Graph, k: nat): (res: Built)
    requires Valid(g) && |g.nodes| == k + 1
    ensures Valid(res.graph) && res.node == k + 4 && |res.graph.nodes| == k + 5
    ensures res.graph.nodes[..k + 1] == g.nodes && SquaredMeanOf(res.graph.nodes, k)
    ensures res.graph.nodes[k + 4].val == Mean(Power(fns, g.nodes[k].val, FromScalar(2.0)).value)
    ensures res.graph.grads == g.grads[k + 4 := ZerosLike(res.graph.nodes[k + 4].val)]
  {
    var p := Squared(fns, g, k);
    var m := BuildUnary(fns, p.graph, MeanExpr, p.node);
    var h := VariableOf(m.graph, m.node);
    Appended(g.nodes, p.graph.nodes, m.graph.nodes, h.graph.nodes, k);
    h
  }

  /** `Variable(mean(abs(d)))` for the last node d: three nodes appended. */
  function AbsoluteMean(fns: Math, g: Graph, k: nat): (res: Built)
    requires Valid(g) && |g.nodes| == k + 1
    ensures Valid(res.graph) && res.node == k + 3 && |res.graph.nodes| == k + 4
    ensures res.graph.nodes[..k + 1] == g.nodes && AbsMeanOf(res.graph.nodes, k)
    ensures res.graph.nodes[k + 3].val == Mean(Absolute(g.nodes[k].val))
    ensures res.graph.grads == g.grads[k + 3 := ZerosLike(res.graph.nodes[k + 3].val)]
  {
    var a := BuildUnary(fns, g, AbsExpr, k);
    var m := BuildUnary(fns, a.graph, MeanExpr, a.node);
    var h := VariableOf(m.graph, m.node);
    Appended(g.nodes, g.nodes, a.graph.nodes, m.graph.nodes, k);
    Appended(g.nodes, a.graph.nodes, m.graph.nodes, h.graph.nodes, k);
    h
  }

  /** `y_pred - y_true`: one operation node appended, no accumulator added. */
  function Difference(fns: Math, g: Graph, yTrue: nat, yPred: nat): (res: Result<Built>)
    requires Valid(g) && yTrue < |g.nodes| && yPred < |g.nodes|
    ensures res.Ok? <==> Combinable(g.nodes[yPred].val, g.nodes[yTrue].val)
    ensures res.Ok? ==> Valid(res.value.graph) && res.value.node == |g.nodes| && res.value.graph.grads == g.grads
    ensures res.Ok? ==> res.value.graph.nodes == g.nodes + [Node(Binary(SubExpr, yPred, yTrue), Minus(g.nodes[yPred].val, g.nodes[yTrue].val).value)]
  {
    BuildBinary(fns, g, MinusOp, Ref(yPred), Ref(yTrue))
  }

  /** The loss's expression over the last node k, wrapped in a `Variable`. */
  function Reduction(fns: Math, g: Graph, loss: Loss, k: nat): (res: Built)
    requires Valid(g) && |g.nodes| == k + 1
    ensures Valid(res.graph) && res.node == |res.graph.nodes| - 1
    ensures k + 1 < |res.graph.nodes| && res.graph.nodes[..k + 1] == g.nodes
    ensures res.graph.nodes[res.node].val == Reduce(fns, loss, g.nodes[k].val)
    ensures res.graph.grads == g.grads[res.node := ZerosLike(res.graph.nodes[res.node].val)]
    ensures loss.MeanSquaredError? ==> SquaredMeanOf(res.graph.nodes, k)
    ensures loss.MeanAbsoluteError? ==> AbsMeanOf(res.graph.nodes, k)
  {
    match loss
    case MeanSquaredError => SquaredMean(fns, g, k)
    case MeanAbsoluteError => AbsoluteMean(fns, g, k)
  }

  /** `loss(y_true, y_pred)` on two nodes: only the subtraction can throw.
      On success the nodes already there are kept, the difference
      `y_pred - y_true` comes next, then the rest of the loss's expression,
      and the returned `Variable` is the last node, holding the loss's value
      and the only new accumulator, a zero one. */
  function Evaluate(fns: Math, g: Graph, loss: Loss, yTrue: nat, yPred: nat): (res: Result<Built>)
    requires Valid(g) && yTrue < |g.nodes| && yPred < |g.nodes|
    ensures res.Ok? <==> Combinable(g.nodes[yPred].val, g.nodes[yTrue].val)
    ensures res.Ok? ==> Valid(res.value.graph) && res.value.node == |res.value.graph.nodes| - 1
    ensures res.Ok? ==> res.value.graph.nodes[res.value.node].val == LossValue(fns, loss, g.nodes[yTrue].val, g.nodes[yPred].val).value
    ensures res.Ok? ==> res.value.graph.grads == g.grads[res.value.node := ZerosLike(res.value.graph.nodes[res.value.node].val)]
  {
    var d :- Difference(fns, g, yTrue, yPred);
    Ok(Reduction(fns, d.graph, loss, |g.nodes|))
  }

  /** Where `loss(y_true, y_pred)` puts its nodes: the nodes already there
      are kept and the difference `y_pred - y_true` comes next. */
  lemma EvaluateLayout(fns: Math, g: Graph, loss: Loss, yTrue: nat, yPred: nat)
    requires Valid(g) && yTrue < |g.nodes| && yPred < |g.nodes|
    requires Combinable(g.nodes[yPred].val, g.nodes[yTrue].val)
    ensures var ns := Evaluate(fns, g, loss, yTrue, yPred).value.graph.nodes;
      && |g.nodes| < |ns| && ns[..|g.nodes|] == g.nodes
      && ns[|g.nodes|] == Node(Binary(SubExpr, yPred, yTrue), Minus(g.nodes[yPred].val, g.nodes[yTrue].val).value)
  {
    var d := Difference(fns, g, yTrue, yPred).value;
    var b := Reduction(fns, d.graph, loss, |g.nodes|);
    assert Evaluate(fns, g, loss, yTrue, yPred) == Ok(b);
    PrefixStep(b.graph.nodes, d.graph.nodes, g.nodes);
  }

  /** After the difference come the rest of the loss's nodes: the squared
      mean for mean squared error, the absolute mean for mean absolute error. */
  lemma EvaluateShape(fns: Math, g: Graph, loss: Loss, yTrue: nat, yPred: nat)
    requires Valid(g) && yTrue < |g.nodes| && yPred < |g.nodes|
    requires Combinable(g.nodes[yPred].val, g.nodes[yTrue].val)
    ensures var ns := Evaluate(fns, g, loss, yTrue, yPred).value.graph.nodes;
      && (loss.MeanSquaredError? ==> MseGraph(ns, |g.nodes|, yTrue, yPred))
      && (loss.MeanAbsoluteError? ==> MaeGraph(ns, |g.nodes|, yTrue, yPred))
  {
    var d := Difference(fns, g, yTrue, yPred).value;
    var b := Reduction(fns, d.graph, loss, |g.nodes|);
    assert Evaluate(fns, g, loss, yTrue, yPred) == Ok(b);
    assert b.graph.nodes[|g.nodes|] == d.graph.nodes[|g.nodes|];
  }

  /** Two single appends after p keep p's entries in place. */
  lemma Appended<T>(g: seq<T>, p: seq<T>, m: seq<T>, h: seq<T>, k: nat)
    requires |g| == k + 1 && |g| <= |p| && p[..k + 1] == g
    requires |m| == |p| + 1 && m[..|p|] == p && |h| == |m| + 1 && h[..|m|] == m
    ensures h[..k + 1] == g && |h| == |p| + 2
    ensures forall i | 0 <= i < |p| :: h[i] == p[i]
    ensures h[|p|] == m[|p|]
  {
    assert h[..k + 1] == h[..|m|][..|p|][..k + 1];
  }

  /** A sequence that starts with g + [x] starts with g and then x. */
  lemma PrefixStep<T>(b: seq<T>, d: seq<T>, g: seq<T>)
    requires |d| == |g| + 1 && |d| <= |b| && b[..|d|] == d && d[..|g|] == g
    ensures b[..|g|] == g && b[|g|] == d[|g|]
  {
    assert b[..|g|] == b[..|d|][..|g|];
  }

  predicate Column(t: Tensor, n: nat)
  {
    Rows(t) == n && Cols(t) == 1
  }

  /** The residuals of two columns of length n. */
  function Residuals(p: Tensor, t: Tensor, n: nat): (r: seq<real>)
    ensures |r| == n
  {
    seq(n, i => At(p, i, 0) - At(t, i, 0))
  }

  function Squares(xs: seq<real>): (ys: seq<real>)
    ensures |ys| == |xs|
  {
    seq(|xs|, i requires 0 <= i < |xs| => xs[i] * xs[i])
  }

  function AbsValues(xs: seq<real>): (ys: seq<real>)
    ensures |ys| == |xs|
  {
    seq(|xs|, i requires 0 <= i < |xs| => AbsReal(xs[i]))
  }

  /** Subtracting two columns of one length gives the column of residuals. */
  lemma ColumnDifference(p: Tensor, t: Tensor, n: nat)
    requires n >= 1 && Column(p, n) && Column(t, n)
    ensures Minus(p, t).Ok?
    ensures Column(Minus(p, t).value, n)
    ensures Col(Minus(p, t).value.value, 0) == Residuals(p, t, n)
  {
    var d := Minus(p, t).value;
    assert forall i | 0 <= i < n :: Col(d.value, 0)[i] == Residuals(p, t, n)[i];
  }

  /** Squaring a column squares each of its entries. */
  lemma SquareColumn(fns: Math, d: Tensor, n: nat)
    requires Column(d, n)
    ensures Power(fns, d, FromScalar(2.0)).Ok?
    ensures var sq := Power(fns, d, FromScalar(2.0)).value;
      Column(sq, n) && Col(sq.value, 0) == Squares(Col(d.value, 0))
  {
    PowerTwo(fns, d);
    var sq := Power(fns, d, FromScalar(2.0)).value;
    forall i | 0 <= i < n
      ensures Col(sq.value, 0)[i] == Squares(Col(d.value, 0))[i]
    {
      assert Col(d.value, 0)[i] == At(d, i, 0);
      assert Col(sq.value, 0)[i] == At(sq, i, 0);
    }
    assert Col(sq.value, 0) == Squares(Col(d.value, 0));
  }

  /** Taking `abs` of a column takes the absolute value of each entry. */
  lemma AbsColumn(d: Tensor, n: nat)
    requires Column(d, n)
    ensures Column(Absolute(d), n) && Col(Absolute(d).value, 0) == AbsValues(Col(d.value, 0))
  {
    var a := Absolute(d);
    forall i | 0 <= i < n
      ensures Col(a.value, 0)[i] == AbsValues(Col(d.value, 0))[i]
    {
      assert Col(d.value, 0)[i] == At(d, i, 0);
      assert Col(a.value, 0)[i] == At(a, i, 0);
    }
    assert Col(a.value, 0) == AbsValues(Col(d.value, 0));
  }

  /** The mean squared error of two columns of length n is the average of
      the squared residuals. */
  lemma MseValue(fns: Math, yTrue: Tensor, yPred: Tensor, n: nat)
    requires n >= 1 && Column(yPred, n) && Column(yTrue, n)
    ensures LossValue(fns, MeanSquaredError, yTrue, yPred).Ok?
    ensures var v := LossValue(fns, MeanSquaredError, yTrue, yPred).value;
      IsScalar(v) && At(v, 0, 0) == Sum(Squares(Residuals(yPred, yTrue, n))) / (n as real)
  {
    ColumnDifference(yPred, yTrue, n);
    SquareColumn(fns, Minus(yPred, yTrue).value, n);
  }

  /** The mean absolute error of two columns of length n is the average of
      the absolute residuals. */
  lemma MaeValue(fns: Math, yTrue: Tensor, yPred: Tensor, n: nat)
    requires n >= 1 && Column(yPred, n) && Column(yTrue, n)
    ensures LossValue(fns, MeanAbsoluteError, yTrue, yPred).Ok?
    ensures var v := LossValue(fns, MeanAbsoluteError, yTrue, yPred).value;
      IsScalar(v) && At(v, 0, 0) == Sum(AbsValues(Residuals(yPred, yTrue, n))) / (n as real)
  {
    ColumnDifference(yPred, yTrue, n);
    AbsColumn(Minus(yPred, yTrue).value, n);
  }

  /** The factor both gradients of the squaring node share, seeded with a
      1 x 1 c: `c * pow(d, 2 - 1)`, which is c times d. */
  lemma SquareAux(fns: Math, c: real, d: Tensor)
    ensures Minus(FromScalar(2.0), FromScalar(1.0)) == Ok(FromMat(Fill(1, 1, 1.0)))
    ensures Power(fns, d, FromMat(Fill(1, 1, 1.0))) == Ok(FromMat(d.value))
    ensures Product(FromScalar(c), FromMat(d.value)) == Ok(ScaledBy(c, d))
  {
    ScalarMinus(2.0, 1.0);
    PowerOne(fns, d);
    ScalarProductAgrees(c, FromMat(d.value));
  }

  /** The local gradient the squaring node sends to its base, seeded with a
      1 x 1 c: `c * pow(d, 2 - 1) * 2`, which is 2c times the residuals. */
  lemma SquareLeftGrad(fns: Math, c: real, d: Tensor)
    ensures LeftGrad(fns, PowExpr, FromScalar(c), d, FromScalar(2.0)) == Ok(ScaledBy(2.0 * c, d))
  {
    SquareAux(fns, c, d);
    ScalarProductAgrees(2.0, ScaledBy(c, d));
    ScaledTwice(2.0, c, d);
  }

  /** The squaring node's exponent gradient `aux * (d % log(d))` is a product
      of two tensors of d's size. */
  lemma SquareRightGradShape(fns: Math, c: real, d: Tensor)
    ensures RightGrad(fns, PowExpr, FromScalar(c), d, FromScalar(2.0))
         == Product(ScaledBy(c, d), Schur(d, Logarithm(fns, d)).value)
    ensures SameDims(Schur(d, Logarithm(fns, d)).value, d)
  {
    SquareAux(fns, c, d);
    SchurSameDims(d, Logarithm(fns, d));
  }

  /** For a column of residuals that product is of two columns (or two 1 x 1
      tensors), so it always has a size. */
  lemma SquareRightGradColumn(fns: Math, c: real, d: Tensor)
    requires Cols(d) == 1
    ensures RightGrad(fns, PowExpr, FromScalar(c), d, FromScalar(2.0)).Ok?
  {
    SquareRightGradShape(fns, c, d);
  }

  /** For 1 x m rows with m >= 2 that product has no size: backward through a
      mean squared error of row predictions fails, after y_pred and y_true
      have already taken their share. */
  lemma MseRowsFail(fns: Math, c: real, d: Tensor)
    requires Rows(d) == 1 && Cols(d) >= 2
    ensures RightGrad(fns, PowExpr, FromScalar(c), d, FromScalar(2.0)) == Err(ShapeMismatch)
  {
    SquareRightGradShape(fns, c, d);
  }

  /** The first three steps back from the mean squared error's node, stated
      for any binary node k + 2 (not `Div`) over k and the constant k + 1
      whose local gradients are s and gr: the loss's own accumulator takes
      the seed, the mean forwards it unchanged, and node k + 2 sends s to k;
      gr goes to the constant and is dropped. */
  lemma MseHead(fns: Math, nodes: seq<Node>, k: nat, seed: Tensor, acc: Grads, s: Tensor, gr: Tensor)
    requires Acyclic(nodes) && Tracks(nodes, acc) && k + 4 < |nodes|
    requires nodes[k + 4].op == Dependent(k + 3) && nodes[k + 3].op == Unary(MeanExpr, k + 2)
    requires nodes[k + 2].op.Binary? && nodes[k + 2].op.kind != DivExpr
    requires nodes[k + 2].op.l == k && nodes[k + 2].op.r == k + 1 && nodes[k + 1].op == ConstantLeaf
    requires InPlaceFits(acc[k + 4], seed)
    requires LeftGrad(fns, nodes[k + 2].op.kind, seed, nodes[k].val, nodes[k + 1].val) == Ok(s)
    requires RightGrad(fns, nodes[k + 2].op.kind, seed, nodes[k].val, nodes[k + 1].val) == Ok(gr)
    ensures Derive(fns, nodes, k + 4, seed, acc) == Derive(fns, nodes, k, s, acc[k + 4 := AddAssign(acc[k + 4], seed).value])
  {
    var a0 := acc[k + 4 := AddAssign(acc[k + 4], seed).value];
    DependentStep(fns, nodes, k + 4, seed, acc);
    MeanPassesThrough(fns, nodes, k + 3, seed, a0);
    ConstantRightStep(fns, nodes, k + 2, seed, a0, s, gr);
  }

  /** The difference node passes s to y_pred and then -s to y_true. */
  lemma DifferenceSplits(fns: Math, nodes: seq<Node>, k: nat, yTrue: nat, yPred: nat, s: Tensor, acc: Grads)
    requires Acyclic(nodes) && Tracks(nodes, acc) && k < |nodes|
    requires nodes[k].op == Binary(SubExpr, yPred, yTrue)
    ensures Derive(fns, nodes, k, s, acc) ==
      DeriveAfter(fns, nodes, Derive(fns, nodes, yPred, s, acc), yTrue, Negate(s))
  {
    BinaryStep(fns, nodes, k, s, acc, s, Negate(s));
  }

  /** Backward from a mean squared error over columns, seeded with a 1 x 1 c:
      y_pred receives 2c(y_pred - y_true) and y_true its negation. The mean
      passes the seed on undivided, so no factor 1/n appears. */
  lemma MseGradient(fns: Math, nodes: seq<Node>, k: nat, yTrue: nat, yPred: nat, c: real, acc: Grads)
    requires Acyclic(nodes) && Tracks(nodes, acc) && MseGraph(nodes, k, yTrue, yPred)
    requires Cols(nodes[k].val) == 1 && IsScalar(acc[k + 4])
    ensures var s := ScaledBy(2.0 * c, nodes[k].val);
      var a0 := acc[k + 4 := AddAssign(acc[k + 4], FromScalar(c)).value];
      && AddAssign(acc[k + 4], FromScalar(c)).Ok?
      && At(a0[k + 4], 0, 0) == At(acc[k + 4], 0, 0) + c
      && Derive(fns, nodes, k + 4, FromScalar(c), acc) ==
         DeriveAfter(fns, nodes, Derive(fns, nodes, yPred, s, a0), yTrue, Negate(s))
  {
    var d := nodes[k].val;
    InPlaceSameDims(acc[k + 4], FromScalar(c), AddReal);
    SquareLeftGrad(fns, c, d);
    SquareRightGradColumn(fns, c, d);
    var gr := RightGrad(fns, PowExpr, FromScalar(c), d, FromScalar(2.0)).value;
    MseHead(fns, nodes, k, FromScalar(c), acc, ScaledBy(2.0 * c, d), gr);
    var a0 := acc[k + 4 := AddAssign(acc[k + 4], FromScalar(c)).value];
    DifferenceSplits(fns, nodes, k, yTrue, yPred, ScaledBy(2.0 * c, d), a0);
  }

  /** What `abs` sends back for a 1 x 1 seed c: -c, c or 0 by the sign of the
      first entry of its input alone, as a 1 x 1 tensor. */
  lemma AbsGrad(fns: Math, c: real, d: Tensor)
    requires Rows(d) >= 1 && Cols(d) >= 1
    ensures UnaryGrad(fns, AbsExpr, FromScalar(c), d).Ok?
    ensures var s := UnaryGrad(fns, AbsExpr, FromScalar(c), d).value;
      IsScalar(s) && At(s, 0, 0) == if At(d, 0, 0) < 0.0 then -c else if At(d, 0, 0) > 0.0 then c else 0.0
  {
  }

  /** The first three steps back from the mean absolute error's node, stated
      for any unary node k + 1 over k whose local gradient is s: the loss's
      own accumulator takes the seed, the mean forwards it unchanged, and
      node k + 1 sends s to k. */
  lemma MaeHead(fns: Math, nodes: seq<Node>, k: nat, seed: Tensor, acc: Grads, s: Tensor)
    requires Acyclic(nodes) && Tracks(nodes, acc) && k + 3 < |nodes|
    requires nodes[k + 3].op == Dependent(k + 2) && nodes[k + 2].op == Unary(MeanExpr, k + 1)
    requires nodes[k + 1].op.Unary? && nodes[k + 1].op.x == k
    requires InPlaceFits(acc[k + 3], seed)
    requires UnaryGrad(fns, nodes[k + 1].op.ukind, seed, nodes[k].val) == Ok(s)
    ensures Derive(fns, nodes, k + 3, seed, acc) == Derive(fns, nodes, k, s, acc[k + 3 := AddAssign(acc[k + 3], seed).value])
  {
    var a0 := acc[k + 3 := AddAssign(acc[k + 3], seed).value];
    DependentStep(fns, nodes, k + 3, seed, acc);
    MeanPassesThrough(fns, nodes, k + 2, seed, a0);
    UnaryStep(fns, nodes, k + 1, seed, a0, s);
  }

  /** Backward from a mean absolute error, seeded with a 1 x 1 c: the
      accumulator of the loss takes c, the mean forwards c, `abs` sends its
      one-entry gradient s (see AbsGrad) to the difference, which passes s
      to y_pred and -s to y_true. */
  lemma MaeGradient(fns: Math, nodes: seq<Node>, k: nat, yTrue: nat, yPred: nat, c: real, acc: Grads)
    requires Acyclic(nodes) && Tracks(nodes, acc) && MaeGraph(nodes, k, yTrue, yPred)
    requires Rows(nodes[k].val) >= 1 && Cols(nodes[k].val) >= 1 && IsScalar(acc[k + 3])
    ensures var s := UnaryGrad(fns, AbsExpr, FromScalar(c), nodes[k].val).value;
      var a0 := acc[k + 3 := AddAssign(acc[k + 3], FromScalar(c)).value];
      && AddAssign(acc[k + 3], FromScalar(c)).Ok?
      && UnaryGrad(fns, AbsExpr, FromScalar(c), nodes[k].val).Ok?
      && Derive(fns, nodes, k + 3, FromScalar(c), acc) ==
         DeriveAfter(fns, nodes, Derive(fns, nodes, yPred, s, a0), yTrue, Negate(s))
  {
    var seed := FromScalar(c);
    InPlaceSameDims(acc[k + 3], seed, AddReal);
    AbsGrad(fns, c, nodes[k].val);
    var s := UnaryGrad(fns, AbsExpr, seed, nodes[k].val).value;
    MaeHead(fns, nodes, k, seed, acc, s);
    DifferenceSplits(fns, nodes, k, yTrue, yPred, s, acc[k + 3 := AddAssign(acc[k + 3], seed).value]);
  }
}

=== FILE: matrices.dfy ===
/** Dense real matrices: the numeric buffer (Armadillo's `Mat`) that a tensor wraps.

    Only what the modelled code asks of the buffer is defined here: entry-wise
    maps and zips, transposition, tiling of a single value, sums, the matrix
    product, per-column means and standard deviations, and `reshape`. */
module Matrices {

  /** A `rows` x `cols` buffer stored row by row. The dimensions are kept
      beside the cells so that a buffer with no rows still has a column count. */
  datatype Matrix = Matrix(rows: nat, cols: nat, cells: seq<seq<real>>)

  predicate Shaped(m: Matrix)
  {
    |m.cells| == m.rows && forall i | 0 <= i < |m.cells| :: |m.cells[i]| == m.cols
  }

  type Mat = m: Matrix | Shaped(m) witness Matrix(0, 0, [])

  /** Entry (i, j); 0 outside the buffer, where it is never consulted. */
  function Get(m: Mat, i: int, j: int): real
  {
    if 0 <= i < m.rows && 0 <= j < m.cols then m.cells[i][j] else 0.0
  }

  predicate SameSize(a: Mat, b: Mat)
  {
    a.rows == b.rows && a.cols == b.cols
  }

  /** Two buffers with the same dimensions and the same entries are equal. */
  lemma Ext(a: Mat, b: Mat)
    requires SameSize(a, b)
    requires forall i, j | 0 <= i < a.rows && 0 <= j < a.cols :: Get(a, i, j) == Get(b, i, j)
    ensures a == b
  {
    forall i | 0 <= i < a.rows
      ensures a.cells[i] == b.cells[i]
    {
      forall j | 0 <= j < a.cols
        ensures a.cells[i][j] == b.cells[i][j]
      {
        assert Get(a, i, j) == Get(b, i, j);
      }
    }
  }

  /** The r x c buffer whose entry (i, j) is f(i, j). */
  function Tabulate(r: nat, c: nat, f: (int, int) -> real): (m: Mat)
    ensures m.rows == r && m.cols == c
    ensures forall i, j | 0 <= i < r && 0 <= j < c :: Get(m, i, j) == f(i, j)
  {
    if r == 0 then Matrix(0, c, [])
    else Matrix(r, c, Tabulate(r - 1, c, f).cells + [seq(c, j => f(r - 1, j))])
  }

  /** `Mat(r, c, fill::value(x))`, and `repmat` of a 1 x 1 buffer holding x. */
  function Fill(r: nat, c: nat, x: real): (m: Mat)
    ensures m.rows == r && m.cols == c
    ensures forall i, j | 0 <= i < r && 0 <= j < c :: Get(m, i, j) == x
  {
    Matrix(r, c, Repeat(r, Repeat(c, x)))
  }

  /** n copies of x. */
  function Repeat<T>(n: nat, x: T): (s: seq<T>)
    ensures |s| == n && forall k | 0 <= k < n :: s[k] == x
  {
    if n == 0 then [] else Repeat(n - 1, x) + [x]
  }

  function Map(a: Mat, f: real -> real): (m: Mat)
    ensures SameSize(m, a)
    ensures forall i, j | 0 <= i < a.rows && 0 <= j < a.cols :: Get(m, i, j) == f(Get(a, i, j))
  {
    Tabulate(a.rows, a.cols, (i, j) => f(Get(a, i, j)))
  }

  function Zip(a: Mat, b: Mat, f: (real, real) -> real): (m: Mat)
    requires SameSize(a, b)
    ensures SameSize(m, a)
    ensures forall i, j | 0 <= i < a.rows && 0 <= j < a.cols :: Get(m, i, j) == f(Get(a, i, j), Get(b, i, j))
  {
    Tabulate(a.rows, a.cols, (i, j) => f(Get(a, i, j), Get(b, i, j)))
  }

  function Transpose(a: Mat): (m: Mat)
    ensures m.rows == a.cols && m.cols == a.rows
    ensures forall i, j | 0 <= i < a.cols && 0 <= j < a.rows :: Get(m, i, j) == Get(a, j, i)
  {
    Tabulate(a.cols, a.rows, (i, j) => Get(a, j, i))
  }

  lemma TransposeTwice(a: Mat)
    ensures Transpose(Transpose(a)) == a
  {
    Ext(Transpose(Transpose(a)), a);
  }

  /** Multiplication of every entry by c (Armadillo's `c * m` and `m * c`). */
  function Scale(c: real, a: Mat): (m: Mat)
    ensures SameSize(m, a)
    ensures forall i, j | 0 <= i < a.rows && 0 <= j < a.cols :: Get(m, i, j) == c * Get(a, i, j)
  {
    Map(a, x => c * x)
  }

  /** Sum of a sequence, accumulated from the front. */
  function Sum(s: seq<real>): real
  {
    if |s| == 0 then 0.0 else Sum(s[..|s| - 1]) + s[|s| - 1]
  }

  /** Row i and column j as sequences. */
  function Row(a: Mat, i: int): (s: seq<real>)
    ensures |s| == a.cols
  {
    seq(a.cols, j => Get(a, i, j))
  }

  function Col(a: Mat, j: int): (s: seq<real>)
    ensures |s| == a.rows
  {
    seq(a.rows, i => Get(a, i, j))
  }

  /** `arma::accu`: the sum of all entries. */
  function Accu(a: Mat): real
  {
    Sum(seq(a.rows, i => Sum(Row(a, i))))
  }

  /** The largest element of a non-empty sequence. */
  function SeqMax(s: seq<real>): (m: real)
    requires |s| > 0
    ensures forall k | 0 <= k < |s| :: s[k] <= m
    ensures exists k | 0 <= k < |s| :: s[k] == m
  {
    if |s| == 1 then s[0]
    else
      var m := SeqMax(s[1..]);
      assert forall k | 0 <= k < |s| - 1 :: s[1..][k] == s[k + 1];
      if s[0] < m then m else s[0]
  }

  /** `Mat::max()` of a buffer that has entries: the largest of them. */
  function MaxEntry(a: Mat): (m: real)
    requires a.rows > 0 && a.cols > 0
    ensures forall i, j | 0 <= i < a.rows && 0 <= j < a.cols :: Get(a, i, j) <= m
    ensures exists i, j | 0 <= i < a.rows && 0 <= j < a.cols :: Get(a, i, j) == m
  {
    var tops := seq(a.rows, i => SeqMax(Row(a, i)));
    var m := SeqMax(tops);
    assert forall i, j | 0 <= i < a.rows && 0 <= j < a.cols :: Get(a, i, j) == Row(a, i)[j] <= tops[i];
    m
  }

  /** `Mat::min()` of a buffer that has entries: the smallest of them. */
  function MinEntry(a: Mat): (m: real)
    requires a.rows > 0 && a.cols > 0
    ensures forall i, j | 0 <= i < a.rows && 0 <= j < a.cols :: m <= Get(a, i, j)
    ensures exists i, j | 0 <= i < a.rows && 0 <= j < a.cols :: Get(a, i, j) == m
  {
    -MaxEntry(Map(a, x => -x))
  }

  /** `arma::sum(m, 1)`: the column of row sums. */
  function RowSums(a: Mat): (m: Mat)
    ensures m.rows == a.rows && m.cols == 1
    ensures forall i | 0 <= i < a.rows :: Get(m, i, 0) == Sum(Row(a, i))
  {
    Tabulate(a.rows, 1, (i, j) => Sum(Row(a, i)))
  }

  /** The inner product of row i of a with column j of b. */
  function Dot(a: Mat, b: Mat, i: int, j: int): real
  {
    Sum(seq(a.cols, k => Get(a, i, k) * Get(b, k, j)))
  }

  /** The matrix product; Armadillo demands a.cols == b.rows. */
  function MatMul(a: Mat, b: Mat): (m: Mat)
    requires a.cols == b.rows
    ensures m.rows == a.rows && m.cols == b.cols
    ensures forall i, j | 0 <= i < a.rows && 0 <= j < b.cols :: Get(m, i, j) == Dot(a, b, i, j)
  {
    Tabulate(a.rows, b.cols, (i, j) => Dot(a, b, i, j))
  }

  /** Rows kept by a per-column reduction: one, or none for an empty input. */
  function ReducedRows(a: Mat): nat
  {
    if a.rows == 0 then 0 else 1
  }

  /** `arma::mean(m)` on a matrix: the row of column averages. */
  function ColMeans(a: Mat): (m: Mat)
    ensures m.rows == ReducedRows(a) && m.cols == a.cols
    ensures a.rows > 0 ==> forall j | 0 <= j < a.cols :: Get(m, 0, j) == Sum(Col(a, j)) / (a.rows as real)
  {
    Tabulate(ReducedRows(a), a.cols, (i, j) => if a.rows == 0 then 0.0 else Sum(Col(a, j)) / (a.rows as real))
  }

  /** Sum of squared deviations from the average of a sequence. */
  function SquaredDeviation(s: seq<real>, mean: real): real
  {
    Sum(seq(|s|, k requires 0 <= k < |s| => (s[k] - mean) * (s[k] - mean)))
  }

  /** `arma::stddev(m)` on a matrix: per column, the square root of the
      sample variance (normalised by n - 1); 0 for a single row. */
  function ColStddevs(a: Mat, sqrt: real -> real): (m: Mat)
    ensures m.rows == ReducedRows(a) && m.cols == a.cols
    ensures a.rows == 1 ==> forall j | 0 <= j < a.cols :: Get(m, 0, j) == 0.0
  {
    Tabulate(ReducedRows(a), a.cols, (i, j) =>
      if a.rows < 2 then 0.0
      else sqrt(SquaredDeviation(Col(a, j), Sum(Col(a, j)) / (a.rows as real)) / ((a.rows - 1) as real)))
  }

  /** `Mat::reshape(r, c)`: the entries are read and written column by column;
      missing entries become 0 and surplus entries are dropped. */
  function Reshape(a: Mat, r: nat, c: nat): (m: Mat)
    ensures m.rows == r && m.cols == c
  {
    Tabulate(r, c, (i, j) =>
      var k := j * r + i;
      if 0 < a.rows && 0 <= k < a.rows * a.cols then Get(a, k % a.rows, k / a.rows) else 0.0)
  }

  /** The sum of n copies of x. */
  lemma {:induction false} SumConstant(s: seq<real>, x: real)
    requires forall k | 0 <= k < |s| :: s[k] == x
    ensures Sum(s) == (|s| as real) * x
  {
    if |s| > 0 {
      SumConstant(s[..|s| - 1], x);
    }
  }

  lemma SumOne(s: seq<real>)
    requires |s| == 1
    ensures Sum(s) == s[0]
  {
    assert s[..0] == [];
  }
}

=== FILE: nodes.dfy ===
/** The reverse-mode computation graph (src/stratosml/core/autodiff/node.hpp)
    and the backward rules of its operation nodes
    (src/stratosml/core/autodiff/ops.hpp).

    Nodes live in an arena in creation order. An operation node only refers to
    nodes that existed when it was built, so every reference points to a
    strictly smaller index and the graph is acyclic by construction. A node's
    value never changes after creation; the only mutable state is the gradient
    accumulator of the trainable nodes (independent and dependent variables),
    kept here in a map from node index to tensor that `Derive` threads. */
module Nodes {
  import opened Wrappers
  import opened Numerics
  import opened Matrices
  import opened Tensors

  /** The binary and unary operation nodes of ops.hpp. `MulExpr` is built by
      both `%` and `*`. */
  datatype BinaryKind = AddExpr | SubExpr | MulExpr | DivExpr | PowExpr
  datatype UnaryKind = AbsExpr | MeanExpr | SinExpr | CosExpr | TanExpr

  datatype Op =
    | ConstantLeaf
    | IndependentLeaf
    | Dependent(expr: nat)
    | Binary(kind: BinaryKind, l: nat, r: nat)
    | Unary(ukind: UnaryKind, x: nat)
  {
    /** Nodes that carry a gradient accumulator (`VariableNode`). */
    predicate Trainable()
    {
      IndependentLeaf? || Dependent?
    }

    /** Every operand index is below i. */
    predicate RefersBelow(i: nat)
    {
      match this
      case ConstantLeaf => true
      case IndependentLeaf => true
      case Dependent(e) => e < i
      case Binary(_, l, r) => l < i && r < i
      case Unary(_, x) => x < i
    }
  }

  datatype Node = Node(op: Op, val: Tensor)

  predicate Acyclic(nodes: seq<Node>)
  {
    forall i | 0 <= i < |nodes| :: nodes[i].op.RefersBelow(i)
  }

  type Grads = map<nat, Tensor>

  /** Every trainable node has an accumulator. */
  predicate Tracks(nodes: seq<Node>, acc: Grads)
  {
    forall k | 0 <= k < |nodes| && nodes[k].op.Trainable() :: k in acc
  }

  /** Every accumulator has its node's buffer size. */
  predicate Matches(nodes: seq<Node>, acc: Grads)
  {
    forall k | k in acc && k < |nodes| :: SameDims(acc[k], nodes[k].val)
  }

  function TrainableIndices(nodes: seq<Node>): set<nat>
  {
    set k: nat | k < |nodes| && nodes[k].op.Trainable()
  }

  /** The arena and the accumulators, which belong exactly to the trainable
      nodes and have their node's buffer size. */
  datatype Graph = Graph(nodes: seq<Node>, grads: Grads)

  predicate Valid(g: Graph)
  {
    && Acyclic(g.nodes)
    && g.grads.Keys == TrainableIndices(g.nodes)
    && Matches(g.nodes, g.grads)
  }

  /** Whether node k is i itself or one of its ancestors. */
  predicate Reaches(nodes: seq<Node>, i: nat, k: nat)
    requires Acyclic(nodes) && i < |nodes|
    decreases i
  {
    i == k ||
    match nodes[i].op
    case ConstantLeaf => false
    case IndependentLeaf => false
    case Dependent(e) => Reaches(nodes, e, k)
    case Binary(_, l, r) => Reaches(nodes, l, k) || Reaches(nodes, r, k)
    case Unary(_, x) => Reaches(nodes, x, k)
  }

  /** Everything a node reaches was created no later than it. */
  lemma {:induction false} ReachesBelow(nodes: seq<Node>, i: nat, k: nat)
    requires Acyclic(nodes) && i < |nodes|
    requires Reaches(nodes, i, k)
    ensures k <= i
    decreases i
  {
    if i != k {
      match nodes[i].op
      case Dependent(e) => ReachesBelow(nodes, e, k);
      case Binary(_, l, r) =>
        if Reaches(nodes, l, k) { ReachesBelow(nodes, l, k); } else { ReachesBelow(nodes, r, k); }
      case Unary(_, x) => ReachesBelow(nodes, x, k);
    }
  }

  /** `this->grad += grad` on node i's accumulator. */
  function Accumulate(acc: Grads, i: nat, g: Tensor): (res: Result<Grads>)
    requires i in acc
    ensures res.Ok? ==> res.value.Keys == acc.Keys
    ensures res.Ok? ==> forall k | k in acc && k != i :: res.value[k] == acc[k]
    ensures res.Ok? ==> SameDims(res.value[i], acc[i]) && res.value[i].shape == acc[i].shape
    ensures res.Ok? <==> InPlaceFits(acc[i], g)
  {
    var t :- AddAssign(acc[i], g);
    Ok(acc[i := t])
  }

  /** The gradient a binary node sends to its left operand, as ops.hpp writes it. */
  function LeftGrad(fns: Math, kind: BinaryKind, g: Tensor, lv: Tensor, rv: Tensor): Result<Tensor>
  {
    match kind
    case AddExpr => Ok(g)
    case SubExpr => Ok(g)
    case MulExpr => Product(g, rv)
    // `1.0 / r->val`: the incoming gradient is not read
    case DivExpr => Quotient(FromScalar(1.0), rv)
    // `grad * pow(l->val, r->val - 1) * r->val`
    case PowExpr =>
      var e :- Minus(rv, FromScalar(1.0));
      var p :- Power(fns, lv, e);
      var aux :- Product(g, p);
      Product(aux, rv)
  }

  /** The gradient a binary node sends to its right operand, as ops.hpp writes it. */
  function RightGrad(fns: Math, kind: BinaryKind, g: Tensor, lv: Tensor, rv: Tensor): Result<Tensor>
  {
    match kind
    case AddExpr => Ok(g)
    case SubExpr => Ok(Negate(g))
    case MulExpr => Product(g, lv)
    // `-l->val * aux1 * aux1` with `aux1 = 1.0 / r->val`; the incoming gradient is not read
    case DivExpr =>
      var aux1 :- Quotient(FromScalar(1.0), rv);
      var t :- Product(Negate(lv), aux1);
      Product(t, aux1)
    // `grad * pow(l->val, r->val - 1) * (l->val % log(l->val))`
    case PowExpr =>
      var e :- Minus(rv, FromScalar(1.0));
      var p :- Power(fns, lv, e);
      var aux :- Product(g, p);
      var auxr :- Schur(lv, Logarithm(fns, lv));
      Product(aux, auxr)
  }

  /** The gradient a unary node sends to its operand. `abs` decides on the
      (0, 0) entry alone, which an empty buffer does not have. */
  function UnaryGrad(fns: Math, kind: UnaryKind, g: Tensor, xv: Tensor): Result<Tensor>
  {
    match kind
    case AbsExpr =>
      if Rows(xv) == 0 || Cols(xv) == 0 then Err(IndexOutOfBounds)
      else if At(xv, 0, 0) < 0.0 then Ok(Negate(g))
      else if At(xv, 0, 0) > 0.0 then Ok(g)
      else Ok(FromScalar(0.0))
    // passed through unscaled: no division by the element count
    case MeanExpr => Ok(g)
    case SinExpr => Product(g, Cosine(fns, xv))
    case CosExpr => Product(Negate(g), Sine(fns, xv))
    case TanExpr =>
      var aux :- Quotient(FromScalar(1.0), Cosine(fns, xv));
      var t :- Product(g, aux);
      Product(t, aux)
  }

  /** `nodes[i]->derive(g)`: one synchronous depth-first pass. Constants do
      nothing, variables add `g` into their accumulator (a dependent one then
      forwards the same `g`), operation nodes send each operand its local
      gradient. A node used twice is visited once per use and every visit
      adds. `Div` computes both local gradients before descending; the other
      binary nodes descend left before computing the right gradient. */
  function Derive(fns: Math, nodes: seq<Node>, i: nat, g: Tensor, acc: Grads): (res: Result<Grads>)
    requires Acyclic(nodes) && i < |nodes| && Tracks(nodes, acc)
    ensures res.Ok? ==> res.value.Keys == acc.Keys
    decreases i
  {
    match nodes[i].op
    case ConstantLeaf => Ok(acc)
    case IndependentLeaf => Accumulate(acc, i, g)
    case Dependent(e) =>
      var a :- Accumulate(acc, i, g);
      Derive(fns, nodes, e, g, a)
    case Binary(kind, l, r) =>
      var lv := nodes[l].val;
      var rv := nodes[r].val;
      if kind == DivExpr then
        var gl :- LeftGrad(fns, kind, g, lv, rv);
        var gr :- RightGrad(fns, kind, g, lv, rv);
        var a :- Derive(fns, nodes, l, gl, acc);
        Derive(fns, nodes, r, gr, a)
      else
        var gl :- LeftGrad(fns, kind, g, lv, rv);
        var a :- Derive(fns, nodes, l, gl, acc);
        var gr :- RightGrad(fns, kind, g, lv, rv);
        Derive(fns, nodes, r, gr, a)
    case Unary(kind, x) =>
      var gx :- UnaryGrad(fns, kind, g, nodes[x].val);
      Derive(fns, nodes, x, gx, acc)
  }

  /** `derive(seed)` on node `root` of a graph. */
  function Backward(fns: Math, g: Graph, root: nat, seed: Tensor): (res: Result<Graph>)
    requires Valid(g) && root < |g.nodes|
    ensures res.Ok? ==> Valid(res.value) && res.value.nodes == g.nodes
    ensures res.Ok? ==> forall k | k in g.grads && res.value.grads[k] != g.grads[k] :: Reaches(g.nodes, root, k)
  {
    var grads :- Derive(fns, g.nodes, root, seed, g.grads);
    DeriveLocal(fns, g.nodes, root, seed, g.grads);
    DeriveKeepsSizes(fns, g.nodes, root, seed, g.grads);
    Ok(Graph(g.nodes, grads))
  }

  /** A result with accumulator k set to t. */
  function WithEntry(res: Result<Grads>, k: nat, t: Tensor): Result<Grads>
  {
    match res
    case Ok(a) => Ok(a[k := t])
    case Err(e) => Err(e)
  }

  /** A backward pass from j neither reads nor writes an accumulator j does
      not reach: changing it beforehand commutes with the pass. */
  lemma {:induction false} DeriveFrame(fns: Math, nodes: seq<Node>, j: nat, g: Tensor, acc: Grads, k: nat, t: Tensor)
    requires Acyclic(nodes) && j < |nodes| && Tracks(nodes, acc)
    requires k in acc && !Reaches(nodes, j, k)
    ensures Derive(fns, nodes, j, g, acc[k := t]) == WithEntry(Derive(fns, nodes, j, g, acc), k, t)
    decreases j, 1
  {
    var acc' := acc[k := t];
    match nodes[j].op
    case ConstantLeaf =>
    case IndependentLeaf =>
      assert acc'[j] == acc[j];
      if AddAssign(acc[j], g).Ok? {
        var s := AddAssign(acc[j], g).value;
        assert acc'[j := s] == acc[j := s][k := t];
      }
    case Dependent(e) =>
      assert acc'[j] == acc[j];
      if AddAssign(acc[j], g).Ok? {
        var s := AddAssign(acc[j], g).value;
        var a := acc[j := s];
        assert acc'[j := s] == a[k := t];
        DeriveFrame(fns, nodes, e, g, a, k, t);
      }
    case Binary(kind, l, r) =>
      DeriveFrameBinary(fns, nodes, j, g, acc, k, t);
    case Unary(kind, x) =>
      var gx := UnaryGrad(fns, kind, g, nodes[x].val);
      if gx.Ok? {
        DeriveFrame(fns, nodes, x, gx.value, acc, k, t);
      }
  }

  lemma {:induction false} DeriveFrameBinary(fns: Math, nodes: seq<Node>, j: nat, g: Tensor, acc: Grads, k: nat, t: Tensor)
    requires Acyclic(nodes) && j < |nodes| && Tracks(nodes, acc)
    requires k in acc && !Reaches(nodes, j, k) && nodes[j].op.Binary?
    ensures Derive(fns, nodes, j, g, acc[k := t]) == WithEntry(Derive(fns, nodes, j, g, acc), k, t)
    decreases j, 0
  {
    var Binary(kind, l, r) := nodes[j].op;
    var lv := nodes[l].val;
    var rv := nodes[r].val;
    var gl := LeftGrad(fns, kind, g, lv, rv);
    var gr := RightGrad(fns, kind, g, lv, rv);
    if gl.Ok? {
      DeriveFrame(fns, nodes, l, gl.value, acc, k, t);
      var da := Derive(fns, nodes, l, gl.value, acc);
      if da.Ok? && gr.Ok? {
        DeriveFrame(fns, nodes, r, gr.value, da.value, k, t);
      }
    }
  }

  /** A backward pass from i only moves the accumulators of trainable nodes
      that i reaches. */
  lemma {:induction false} DeriveLocal(fns: Math, nodes: seq<Node>, i: nat, g: Tensor, acc: Grads)
    requires Acyclic(nodes) && i < |nodes| && Tracks(nodes, acc)
    requires Derive(fns, nodes, i, g, acc).Ok?
    ensures var a := Derive(fns, nodes, i, g, acc).value;
      forall k | k in acc && a[k] != acc[k] :: Reaches(nodes, i, k) && k < |nodes| && nodes[k].op.Trainable()
    decreases i, 1
  {
    match nodes[i].op
    case ConstantLeaf =>
    case IndependentLeaf =>
    case Dependent(e) =>
      var a := Accumulate(acc, i, g).value;
      DeriveLocal(fns, nodes, e, g, a);
    case Binary(_, _, _) =>
      DeriveLocalBinary(fns, nodes, i, g, acc);
    case Unary(kind, x) =>
      DeriveLocal(fns, nodes, x, UnaryGrad(fns, kind, g, nodes[x].val).value, acc);
  }

  lemma {:induction false} DeriveLocalBinary(fns: Math, nodes: seq<Node>, i: nat, g: Tensor, acc: Grads)
    requires Acyclic(nodes) && i < |nodes| && Tracks(nodes, acc) && nodes[i].op.Binary?
    requires Derive(fns, nodes, i, g, acc).Ok?
    ensures var a := Derive(fns, nodes, i, g, acc).value;
      forall k | k in acc && a[k] != acc[k] :: Reaches(nodes, i, k) && k < |nodes| && nodes[k].op.Trainable()
    decreases i, 0
  {
    var Binary(kind, l, r) := nodes[i].op;
    var gl := LeftGrad(fns, kind, g, nodes[l].val, nodes[r].val).value;
    var gr := RightGrad(fns, kind, g, nodes[l].val, nodes[r].val).value;
    var da := Derive(fns, nodes, l, gl, acc).value;
    DeriveLocal(fns, nodes, l, gl, acc);
    DeriveLocal(fns, nodes, r, gr, da);
  }

  /** A backward pass keeps every accumulator at its node's buffer size. */
  lemma {:induction false} DeriveKeepsSizes(fns: Math, nodes: seq<Node>, i: nat, g: Tensor, acc: Grads)
    requires Acyclic(nodes) && i < |nodes| && Tracks(nodes, acc) && Matches(nodes, acc)
    requires Derive(fns, nodes, i, g, acc).Ok?
    ensures Matches(nodes, Derive(fns, nodes, i, g, acc).value)
    decreases i, 1
  {
    match nodes[i].op
    case ConstantLeaf =>
    case IndependentLeaf =>
    case Dependent(e) =>
      var a := Accumulate(acc, i, g).value;
      DeriveKeepsSizes(fns, nodes, e, g, a);
    case Binary(_, _, _) =>
      DeriveKeepsSizesBinary(fns, nodes, i, g, acc);
    case Unary(kind, x) =>
      DeriveKeepsSizes(fns, nodes, x, UnaryGrad(fns, kind, g, nodes[x].val).value, acc);
  }

  lemma {:induction false} DeriveKeepsSizesBinary(fns: Math, nodes: seq<Node>, i: nat, g: Tensor, acc: Grads)
    requires Acyclic(nodes) && i < |nodes| && Tracks(nodes, acc) && Matches(nodes, acc) && nodes[i].op.Binary?
    requires Derive(fns, nodes, i, g, acc).Ok?
    ensures Matches(nodes, Derive(fns, nodes, i, g, acc).value)
    decreases i, 0
  {
    var Binary(kind, l, r) := nodes[i].op;
    var gl := LeftGrad(fns, kind, g, nodes[l].val, nodes[r].val).value;
    var gr := RightGrad(fns, kind, g, nodes[l].val, nodes[r].val).value;
    var da := Derive(fns, nodes, l, gl, acc).value;
    DeriveKeepsSizes(fns, nodes, l, gl, acc);
    DeriveKeepsSizes(fns, nodes, r, gr, da);
  }

  /** A pass from j started on the accumulators a first pass left, or that
      pass's error. */
  function DeriveAfter(fns: Math, nodes: seq<Node>, first: Result<Grads>, j: nat, g: Tensor): Result<Grads>
    requires Acyclic(nodes) && j < |nodes|
    requires first.Ok? ==> Tracks(nodes, first.value)
  {
    match first
    case Ok(a) => Derive(fns, nodes, j, g, a)
    case Err(e) => Err(e)
  }

  /** One unfolding of `Derive` at a dependent node, for use in other
      proofs: once its accumulator takes g, the pass continues at the node it
      wraps with the same g. */
  lemma DependentStep(fns: Math, nodes: seq<Node>, i: nat, g: Tensor, acc: Grads)
    requires Acyclic(nodes) && i < |nodes| && Tracks(nodes, acc)
    requires nodes[i].op.Dependent? && InPlaceFits(acc[i], g)
    ensures Derive(fns, nodes, i, g, acc) == Derive(fns, nodes, nodes[i].op.expr, g, acc[i := AddAssign(acc[i], g).value])
  {
  }

  /** One unfolding of `Derive` at a binary node other than `Div`, for use in
      other proofs: with local gradients gl and gr it runs the pass of its
      left operand with gl and then that of its right operand with gr. */
  lemma BinaryStep(fns: Math, nodes: seq<Node>, i: nat, g: Tensor, acc: Grads, gl: Tensor, gr: Tensor)
    requires Acyclic(nodes) && i < |nodes| && Tracks(nodes, acc)
    requires nodes[i].op.Binary? && nodes[i].op.kind != DivExpr
    requires var o := nodes[i].op; LeftGrad(fns, o.kind, g, nodes[o.l].val, nodes[o.r].val) == Ok(gl)
    requires var o := nodes[i].op; RightGrad(fns, o.kind, g, nodes[o.l].val, nodes[o.r].val) == Ok(gr)
    ensures Derive(fns, nodes, i, g, acc) == DeriveAfter(fns, nodes, Derive(fns, nodes, nodes[i].op.l, gl, acc), nodes[i].op.r, gr)
  {
  }

  /** When the right operand is a constant, only gl travels on: the constant
      drops gr. */
  lemma ConstantRightStep(fns: Math, nodes: seq<Node>, i: nat, g: Tensor, acc: Grads, gl: Tensor, gr: Tensor)
    requires Acyclic(nodes) && i < |nodes| && Tracks(nodes, acc)
    requires nodes[i].op.Binary? && nodes[i].op.kind != DivExpr && nodes[nodes[i].op.r].op == ConstantLeaf
    requires var o := nodes[i].op; LeftGrad(fns, o.kind, g, nodes[o.l].val, nodes[o.r].val) == Ok(gl)
    requires var o := nodes[i].op; RightGrad(fns, o.kind, g, nodes[o.l].val, nodes[o.r].val) == Ok(gr)
    ensures Derive(fns, nodes, i, g, acc) == Derive(fns, nodes, nodes[i].op.l, gl, acc)
  {
    BinaryStep(fns, nodes, i, g, acc, gl, gr);
  }

  /** One unfolding of `Derive` at a unary node, for use in other proofs:
      with local gradient gx it continues at its operand with gx. */
  lemma UnaryStep(fns: Math, nodes: seq<Node>, i: nat, g: Tensor, acc: Grads, gx: Tensor)
    requires Acyclic(nodes) && i < |nodes| && Tracks(nodes, acc)
    requires nodes[i].op.Unary? && UnaryGrad(fns, nodes[i].op.ukind, g, nodes[nodes[i].op.x].val) == Ok(gx)
    ensures Derive(fns, nodes, i, g, acc) == Derive(fns, nodes, nodes[i].op.x, gx, acc)
  {
  }

  /** A constant node is inert: it changes no accumulator and calls no other node. */
  lemma ConstantInert(fns: Math, nodes: seq<Node>, i: nat, g: Tensor, acc: Grads)
    requires Acyclic(nodes) && i < |nodes| && Tracks(nodes, acc)
    requires nodes[i].op == ConstantLeaf
    ensures Derive(fns, nodes, i, g, acc) == Ok(acc)
  {
  }

  /** An independent leaf adds each incoming gradient into its accumulator and
      never resets it: after `derive(g1)` and `derive(g2)` it holds the old
      value plus g1 plus g2, and no other accumulator moved. */
  lemma IndependentAccumulates(fns: Math, nodes: seq<Node>, i: nat, g1: Tensor, g2: Tensor, acc: Grads)
    requires Acyclic(nodes) && i < |nodes| && Tracks(nodes, acc)
    requires nodes[i].op == IndependentLeaf
    requires SameDims(acc[i], g1) && SameDims(acc[i], g2)
    ensures Derive(fns, nodes, i, g1, acc).Ok?
    ensures Derive(fns, nodes, i, g2, Derive(fns, nodes, i, g1, acc).value).Ok?
    ensures var a := Derive(fns, nodes, i, g2, Derive(fns, nodes, i, g1, acc).value).value;
      && a.Keys == acc.Keys
      && (forall k | k in acc && k != i :: a[k] == acc[k])
      && SameDims(a[i], acc[i])
      && forall r, c | 0 <= r < Rows(g1) && 0 <= c < Cols(g1) :: At(a[i], r, c) == At(acc[i], r, c) + At(g1, r, c) + At(g2, r, c)
  {
    AccumulateTwice(acc[i], g1, g2);
  }

  /** A dependent node adds `g` to its own accumulator and forwards the very
      same `g` to the node it wraps: the result is the wrapped node's pass
      with the dependent node's accumulator advanced by `g`. */
  lemma DependentForwards(fns: Math, nodes: seq<Node>, i: nat, g: Tensor, acc: Grads)
    requires Acyclic(nodes) && i < |nodes| && Tracks(nodes, acc)
    requires nodes[i].op.Dependent?
    requires InPlaceFits(acc[i], g)
    ensures Derive(fns, nodes, i, g, acc)
         == WithEntry(Derive(fns, nodes, nodes[i].op.expr, g, acc), i, AddAssign(acc[i], g).value)
  {
    var e := nodes[i].op.expr;
    if Reaches(nodes, e, i) {
      ReachesBelow(nodes, e, i);
    }
    DeriveFrame(fns, nodes, e, g, acc, i, AddAssign(acc[i], g).value);
  }

  /** A shared operand receives one contribution per use: for y = x op x
      with x an independent leaf, whatever the operator, x's accumulator
      gains both the left-hand and the right-hand local gradient. */
  lemma SharedOperandAccumulates(fns: Math, nodes: seq<Node>, y: nat, x: nat, kind: BinaryKind,
                                 g: Tensor, gl: Tensor, gr: Tensor, acc: Grads)
    requires Acyclic(nodes) && y < |nodes| && Tracks(nodes, acc)
    requires nodes[y].op == Binary(kind, x, x) && nodes[x].op == IndependentLeaf
    requires LeftGrad(fns, kind, g, nodes[x].val, nodes[x].val) == Ok(gl)
    requires RightGrad(fns, kind, g, nodes[x].val, nodes[x].val) == Ok(gr)
    requires SameDims(acc[x], gl) && SameDims(acc[x], gr)
    ensures Derive(fns, nodes, y, g, acc).Ok?
    ensures var a := Derive(fns, nodes, y, g, acc).value;
      && (forall k | k in acc && k != x :: a[k] == acc[k])
      && SameDims(a[x], acc[x])
      && forall r, c | 0 <= r < Rows(gl) && 0 <= c < Cols(gl) :: At(a[x], r, c) == At(acc[x], r, c) + At(gl, r, c) + At(gr, r, c)
  {
    IndependentAccumulates(fns, nodes, x, gl, gr, acc);
  }

  /** y = x * x seeded with a constant c: x's accumulator gains 2 c x, the
      derivative of c x^2, as the sum of the two operand contributions. */
  lemma SquareAccumulates(fns: Math, nodes: seq<Node>, y: nat, x: nat, c: real, acc: Grads)
    requires Acyclic(nodes) && y < |nodes| && Tracks(nodes, acc)
    requires nodes[y].op == Binary(MulExpr, x, x) && nodes[x].op == IndependentLeaf
    requires SameDims(acc[x], nodes[x].val)
    ensures Derive(fns, nodes, y, FromScalar(c), acc).Ok?
    ensures var a := Derive(fns, nodes, y, FromScalar(c), acc).value; var xv := nodes[x].val;
      && (forall k | k in acc && k != x :: a[k] == acc[k])
      && SameDims(a[x], acc[x])
      && forall r, col | 0 <= r < Rows(xv) && 0 <= col < Cols(xv) :: At(a[x], r, col) == At(acc[x], r, col) + 2.0 * c * At(xv, r, col)
  {
    var xv := nodes[x].val;
    MulSwapsOperands(fns, c, xv, xv);
    var s := ScaledBy(c, xv);
    SharedOperandAccumulates(fns, nodes, y, x, MulExpr, FromScalar(c), s, s, acc);
  }

  /** `Div` never reads the incoming gradient. */
  lemma DivIgnoresGradient(fns: Math, nodes: seq<Node>, i: nat, g1: Tensor, g2: Tensor, acc: Grads)
    requires Acyclic(nodes) && i < |nodes| && Tracks(nodes, acc)
    requires nodes[i].op.Binary? && nodes[i].op.kind == DivExpr
    ensures Derive(fns, nodes, i, g1, acc) == Derive(fns, nodes, i, g2, acc)
  {
  }

  /** One unfolding of `Derive` at a `Mean` node: the gradient goes on
      unscaled. */
  lemma MeanPassesThrough(fns: Math, nodes: seq<Node>, i: nat, g: Tensor, acc: Grads)
    requires Acyclic(nodes) && i < |nodes| && Tracks(nodes, acc)
    requires nodes[i].op.Unary? && nodes[i].op.ukind == MeanExpr
    ensures Derive(fns, nodes, i, g, acc) == Derive(fns, nodes, nodes[i].op.x, g, acc)
  {
  }

  /** `Mul` sends each operand the incoming gradient times the other
      operand's value, through the matrix `*`: with a 1 x 1 seed c the left
      operand receives c times the right's value, a tensor of the right's
      size, and the right operand c times the left's. */
  lemma MulSwapsOperands(fns: Math, c: real, lv: Tensor, rv: Tensor)
    ensures LeftGrad(fns, MulExpr, FromScalar(c), lv, rv) == Ok(ScaledBy(c, rv))
    ensures RightGrad(fns, MulExpr, FromScalar(c), lv, rv) == Ok(ScaledBy(c, lv))
  {
    ScalarProductAgrees(c, rv);
    ScalarProductAgrees(c, lv);
  }
}

=== FILE: numerics.dfy ===
/** Scalar arithmetic on `real`, standing in for the library's `float`/`double`. */
module Numerics {

  /** The C math library functions the library calls. The model has no
      floating point, so these are left uninterpreted: every operation that
      needs one takes the record as a parameter. `powFrac` is `pow` at an
      exponent that is not a non-negative integer. */
  datatype Math = Math(
    sin: real -> real,
    cos: real -> real,
    tan: real -> real,
    log: real -> real,
    exp: real -> real,
    sqrt: real -> real,
    powFrac: (real, real) -> real)

  /** x raised to a natural power. */
  function NatPow(x: real, n: nat): real
  {
    if n == 0 then 1.0 else x * NatPow(x, n - 1)
  }

  /** `pow(x, e)`: exact for non-negative integer exponents, uninterpreted otherwise. */
  function Pow(fns: Math, x: real, e: real): real
  {
    var n := e.Floor;
    if 0 <= n && n as real == e then NatPow(x, n) else fns.powFrac(x, e)
  }

  lemma PowOneTwo(fns: Math, x: real)
    ensures Pow(fns, x, 1.0) == x
    ensures Pow(fns, x, 2.0) == x * x
  {
    assert (1.0).Floor == 1;
    assert (2.0).Floor == 2;
    assert NatPow(x, 1) == x * NatPow(x, 0);
    assert NatPow(x, 2) == x * NatPow(x, 1);
  }

  /** Quotient; a zero divisor yields 0 (the source's IEEE infinities and NaN
      are not representable). */
  function Quot(x: real, y: real): real
  {
    if y == 0.0 then 0.0 else x / y
  }

  /** A power of a base in (0, 1) lies in (0, 1]. */
  lemma {:induction false} NatPowInUnit(x: real, m: nat)
    requires 0.0 < x < 1.0
    ensures 0.0 < NatPow(x, m) <= 1.0
  {
    if m > 0 {
      NatPowInUnit(x, m - 1);
      Shrinks(x, NatPow(x, m - 1), NatPow(x, m));
    }
  }

  /** A power of a base in (0, 1) lies in (0, 1] and shrinks as the exponent grows. */
  lemma {:induction false} NatPowDecays(x: real, n: nat, m: nat)
    requires 0.0 < x < 1.0
    requires n <= m
    ensures 0.0 < NatPow(x, m) <= NatPow(x, n) <= 1.0
    decreases m
  {
    NatPowInUnit(x, m);
    NatPowInUnit(x, n);
    if n < m {
      NatPowDecays(x, n, m - 1);
      NatPowStep(x, m);
    }
  }

  /** One more factor of a base in (0, 1) makes a power no larger. */
  lemma NatPowStep(x: real, m: nat)
    requires 0.0 < x < 1.0 && m > 0
    ensures NatPow(x, m) <= NatPow(x, m - 1)
  {
    NatPowInUnit(x, m - 1);
    Shrinks(x, NatPow(x, m - 1), NatPow(x, m));
  }

  /** Scaling a positive number p by a factor in (0, 1) gives a q between 0 and p. */
  lemma Shrinks(x: real, p: real, q: real)
    requires 0.0 < x < 1.0 && 0.0 < p && q == x * p
    ensures 0.0 < q < p
  {
    var y := 1.0 - x;
    assert y > 0.0;
    assert y * p > 0.0;
    assert p - q == y * p;
  }

  /** Scaling by a positive factor c keeps the order: a = c x <= c y = b. */
  lemma ScaleMonotone(c: real, x: real, y: real, a: real, b: real)
    requires c > 0.0 && x <= y && a == c * x && b == c * y
    ensures a <= b
  {
    var d := y - x;
    assert b == a + c * d;
    assert c * d >= 0.0;
  }

  /** Dividing s = r x by a non-zero r gives back x. */
  lemma CancelFactor(r: real, x: real, s: real)
    requires r != 0.0 && s == r * x
    ensures s / r == x
  {
  }

  /** Scaling by a positive factor keeps positivity. */
  lemma ScalePositive(c: real, x: real, a: real)
    requires c > 0.0 && x > 0.0 && a == c * x
    ensures a > 0.0
  {
  }

  /** A number no larger in size than m, divided by m, lies in [-1, 1]. */
  lemma QuotWithinOne(x: real, m: real)
    requires -m <= x <= m
    ensures -1.0 <= Quot(x, m) <= 1.0
  {
    if m != 0.0 {
      assert m > 0.0;
      assert x / m <= m / m;
      assert -m / m <= x / m;
    }
  }

  /** A number in [0, m], divided by m, lies in [0, 1]. */
  /** Over a non-zero divisor, 0 stays 0 and the divisor itself gives 1. */
  lemma QuotEnds(m: real)
    requires m != 0.0
    ensures Quot(0.0, m) == 0.0 && Quot(m, m) == 1.0
  {
  }

  lemma QuotInUnit(x: real, m: real)
    requires 0.0 <= x <= m
    ensures 0.0 <= Quot(x, m) <= 1.0
  {
    QuotWithinOne(x, m);
    if m != 0.0 {
      assert x / m >= 0.0;
    }
  }

  /** Block i of width w ends by the start of block k, for i < k. */
  lemma BlockBefore(w: nat, i: nat, k: nat)
    requires i < k
    ensures w * i + w <= w * k
  {
    MulMonotone(w, i + 1, k);
    assert w * (i + 1) == w * i + w;
  }

  /** Integer facts for `size_t` epoch arithmetic (`epoch / step_size`). */
  lemma MulAtLeast(d: int, k: int)
    requires d > 0 && k >= 1
    ensures d * k >= d
  {
    assert d * k == d + d * (k - 1);
  }
  lemma DivUnique(n: int, d: int, q: int, r: int)
    requires d > 0 && 0 <= r < d && n == d * q + r
    ensures n / d == q
  {
    var q', r' := n / d, n % d;
    assert n == d * q' + r';
    assert d * (q' - q) == r - r';
    if q' > q {
      MulAtLeast(d, q' - q);
    } else if q' < q {
      MulAtLeast(d, q - q');
    }
  }
  lemma DivNext(n: nat, d: nat)
    requires d > 0
    ensures (n + d) / d == n / d + 1
  {
    var q, r := n / d, n % d;
    assert n == d * q + r;
    assert n + d == d * (q + 1) + r;
    DivUnique(n + d, d, q + 1, r);
  }
  lemma DivMonotone(a: nat, b: nat, d: nat)
    requires a <= b && d > 0
    ensures a / d <= b / d
  {
    var qa, ra := a / d, a % d;
    var qb, rb := b / d, b % d;
    assert a == d * qa + ra && b == d * qb + rb;
    if qa > qb {
      MulAtLeast(d, qa - qb);
    }
  }
  lemma MulMonotone(w: nat, a: nat, b: nat)
    requires a <= b
    ensures w * a <= w * b
  {
    assert w * b == w * a + w * (b - a);
  }
}

=== FILE: ops.dfy ===
/** Building the graph: the forward operators of
    src/stratosml/core/autodiff/ops.hpp and the constructors and compound
    assignments of `Constant` and `Variable` in
    src/stratosml/core/autodiff/node.hpp.

    Every operator computes its value eagerly from its operands' values and
    appends one node that remembers the operands. A number or a raw tensor
    used as an operand is first promoted to a fresh constant node. The handle
    classes (`Constant`, `Variable`, `ConstantOrVariable`) only wrap a node, so
    here a handle is the index of its node. */
module Ops {
  import opened Wrappers
  import opened Numerics
  import opened Matrices
  import opened Tensors
  import opened Nodes

  /** h keeps every node and every accumulator of g. */
  predicate Extends(g: Graph, h: Graph)
  {
    && g.nodes <= h.nodes
    && forall k | k in g.grads :: k in h.grads && h.grads[k] == g.grads[k]
  }

  /** A graph after a builder, and the node the builder returned. */
  datatype Built = Built(graph: Graph, node: nat)

  /** `std::make_shared<...Node>(...)`: a new node at the end of the arena. A
      trainable node starts with a zero accumulator of its value's size and
      shape (`VariableNode` constructor); nothing already there changes. */
  function Append(g: Graph, op: Op, val: Tensor): (h: Graph)
    requires Valid(g) && op.RefersBelow(|g.nodes|)
    ensures Valid(h) && Extends(g, h)
    ensures h.nodes == g.nodes + [Node(op, val)]
    ensures h.grads.Keys == g.grads.Keys + (if op.Trainable() then {|g.nodes|} else {})
    ensures op.Trainable() ==> h.grads[|g.nodes|] == ZerosLike(val)
    ensures h.grads == if op.Trainable() then g.grads[|g.nodes| := ZerosLike(val)] else g.grads
  {
    var n := |g.nodes|;
    var grads := if op.Trainable() then g.grads[n := ZerosLike(val)] else g.grads;
    var h := Graph(g.nodes + [Node(op, val)], grads);
    assert h.grads.Keys == TrainableIndices(h.nodes) by {
      forall k: nat
        ensures k in h.grads.Keys <==> k in TrainableIndices(h.nodes)
      {
        if k < n {
          assert h.nodes[k] == g.nodes[k];
          assert k in g.grads.Keys <==> k in TrainableIndices(g.nodes);
        } else if k > n {
          assert k !in g.grads.Keys by {
            assert k !in TrainableIndices(g.nodes);
          }
        } else {
          assert k !in g.grads.Keys by {
            assert k !in TrainableIndices(g.nodes);
          }
        }
      }
    }
    h
  }

  /** What can stand on either side of an operator: a node (or a handle,
      which is its node), a number, or a raw tensor. */
  datatype Operand = Ref(index: nat) | Scalar(x: real) | Raw(t: Tensor)

  predicate Refers(g: Graph, a: Operand)
  {
    a.Ref? ==> a.index < |g.nodes|
  }

  /** The value an operand contributes. */
  function ValueOf(g: Graph, a: Operand): Tensor
    requires Refers(g, a)
  {
    match a
    case Ref(i) => g.nodes[i].val
    case Scalar(x) => FromScalar(x)
    case Raw(t) => t
  }

  /** Nodes that promoting the operand adds. */
  function Promoted(a: Operand): nat
  {
    if a.Ref? then 0 else 1
  }

  /** An operand as a node: a reference as it is; a number or a tensor as a
      fresh constant node (`Constant<T>(r)`, `constant(r)`). */
  function Lift(g: Graph, a: Operand): (res: Built)
    requires Valid(g) && Refers(g, a)
    ensures Valid(res.graph) && res.graph.grads == g.grads
    ensures res.graph.nodes == g.nodes + (if a.Ref? then [] else [Node(ConstantLeaf, ValueOf(g, a))])
    ensures res.node == LeftIndex(g, a) && res.graph.nodes[res.node].val == ValueOf(g, a)
  {
    match a
    case Ref(i) => Built(g, i)
    case Scalar(x) => Built(Append(g, ConstantLeaf, FromScalar(x)), |g.nodes|)
    case Raw(t) => Built(Append(g, ConstantLeaf, t), |g.nodes|)
  }

  /** The binary operators: `+`, `-`, `/`, `%` (element-wise product),
      `pow`, and `*` (matrix product with scalar and outer-product cases).
      `%` and `*` both build a `MulExprNode`. */
  datatype BinaryOp = PlusOp | MinusOp | DivideOp | SchurOp | PowOp | ProductOp

  function KindOf(o: BinaryOp): BinaryKind
  {
    match o
    case PlusOp => AddExpr
    case MinusOp => SubExpr
    case DivideOp => DivExpr
    case SchurOp => MulExpr
    case PowOp => PowExpr
    case ProductOp => MulExpr
  }

  /** The tensor operation that computes the node's value. */
  function Forward(fns: Math, o: BinaryOp, lv: Tensor, rv: Tensor): Result<Tensor>
  {
    match o
    case PlusOp => Plus(lv, rv)
    case MinusOp => Minus(lv, rv)
    case DivideOp => Quotient(lv, rv)
    case SchurOp => Schur(lv, rv)
    case PowOp => Power(fns, lv, rv)
    case ProductOp => Product(lv, rv)
  }

  /** The constant nodes promoting the operands adds, left first. */
  function Promotions(g: Graph, a: Operand, b: Operand): (cs: seq<Node>)
    requires Refers(g, a) && Refers(g, b)
    ensures |cs| == Promoted(a) + Promoted(b)
  {
    (if a.Ref? then [] else [Node(ConstantLeaf, ValueOf(g, a))])
    + (if b.Ref? then [] else [Node(ConstantLeaf, ValueOf(g, b))])
  }

  /** Where each operand ends up: its own node, or its fresh constant. */
  function LeftIndex(g: Graph, a: Operand): nat
  {
    if a.Ref? then a.index else |g.nodes|
  }

  function RightIndex(g: Graph, a: Operand, b: Operand): nat
  {
    if b.Ref? then b.index else |g.nodes| + Promoted(a)
  }

  /** `l op r`: promote the operands, compute the value (a failing tensor
      operation throws before the node exists) and append the operation node.
      No accumulator is added or changed. */
  function BuildBinary(fns: Math, g: Graph, o: BinaryOp, a: Operand, b: Operand): (res: Result<Built>)
    requires Valid(g) && Refers(g, a) && Refers(g, b)
    ensures res.Ok? <==> Forward(fns, o, ValueOf(g, a), ValueOf(g, b)).Ok?
    ensures res.Ok? ==> Valid(res.value.graph) && res.value.graph.grads == g.grads
    ensures res.Ok? ==>
      && res.value.node == |g.nodes| + Promoted(a) + Promoted(b)
      && res.value.graph.nodes == g.nodes + Promotions(g, a, b)
           + [Node(Binary(KindOf(o), LeftIndex(g, a), RightIndex(g, a, b)), Forward(fns, o, ValueOf(g, a), ValueOf(g, b)).value)]
  {
    var left := Lift(g, a);
    var right := Lift(left.graph, b);
    var h := right.graph;
    assert h.nodes == g.nodes + Promotions(g, a, b);
    assert left.node == LeftIndex(g, a) && right.node == RightIndex(g, a, b);
    assert h.nodes[left.node].val == ValueOf(g, a) by {
      assert h.nodes[left.node] == left.graph.nodes[left.node];
    }
    assert ValueOf(left.graph, b) == ValueOf(g, b);
    var v :- Forward(fns, o, h.nodes[left.node].val, h.nodes[right.node].val);
    Ok(Built(Append(h, Binary(KindOf(o), left.node, right.node), v), |h.nodes|))
  }

  /** `node op tensor`: the tensor's constant, then the operation node over
      the node and that constant. */
  lemma RawOperandBuilds(fns: Math, g: Graph, o: BinaryOp, y: nat, t: Tensor)
    requires Valid(g) && y < |g.nodes|
    ensures var res := BuildBinary(fns, g, o, Ref(y), Raw(t));
      res.Ok? ==>
        && res.value.node == |g.nodes| + 1 && res.value.graph.grads == g.grads
        && res.value.graph.nodes == g.nodes + [Node(ConstantLeaf, t), Node(Binary(KindOf(o), y, |g.nodes|), Forward(fns, o, g.nodes[y].val, t).value)]
  {
    assert Promotions(g, Ref(y), Raw(t)) == [Node(ConstantLeaf, t)];
  }

  /** The tensor function that computes a unary node's value. */
  function UnaryForward(fns: Math, k: UnaryKind, xv: Tensor): Tensor
  {
    match k
    case AbsExpr => Absolute(xv)
    case MeanExpr => Mean(xv)
    case SinExpr => Sine(fns, xv)
    case CosExpr => Cosine(fns, xv)
    case TanExpr => Tangent(fns, xv)
  }

  /** `abs`, `mean`, `sin`, `cos`, `tan` of a node. */
  function BuildUnary(fns: Math, g: Graph, k: UnaryKind, x: nat): (res: Built)
    requires Valid(g) && x < |g.nodes|
    ensures Valid(res.graph) && Extends(g, res.graph)
    ensures res.graph.nodes == g.nodes + [Node(Unary(k, x), UnaryForward(fns, k, g.nodes[x].val))]
    ensures res.node == |g.nodes| && res.node !in res.graph.grads
  {
    Built(Append(g, Unary(k, x), UnaryForward(fns, k, g.nodes[x].val)), |g.nodes|)
  }

  /** `Constant(v)` for a number, a list, a nested list or a tensor: a constant leaf. */
  function NewConstant(g: Graph, t: Tensor): (res: Built)
    requires Valid(g)
    ensures Valid(res.graph) && Extends(g, res.graph) && res.node == |g.nodes|
    ensures res.graph.nodes == g.nodes + [Node(ConstantLeaf, t)]
    ensures res.graph.grads == g.grads
  {
    Built(Append(g, ConstantLeaf, t), |g.nodes|)
  }

  /** `Variable(v)` for a number, a list, a nested list or a tensor: an
      independent leaf whose accumulator starts at zero. */
  function NewVariable(g: Graph, t: Tensor): (res: Built)
    requires Valid(g)
    ensures Valid(res.graph) && Extends(g, res.graph) && res.node == |g.nodes|
    ensures res.graph.nodes == g.nodes + [Node(IndependentLeaf, t)]
    ensures res.node in res.graph.grads && SameDims(res.graph.grads[res.node], t)
    ensures forall i, j | 0 <= i < Rows(t) && 0 <= j < Cols(t) :: At(res.graph.grads[res.node], i, j) == 0.0
    ensures res.graph.grads == g.grads[res.node := ZerosLike(t)]
  {
    var h := Append(g, IndependentLeaf, t);
    assert h.grads == g.grads[|g.nodes| := ZerosLike(t)];
    Built(h, |g.nodes|)
  }

  /** `Variable(shape)`: an independent leaf holding `Tensor(shape)`. */
  function VariableOfShape(g: Graph, shape: seq<nat>): (res: Built)
    requires Valid(g) && |shape| >= 1
    ensures Valid(res.graph) && Extends(g, res.graph) && res.node == |g.nodes|
    ensures res.graph.nodes == g.nodes + [Node(IndependentLeaf, FromShape(shape))]
    ensures Rows(res.graph.nodes[res.node].val) == shape[0] && res.graph.nodes[res.node].val.shape == shape
    ensures res.graph.grads == g.grads[res.node := ZerosLike(FromShape(shape))]
  {
    NewVariable(g, FromShape(shape))
  }

  /** `Variable(e)` for a node, and the `Variable` view of any handle: a
      dependent node with the same value that forwards to e. */
  function VariableOf(g: Graph, e: nat): (res: Built)
    requires Valid(g) && e < |g.nodes|
    ensures Valid(res.graph) && Extends(g, res.graph) && res.node == |g.nodes|
    ensures res.graph.nodes == g.nodes + [Node(Dependent(e), g.nodes[e].val)]
    ensures res.graph.grads == g.grads[res.node := ZerosLike(g.nodes[e].val)]
  {
    var h := Append(g, Dependent(e), g.nodes[e].val);
    assert h.grads == g.grads[|g.nodes| := ZerosLike(g.nodes[e].val)];
    Built(h, |g.nodes|)
  }

  /** `v += t` and `v -= t` with a raw tensor: the handle is re-pointed to a
      fresh independent leaf holding the new value, detached from the old
      node. */
  function AddTensor(g: Graph, v: nat, t: Tensor): (res: Result<Built>)
    requires Valid(g) && v < |g.nodes|
    ensures res.Ok? <==> Plus(g.nodes[v].val, t).Ok?
    ensures res.Ok? ==> res.value == NewVariable(g, Plus(g.nodes[v].val, t).value)
  {
    var s :- Plus(g.nodes[v].val, t);
    Ok(NewVariable(g, s))
  }

  function SubtractTensor(g: Graph, v: nat, t: Tensor): (res: Result<Built>)
    requires Valid(g) && v < |g.nodes|
    ensures res.Ok? <==> Minus(g.nodes[v].val, t).Ok?
    ensures res.Ok? ==> res.value == NewVariable(g, Minus(g.nodes[v].val, t).value)
  {
    var s :- Minus(g.nodes[v].val, t);
    Ok(NewVariable(g, s))
  }

  /** `v += x` and `v -= x` with a node or handle: an addition or subtraction
      node, wrapped in a dependent node the handle now points to; only that
      dependent node gets an accumulator. */
  function UpdateNode(fns: Math, g: Graph, o: BinaryOp, v: nat, x: nat): (res: Result<Built>)
    requires Valid(g) && v < |g.nodes| && x < |g.nodes|
    ensures res.Ok? <==> Forward(fns, o, g.nodes[v].val, g.nodes[x].val).Ok?
    ensures res.Ok? ==> Valid(res.value.graph) && Extends(g, res.value.graph) && res.value.node == |g.nodes| + 1
    ensures res.Ok? ==>
      var s := Forward(fns, o, g.nodes[v].val, g.nodes[x].val).value;
      && res.value.graph.nodes == g.nodes + [Node(Binary(KindOf(o), v, x), s), Node(Dependent(|g.nodes|), s)]
      && res.value.graph.grads == g.grads[|g.nodes| + 1 := ZerosLike(s)]
  {
    var b :- BuildBinary(fns, g, o, Ref(v), Ref(x));
    var s := Forward(fns, o, g.nodes[v].val, g.nodes[x].val).value;
    assert b.node == |g.nodes| && b.graph.nodes == g.nodes + [Node(Binary(KindOf(o), v, x), s)];
    Ok(VariableOf(b.graph, b.node))
  }

  /** A freshly made leaf reaches nothing but itself: a variable re-pointed
      by `v -= t` no longer passes gradients to the node it replaced. */
  lemma FreshLeafDetached(g: Graph, t: Tensor, k: nat)
    requires Valid(g)
    ensures var b := NewVariable(g, t);
      Reaches(b.graph.nodes, b.node, k) <==> k == b.node
  {
  }

  /** `v += t` then `v -= t` with a tensor of v's size gives back a leaf with v's entries. */
  lemma AddThenSubtractTensor(g: Graph, v: nat, t: Tensor)
    requires Valid(g) && v < |g.nodes|
    requires SameDims(g.nodes[v].val, t)
    ensures AddTensor(g, v, t).Ok?
    ensures var b := AddTensor(g, v, t).value;
      && SubtractTensor(b.graph, b.node, t).Ok?
      && SubtractTensor(b.graph, b.node, t).value.graph.nodes[b.node + 1].val == FromMat(g.nodes[v].val.value)
  {
    MinusUndoesPlus(g.nodes[v].val, t);
  }

  /** The `Variable` view of a node forwards every gradient: a backward pass
      from it is the pass from the node it wraps, plus the seed in its own
      fresh accumulator. */
  lemma VariableViewForwards(fns: Math, g: Graph, e: nat, seed: Tensor)
    requires Valid(g) && e < |g.nodes|
    requires SameDims(g.nodes[e].val, seed)
    ensures var b := VariableOf(g, e);
      Backward(fns, b.graph, b.node, seed).Ok? <==> Derive(fns, b.graph.nodes, e, seed, b.graph.grads).Ok?
    ensures var b := VariableOf(g, e);
      Backward(fns, b.graph, b.node, seed).Ok? ==>
        Backward(fns, b.graph, b.node, seed).value.grads
          == Derive(fns, b.graph.nodes, e, seed, b.graph.grads).value[b.node := AddAssign(ZerosLike(g.nodes[e].val), seed).value]
  {
    var b := VariableOf(g, e);
    var acc := b.graph.grads;
    InPlaceSameDims(acc[b.node], seed, AddReal);
    DependentForwards(fns, b.graph.nodes, b.node, seed, acc);
  }

  /** `x + x` at x = 3: the sum is 6 and a backward pass seeded with 1 leaves
      2 in x's accumulator, one contribution per use. */
  lemma DoubleExample(fns: Math)
    ensures var x := NewVariable(Graph([], map[]), FromScalar(3.0));
      && BuildBinary(fns, x.graph, PlusOp, Ref(x.node), Ref(x.node)).Ok?
      && var y := BuildBinary(fns, x.graph, PlusOp, Ref(x.node), Ref(x.node)).value;
      && At(y.graph.nodes[y.node].val, 0, 0) == 6.0
      && Backward(fns, y.graph, y.node, FromScalar(1.0)).Ok?
      && At(Backward(fns, y.graph, y.node, FromScalar(1.0)).value.grads[x.node], 0, 0) == 2.0
  {
    var g0 := Graph([], map[]);
    assert Valid(g0) by {
      assert TrainableIndices(g0.nodes) == {};
    }
    var x := NewVariable(g0, FromScalar(3.0));
    var three := FromScalar(3.0);
    assert Combinable(three, three);
    var y := BuildBinary(fns, x.graph, PlusOp, Ref(x.node), Ref(x.node)).value;
    assert y.graph.nodes[y.node].op == Binary(AddExpr, 0, 0);
    var one := FromScalar(1.0);
    SharedOperandAccumulates(fns, y.graph.nodes, y.node, 0, AddExpr, one, one, one, y.graph.grads);
  }
}

=== FILE: optimizers.dfy ===
/** Parameter updates: src/stratosml/core/optimizers/optimizers.hpp.

    A parameter list holds `shared_ptr<var>` handles; an update re-points a
    handle at a new node, so here the list is a sequence of node indices and
    a step returns the list of new indices. Every optimizer reads its rate
    through its scheduler (`const double& lr = lr_scheduler->lr`). */
module Optimizers {
  import opened Wrappers
  import opened Numerics
  import opened Matrices
  import opened Tensors
  import opened Nodes
  import opened Ops
  import opened Schedules

  /** A `var` handle: it points at a `VariableNode`, which has an accumulator. */
  predicate Handle(g: Graph, p: nat)
  {
    p < |g.nodes| && g.nodes[p].op.Trainable()
  }

  predicate Handles(g: Graph, ps: seq<nat>)
  {
    forall i | 0 <= i < |ps| :: Handle(g, ps[i])
  }

  /** A handle of g keeps its node, value and accumulator in any extension of g. */
  lemma HandleKept(g: Graph, h: Graph, p: nat)
    requires Valid(g) && Extends(g, h) && Handle(g, p)
    ensures Handle(h, p) && p in g.grads && p in h.grads
    ensures h.nodes[p] == g.nodes[p] && h.grads[p] == g.grads[p]
  {
    assert p in TrainableIndices(g.nodes);
  }

  // ---------------------------------------------------------------------
  // Construction
  // ---------------------------------------------------------------------

  datatype GradientDescent = GradientDescent(scheduler: Scheduler)
  datatype Momentum = Momentum(scheduler: Scheduler, momentum: real, velocities: seq<nat>)
  datatype Adam = Adam(scheduler: Scheduler, t: nat, v: seq<nat>, m: seq<nat>)

  /** Adam's fixed coefficients (`epsilon` is declared but never read). */
  const Beta1: real := 0.9
  const Beta2: real := 0.999
  const Epsilon: real := 0.00000001

  /** `GradientDescent(float lr)`: `Optimizer(float)` makes a base scheduler,
      so a rate that is not above zero is rejected by the scheduler. */
  function NewGradientDescent(lr: real): (res: Result<GradientDescent>)
    ensures res.Ok? <==> lr > 0.0
    ensures res.Err? ==> res.error == InvalidArgument(RateMessage)
    ensures res.Ok? ==> res.value.scheduler == Fixed(lr)
  {
    var s :- NewFixed(lr);
    Ok(GradientDescent(s))
  }

  /** `Momentum(lr, momentum)`: no velocities until `build`. */
  function NewMomentum(lr: real, momentum: real): (res: Result<Momentum>)
    ensures res.Ok? <==> lr > 0.0
    ensures res.Err? ==> res.error == InvalidArgument(RateMessage)
    ensures res.Ok? ==> res.value == Momentum(Fixed(lr), momentum, [])
  {
    var s :- NewFixed(lr);
    Ok(Momentum(s, momentum, []))
  }

  /** `Adam(learning_rate)`: t = 0 and no moments until `build`. */
  function NewAdam(lr: real): (res: Result<Adam>)
    ensures res.Ok? <==> lr > 0.0
    ensures res.Err? ==> res.error == InvalidArgument(RateMessage)
    ensures res.Ok? ==> res.value == Adam(Fixed(lr), 0, [], [])
  {
    var s :- NewFixed(lr);
    Ok(Adam(s, 0, [], []))
  }

  /** u is v moved against d at rate lr, entry by entry: u = v - lr * d,
      except that the element-wise broadcast transposes d when v is square
      and not 1 x 1. */
  predicate DescendsBy(v: Tensor, d: Tensor, u: Tensor, lr: real)
  {
    forall i, j | 0 <= i < Rows(v) && 0 <= j < Cols(v) ::
      At(u, i, j) == At(v, i, j) - lr * (if !IsScalar(v) && Rows(v) == Cols(v) then At(d, j, i) else At(d, i, j))
  }

  /** No entry of u2 lies further from the matching entry of v than the
      matching entry of u1 does. */
  predicate MovesNoFurther(v: Tensor, u2: Tensor, u1: Tensor)
  {
    forall i, j | 0 <= i < Rows(v) && 0 <= j < Cols(v) ::
      AbsReal(At(v, i, j) - At(u2, i, j)) <= AbsReal(At(v, i, j) - At(u1, i, j))
  }

  /** Two descent steps of v along the same gradient d, at rates
      0 <= lr2 <= lr1: the slower one moves no entry further. */
  lemma SlowerMovesLess(v: Tensor, d: Tensor, u1: Tensor, u2: Tensor, lr1: real, lr2: real)
    requires 0.0 <= lr2 <= lr1
    requires DescendsBy(v, d, u1, lr1) && DescendsBy(v, d, u2, lr2)
    ensures MovesNoFurther(v, u2, u1)
  {
    forall i, j | 0 <= i < Rows(v) && 0 <= j < Cols(v)
      ensures AbsReal(At(v, i, j) - At(u2, i, j)) <= AbsReal(At(v, i, j) - At(u1, i, j))
    {
      var x := if !IsScalar(v) && Rows(v) == Cols(v) then At(d, j, i) else At(d, i, j);
      SmallerFactor(lr2, lr1, x, At(v, i, j) - At(u2, i, j), At(v, i, j) - At(u1, i, j));
    }
  }

  /** Every step reads the scheduler's current rate, so stepping a
      step-decay scheduler at an epoch sets the rate of the next descent
      step to initial * decay^(epoch / step_size); since that step moves
      each entry of a parameter by the rate times its gradient entry, a
      step after a later epoch moves no entry further than one after an
      earlier epoch. */
  lemma RateFollowsScheduler(fns: Math, o: GradientDescent, g: Graph, p: nat, e1: nat, e2: nat)
    requires Wellformed(o.scheduler) && o.scheduler.StepDecay?
    requires Valid(g) && Handle(g, p) && e1 <= e2
    ensures p in g.grads
    ensures var s := o.scheduler; var o1 := o.(scheduler := Step(fns, s, e1));
      o1.scheduler.lr == s.initial * NatPow(s.decay, e1 / s.stepSize)
    ensures var s := o.scheduler; var v := g.nodes[p].val;
      var lr1 := o.(scheduler := Step(fns, s, e1)).scheduler.lr;
      var lr2 := o.(scheduler := Step(fns, s, e2)).scheduler.lr;
      MovesNoFurther(v, Descended(g, lr2, p), Descended(g, lr1, p))
  {
    var s := o.scheduler;
    StepDecayMonotone(fns, s, e1, e2);
    var lr1 := Step(fns, s, e1).lr;
    var lr2 := Step(fns, s, e2).lr;
    DescentEntries(g, lr1, p);
    DescentEntries(g, lr2, p);
    SlowerMovesLess(g.nodes[p].val, g.grads[p], Descended(g, lr1, p), Descended(g, lr2, p), lr1, lr2);
  }

  // ---------------------------------------------------------------------
  // Gradient descent
  // ---------------------------------------------------------------------

  /** `param -= lr * grad` for one parameter: old value minus the scaled
      accumulator (`T * Tensor` is an `arma::Mat` product, so the scaled
      tensor has stored shape {rows, cols}). The accumulator always has the
      value's size, so this never fails; for a square parameter the
      element-wise broadcast transposes the scaled gradient. */
  function Descended(g: Graph, lr: real, p: nat): (u: Tensor)
    requires Valid(g) && Handle(g, p)
    ensures p in g.grads && Minus(g.nodes[p].val, ScaledBy(lr, g.grads[p])) == Ok(u)
  {
    assert p in TrainableIndices(g.nodes);
    var v := g.nodes[p].val;
    var s := ScaledBy(lr, g.grads[p]);
    assert SameDims(s, v);
    Minus(v, s).value
  }

  /** Node k of h is a fresh independent leaf holding t with a zero accumulator. */
  predicate FreshLeaf(h: Graph, k: nat, t: Tensor)
  {
    k < |h.nodes| && h.nodes[k] == Node(IndependentLeaf, t) && k in h.grads && h.grads[k] == ZerosLike(t)
  }

  lemma FreshLeafKept(h1: Graph, h2: Graph, k: nat, t: Tensor)
    requires Extends(h1, h2) && FreshLeaf(h1, k, t)
    ensures FreshLeaf(h2, k, t)
  {
    assert h2.nodes[k] == h1.nodes[k];
  }

  /** `*param -= lr * grad` (`Variable -= Tensor`) on any graph h that the
      earlier parameters of the same step have extended: the handle's value
      and accumulator are still those of g, so the update appends exactly a
      fresh leaf holding g's descent value. */
  lemma DescentRebinds(g: Graph, h: Graph, lr: real, p: nat)
    requires Valid(g) && Valid(h) && Extends(g, h) && Handle(g, p)
    ensures Handle(h, p) && p in h.grads
    ensures SubtractTensor(h, p, ScaledBy(lr, h.grads[p])) == Ok(NewVariable(h, Descended(g, lr, p)))
  {
    HandleKept(g, h, p);
  }

  /** Appends, in order, one fresh independent leaf per tensor of ts: what a
      run of `Variable -= Tensor` updates leaves behind once their values are
      known. */
  method AppendLeaves(g: Graph, ts: seq<Tensor>) returns (h: Graph, ps: seq<nat>)
    requires Valid(g)
    ensures Valid(h) && Extends(g, h)
    ensures |h.nodes| == |g.nodes| + |ts| && |ps| == |ts|
    ensures forall i | 0 <= i < |ts| :: ps[i] == |g.nodes| + i && FreshLeaf(h, ps[i], ts[i])
  {
    h, ps := g, [];
    for k := 0 to |ts|
      invariant Valid(h) && Extends(g, h)
      invariant |h.nodes| == |g.nodes| + k && |ps| == k
      invariant forall i | 0 <= i < k :: ps[i] == |g.nodes| + i && FreshLeaf(h, ps[i], ts[i])
    {
      var b := NewVariable(h, ts[k]);
      forall i | 0 <= i < k
        ensures FreshLeaf(b.graph, ps[i], ts[i])
      {
        FreshLeafKept(h, b.graph, ps[i], ts[i]);
      }
      h, ps := b.graph, ps + [b.node];
    }
  }

  /** `GradientDescent::step`: in list order, each handle is re-pointed to a
      fresh independent leaf holding old value - lr * grad, with lr read from
      the scheduler; so each parameter's accumulator is zero afterwards and
      nothing already in the graph changes. Parameter i uses only its own
      value and gradient (`DescentRebinds`), so its new value can be computed
      from g before the leaves are appended; the list keeps its length and
      order. */
  method DescentStep(o: GradientDescent, g: Graph, params: seq<nat>) returns (h: Graph, ps: seq<nat>)
    requires Valid(g) && Handles(g, params)
    ensures Valid(h) && Extends(g, h)
    ensures |h.nodes| == |g.nodes| + |params| && |ps| == |params|
    ensures forall i | 0 <= i < |params| ::
      ps[i] == |g.nodes| + i && FreshLeaf(h, ps[i], Descended(g, o.scheduler.lr, params[i]))
  {
    var lr := o.scheduler.lr;
    var ts := seq(|params|, i requires 0 <= i < |params| => Descended(g, lr, params[i]));
    h, ps := AppendLeaves(g, ts);
  }

  /** The entries of a descent value: lr times the gradient is subtracted
      entry by entry, except that a square parameter that is not 1 x 1 has
      its scaled gradient transposed by the element-wise broadcast. */
  lemma DescentEntries(g: Graph, lr: real, p: nat)
    requires Valid(g) && Handle(g, p)
    ensures p in g.grads
    ensures var v := g.nodes[p].val; var d := g.grads[p]; var u := Descended(g, lr, p);
      && SameDims(u, v) && u.shape == [Rows(v), Cols(v)]
      && DescendsBy(v, d, u, lr)
  {
    assert p in TrainableIndices(g.nodes);
  }

  // ---------------------------------------------------------------------
  // Appending runs of nodes
  // ---------------------------------------------------------------------

  /** Every accumulator of a node from index n on is zero. */
  predicate ZeroFrom(h: Graph, n: nat)
  {
    forall k | k in h.grads && n <= k < |h.nodes| :: h.grads[k] == ZerosLike(h.nodes[k].val)
  }

  /** h2 keeps everything of h and gives every node it adds a zero accumulator. */
  predicate Fresh(h: Graph, h2: Graph)
  {
    Extends(h, h2) && ZeroFrom(h2, |h.nodes|)
  }

  /** Appending nodes with a single new accumulator, at k, that is zero. */
  lemma FreshUpdate(h: Graph, nodes: seq<Node>, k: nat)
    requires Valid(h) && h.nodes <= nodes && |h.nodes| <= k < |nodes|
    ensures Fresh(h, Graph(nodes, h.grads[k := ZerosLike(nodes[k].val)]))
  {
    assert k !in h.grads by {
      assert k !in TrainableIndices(h.nodes);
    }
  }

  lemma FreshTrans(g: Graph, h: Graph, h2: Graph)
    requires Valid(h) && Valid(h2) && Fresh(g, h) && Fresh(h, h2)
    ensures Fresh(g, h2)
  {
    forall k | k in h2.grads && |g.nodes| <= k < |h.nodes|
      ensures h2.grads[k] == ZerosLike(h2.nodes[k].val)
    {
      assert k in TrainableIndices(h2.nodes);
      assert h2.nodes[k] == h.nodes[k];
      assert k in TrainableIndices(h.nodes);
    }
  }

  /** Appending one node keeps everything and gives it, if it is trainable,
      a zero accumulator. */
  lemma AppendFresh(h: Graph, op: Op, t: Tensor)
    requires Valid(h) && op.RefersBelow(|h.nodes|)
    ensures Fresh(h, Append(h, op, t))
  {
    var h2 := Append(h, op, t);
    if op.Trainable() {
      FreshUpdate(h, h2.nodes, |h.nodes|);
    }
  }

  /** Appends the nodes ns in order, each referring only to nodes before it;
      every trainable one gets a zero accumulator. */
  method AppendAll(g: Graph, ns: seq<Node>) returns (h: Graph)
    requires Valid(g)
    requires forall i | 0 <= i < |ns| :: ns[i].op.RefersBelow(|g.nodes| + i)
    ensures Valid(h) && Fresh(g, h) && h.nodes == g.nodes + ns
  {
    h := g;
    for k := 0 to |ns|
      invariant Valid(h) && Fresh(g, h) && h.nodes == g.nodes + ns[..k]
    {
      AppendFresh(h, ns[k].op, ns[k].val);
      var h2 := Append(h, ns[k].op, ns[k].val);
      FreshTrans(g, h, h2);
      assert ns[..k + 1] == ns[..k] + [ns[k]];
      h := h2;
    }
    assert ns[..|ns|] == ns;
  }

  /** The blocks of bs laid end to end. */
  function Flatten<T>(bs: seq<seq<T>>): seq<T>
  {
    if |bs| == 0 then [] else Flatten(bs[..|bs| - 1]) + bs[|bs| - 1]
  }

  lemma FlattenStep<T>(bs: seq<seq<T>>, k: nat)
    requires k < |bs|
    ensures Flatten(bs[..k + 1]) == Flatten(bs[..k]) + bs[k]
  {
    assert bs[..k + 1][..k] == bs[..k];
  }

  /** Blocks of width w laid end to end fill w times as many places. */
  lemma {:induction false} FlattenLength<T>(bs: seq<seq<T>>, w: nat)
    requires forall i | 0 <= i < |bs| :: |bs[i]| == w
    ensures |Flatten(bs)| == w * |bs|
  {
    if |bs| > 0 {
      var k := |bs| - 1;
      FlattenLength(bs[..k], w);
      assert w * |bs| == w * k + w;
    }
  }

  /** Laid end to end, block i of width w sits at w * i. */
  lemma FlattenSlice<T>(bs: seq<seq<T>>, w: nat, i: nat)
    requires forall i | 0 <= i < |bs| :: |bs[i]| == w
    requires i < |bs|
    ensures w * i + w <= |Flatten(bs)| && Flatten(bs)[w * i .. w * i + w] == bs[i]
  {
    FlattenSliceAt(bs, w, i, w * i);
  }

  /** `FlattenSlice` with the offset w * i named `at`. */
  lemma {:induction false} FlattenSliceAt<T>(bs: seq<seq<T>>, w: nat, i: nat, at: nat)
    requires forall i | 0 <= i < |bs| :: |bs[i]| == w
    requires i < |bs| && at == w * i
    ensures at + w <= |Flatten(bs)| && Flatten(bs)[at .. at + w] == bs[i]
  {
    var k := |bs| - 1;
    var f := Flatten(bs[..k]);
    assert Flatten(bs) == f + bs[k];
    FlattenLength(bs[..k], w);
    if i < k {
      FlattenSliceAt(bs[..k], w, i, at);
      BlockBefore(w, i, k);
      SliceOfPrefix(f, bs[k], at, at + w);
    } else {
      SliceOfPrefix(f, bs[k], |f|, |f| + w);
    }
  }

  /** A slice inside a + b that starts in a reads a, or b from its start. */
  lemma SliceOfPrefix<T>(a: seq<T>, b: seq<T>, lo: nat, hi: nat)
    requires lo <= hi <= |a| || (lo == |a| && hi == |a| + |b|)
    ensures (a + b)[lo .. hi] == if hi <= |a| then a[lo .. hi] else b
  {
  }

  /** Laid end to end, blocks of width w sit at multiples of w. */
  lemma FlattenBlocks<T>(bs: seq<seq<T>>, w: nat)
    requires forall i | 0 <= i < |bs| :: |bs[i]| == w
    ensures |Flatten(bs)| == w * |bs|
    ensures forall i | 0 <= i < |bs| :: w * i + w <= |Flatten(bs)| && Flatten(bs)[w * i .. w * i + w] == bs[i]
  {
    FlattenLength(bs, w);
    forall i | 0 <= i < |bs|
      ensures w * i + w <= |Flatten(bs)| && Flatten(bs)[w * i .. w * i + w] == bs[i]
    {
      FlattenSlice(bs, w, i);
    }
  }

  /** After a prefix a, the blocks of bs sit at |a| plus multiples of w. */
  lemma BlocksAfter<T>(a: seq<T>, bs: seq<seq<T>>, w: nat)
    requires forall i | 0 <= i < |bs| :: |bs[i]| == w
    ensures |a + Flatten(bs)| == |a| + w * |bs|
    ensures forall i | 0 <= i < |bs| ::
      && |a| + w * i + w <= |a + Flatten(bs)|
      && (a + Flatten(bs))[|a| + w * i .. |a| + w * i + w] == bs[i]
  {
    FlattenBlocks(bs, w);
    var f := Flatten(bs);
    forall i | 0 <= i < |bs|
      ensures |a| + w * i + w <= |a + f| && (a + f)[|a| + w * i .. |a| + w * i + w] == bs[i]
    {
      assert (a + f)[|a| + w * i .. |a| + w * i + w] == f[w * i .. w * i + w];
    }
  }

  /** Concatenation regrouped, proved apart from any graph. */
  lemma Regroup<T>(a: seq<T>, b: seq<T>, c: seq<T>)
    ensures (a + b) + c == a + (b + c)
  {
  }

  // ---------------------------------------------------------------------
  // Blending a moving average
  // ---------------------------------------------------------------------

  /** The five nodes `var = c * x op t` appends after n nodes: the constant c,
      the product node, the constant t, the `op` node holding r, and the
      dependent node the `var` now points to. */
  function BlendNodes(n: nat, c: real, x: nat, k: BinaryKind, xv: Tensor, t: Tensor, r: Tensor): (ns: seq<Node>)
    ensures |ns| == 5
  {
    [Node(ConstantLeaf, FromScalar(c)), Node(Binary(MulExpr, n, x), ScaledBy(c, xv))]
    + [Node(ConstantLeaf, t), Node(Binary(k, n + 1, n + 2), r), Node(Dependent(n + 3), r)]
  }

  /** `var = c * x op t` for a number c, a handle x and a raw tensor t, as
      both optimizers with state write it: `c * x` is `Constant(c) * x`,
      `node op tensor` promotes the tensor to a constant, and assigning the
      node to a `var` wraps it in a dependent node. */
  function Blend(fns: Math, h: Graph, c: real, x: nat, o: BinaryOp, t: Tensor): (res: Result<Built>)
    requires Valid(h) && x < |h.nodes|
    ensures res.Ok? ==> Valid(res.value.graph)
  {
    var mul :- BuildBinary(fns, h, ProductOp, Scalar(c), Ref(x));
    var comb :- BuildBinary(fns, mul.graph, o, Ref(mul.node), Raw(t));
    Ok(VariableOf(comb.graph, comb.node))
  }

  /** `Constant(c) * x` cannot fail: it appends the constant and the product
      node, which holds c times x entry by entry, and no accumulator. */
  lemma ScaleAppends(fns: Math, h: Graph, c: real, x: nat)
    requires Valid(h) && x < |h.nodes|
    ensures var s := BuildBinary(fns, h, ProductOp, Scalar(c), Ref(x));
      && s.Ok? && s.value.node == |h.nodes| + 1 && s.value.graph.grads == h.grads
      && s.value.graph.nodes == h.nodes + [Node(ConstantLeaf, FromScalar(c)), Node(Binary(MulExpr, |h.nodes|, x), ScaledBy(c, h.nodes[x].val))]
  {
    ScalarProductAgrees(c, h.nodes[x].val);
    assert Promotions(h, Scalar(c), Ref(x)) == [Node(ConstantLeaf, FromScalar(c))];
  }

  /** `var = y op t` for a node y and a raw tensor t that `op` accepts: the
      constant t, the operation node holding r and the dependent node, which
      alone gets an accumulator, a zero one. */
  lemma CombineAppends(fns: Math, h: Graph, o: BinaryOp, y: nat, t: Tensor, r: Tensor)
    requires Valid(h) && y < |h.nodes| && Forward(fns, o, h.nodes[y].val, t) == Ok(r)
    ensures BuildBinary(fns, h, o, Ref(y), Raw(t)).Ok?
    ensures var comb := BuildBinary(fns, h, o, Ref(y), Raw(t)).value;
      var v := VariableOf(comb.graph, comb.node);
      && v.node == |h.nodes| + 2
      && v.graph.nodes == h.nodes + [Node(ConstantLeaf, t), Node(Binary(KindOf(o), y, |h.nodes|), r), Node(Dependent(|h.nodes| + 1), r)]
      && v.graph.grads == h.grads[|h.nodes| + 2 := ZerosLike(r)]
  {
    var n := |h.nodes|;
    RawOperandBuilds(fns, h, o, y, t);
    var b := BuildBinary(fns, h, o, Ref(y), Raw(t)).value;
    var v := VariableOf(b.graph, b.node);
    assert v.graph.nodes == h.nodes + [Node(ConstantLeaf, t), Node(Binary(KindOf(o), y, n), r), Node(Dependent(n + 1), r)];
  }

  /** A blend fails exactly when `op` rejects c * x and t. */
  lemma BlendFails(fns: Math, h: Graph, c: real, x: nat, o: BinaryOp, t: Tensor)
    requires Valid(h) && x < |h.nodes|
    ensures Blend(fns, h, c, x, o, t).Ok? <==> Forward(fns, o, ScaledBy(c, h.nodes[x].val), t).Ok?
  {
    ScaleAppends(fns, h, c, x);
    var s := BuildBinary(fns, h, ProductOp, Scalar(c), Ref(x)).value;
    assert s.graph.nodes[s.node].val == ScaledBy(c, h.nodes[x].val);
  }

  /** Otherwise it appends the five nodes of `BlendNodes`, the product
      holding c times x entry by entry and the result r = (c * x) op t. */
  lemma BlendAppends(fns: Math, h: Graph, c: real, x: nat, o: BinaryOp, t: Tensor, r: Tensor)
    requires Valid(h) && x < |h.nodes|
    requires Forward(fns, o, ScaledBy(c, h.nodes[x].val), t) == Ok(r)
    ensures Blend(fns, h, c, x, o, t).Ok?
    ensures Blend(fns, h, c, x, o, t).value.node == |h.nodes| + 4
    ensures Blend(fns, h, c, x, o, t).value.graph.nodes == h.nodes + BlendNodes(|h.nodes|, c, x, KindOf(o), h.nodes[x].val, t, r)
  {
    var n := |h.nodes|;
    ScaleAppends(fns, h, c, x);
    var s := BuildBinary(fns, h, ProductOp, Scalar(c), Ref(x)).value;
    assert s.graph.nodes[s.node].val == ScaledBy(c, h.nodes[x].val);
    CombineAppends(fns, s.graph, o, s.node, t, r);
    var comb := BuildBinary(fns, s.graph, o, Ref(s.node), Raw(t)).value;
    var v := VariableOf(comb.graph, comb.node);
    assert Blend(fns, h, c, x, o, t) == Ok(v);
    BlendLayout(h.nodes, s.graph.nodes, v.graph.nodes, s.node, c, x, h.nodes[x].val, KindOf(o), t, r);
  }

  /** It adds one accumulator, a zero one, for the dependent node at |h| + 4. */
  lemma BlendGrads(fns: Math, h: Graph, c: real, x: nat, o: BinaryOp, t: Tensor, r: Tensor)
    requires Valid(h) && x < |h.nodes|
    requires Forward(fns, o, ScaledBy(c, h.nodes[x].val), t) == Ok(r)
    ensures Blend(fns, h, c, x, o, t).Ok?
    ensures Blend(fns, h, c, x, o, t).value.graph.grads == h.grads[|h.nodes| + 4 := ZerosLike(r)]
  {
    var n := |h.nodes|;
    ScaleAppends(fns, h, c, x);
    var s := BuildBinary(fns, h, ProductOp, Scalar(c), Ref(x)).value;
    assert |s.graph.nodes| == n + 2 && s.node == n + 1;
    assert s.graph.nodes[s.node].val == ScaledBy(c, h.nodes[x].val);
    CombineAppends(fns, s.graph, o, s.node, t, r);
    var comb := BuildBinary(fns, s.graph, o, Ref(s.node), Raw(t)).value;
    var v := VariableOf(comb.graph, comb.node);
    assert Blend(fns, h, c, x, o, t) == Ok(v);
  }

  /** The nodes of a blend, regrouped apart from any graph: sn after the
      product, vn after the combination. */
  lemma BlendLayout(hn: seq<Node>, sn: seq<Node>, vn: seq<Node>, y: nat, c: real, x: nat, xv: Tensor, k: BinaryKind, t: Tensor, r: Tensor)
    requires y == |hn| + 1
    requires sn == hn + [Node(ConstantLeaf, FromScalar(c)), Node(Binary(MulExpr, |hn|, x), ScaledBy(c, xv))]
    requires vn == sn + [Node(ConstantLeaf, t), Node(Binary(k, y, |sn|), r), Node(Dependent(|sn| + 1), r)]
    ensures vn == hn + BlendNodes(|hn|, c, x, k, xv, t, r)
  {
    var n := |hn|;
    Regroup(hn, [Node(ConstantLeaf, FromScalar(c)), Node(Binary(MulExpr, n, x), ScaledBy(c, xv))], [Node(ConstantLeaf, t), Node(Binary(k, n + 1, n + 2), r), Node(Dependent(n + 3), r)]);
  }

  // ---------------------------------------------------------------------
  // Momentum
  // ---------------------------------------------------------------------

  /** `Momentum::build`: one velocity per parameter, in order, each a fresh
      independent leaf holding `Tensor(param.val.shape)`, appended to the
      velocities already there. That tensor reads the shape's first entry,
      so every parameter's stored shape must have one. */
  method MomentumBuild(o: Momentum, g: Graph, params: seq<nat>) returns (o': Momentum, h: Graph)
    requires Valid(g) && forall i | 0 <= i < |params| :: params[i] < |g.nodes| && |g.nodes[params[i]].val.shape| >= 1
    ensures Valid(h) && Extends(g, h) && |h.nodes| == |g.nodes| + |params|
    ensures o'.scheduler == o.scheduler && o'.momentum == o.momentum
    ensures |o'.velocities| == |o.velocities| + |params| && o'.velocities[..|o.velocities|] == o.velocities
    ensures forall i | 0 <= i < |params| ::
      var k := o'.velocities[|o.velocities| + i];
      k == |g.nodes| + i && FreshLeaf(h, k, FromShape(g.nodes[params[i]].val.shape))
  {
    var ts := seq(|params|, i requires 0 <= i < |params| => FromShape(g.nodes[params[i]].val.shape));
    var vs;
    h, vs := AppendLeaves(g, ts);
    o' := Momentum(o.scheduler, o.momentum, o.velocities + vs);
  }

  /** `momentum * v[i] - lr * grad`, from the values in g: the velocity
      scaled by the momentum, less the scaled accumulator of the parameter. */
  function NewVelocity(g: Graph, mo: real, lr: real, p: nat, vel: nat): Result<Tensor>
    requires Valid(g) && Handle(g, p) && vel < |g.nodes|
  {
    assert p in TrainableIndices(g.nodes);
    Minus(ScaledBy(mo, g.nodes[vel].val), ScaledBy(lr, g.grads[p]))
  }

  /** Both tensor operations of one momentum update accept their operands. */
  predicate MomentumFits(g: Graph, mo: real, lr: real, p: nat, vel: nat)
    requires Valid(g) && Handle(g, p) && vel < |g.nodes|
  {
    var nv := NewVelocity(g, mo, lr, p, vel);
    nv.Ok? && Plus(g.nodes[p].val, nv.value).Ok?
  }

  /** The seven nodes one momentum update appends after n nodes: the five of
      the velocity's blend, then `param + v[i]` holding np and the dependent
      node the parameter handle now points to. */
  function MomentumNodes(n: nat, mo: real, p: nat, vel: nat, vv: Tensor, c: Tensor, nv: Tensor, np: Tensor): (ns: seq<Node>)
    ensures |ns| == 7
  {
    BlendNodes(n, mo, vel, SubExpr, vv, c, nv) + [Node(Binary(AddExpr, p, n + 4), np), Node(Dependent(n + 5), np)]
  }

  /** `v[i] = momentum * v[i] - lr * grad` on any graph h that the earlier
      parameters of the same step have extended: `momentum * v[i]` is a
      constant times the velocity node, the scaled accumulator is promoted to
      a constant, and the result is wrapped in the dependent node v[i] now
      points to. It fails exactly when the new velocity computed from g does. */
  lemma VelocityRebindsFails(fns: Math, g: Graph, h: Graph, mo: real, lr: real, p: nat, vel: nat)
    requires Valid(g) && Valid(h) && Extends(g, h) && Handle(g, p) && vel < |g.nodes|
    ensures p in g.grads && p in h.grads
    ensures Blend(fns, h, mo, vel, MinusOp, ScaledBy(lr, h.grads[p])).Ok? <==> NewVelocity(g, mo, lr, p, vel).Ok?
  {
    HandleKept(g, h, p);
    assert h.nodes[vel] == g.nodes[vel];
    BlendFails(fns, h, mo, vel, MinusOp, ScaledBy(lr, g.grads[p]));
  }

  /** Otherwise it appends the five nodes of the blend, the new velocity
      node holding that value at |h| + 4 with a zero accumulator. */
  lemma VelocityRebinds(fns: Math, g: Graph, h: Graph, mo: real, lr: real, p: nat, vel: nat)
    requires Valid(g) && Valid(h) && Extends(g, h) && Handle(g, p) && vel < |g.nodes|
    requires NewVelocity(g, mo, lr, p, vel).Ok?
    ensures p in g.grads && p in h.grads
    ensures Blend(fns, h, mo, vel, MinusOp, ScaledBy(lr, h.grads[p])).Ok?
    ensures var b := Blend(fns, h, mo, vel, MinusOp, ScaledBy(lr, h.grads[p])).value;
      var nv := NewVelocity(g, mo, lr, p, vel).value;
      && b.node == |h.nodes| + 4
      && b.graph.nodes == h.nodes + BlendNodes(|h.nodes|, mo, vel, SubExpr, g.nodes[vel].val, ScaledBy(lr, g.grads[p]), nv)
      && b.graph.grads == h.grads[|h.nodes| + 4 := ZerosLike(nv)]
  {
    HandleKept(g, h, p);
    assert h.nodes[vel] == g.nodes[vel];
    var nv := NewVelocity(g, mo, lr, p, vel).value;
    BlendAppends(fns, h, mo, vel, MinusOp, ScaledBy(lr, g.grads[p]), nv);
    BlendGrads(fns, h, mo, vel, MinusOp, ScaledBy(lr, g.grads[p]), nv);
  }

  /** `*param += v[i]` on any extension h of g, once the velocity node y
      holds nv: it fails exactly when the parameter's value in g and nv
      cannot be added. */
  lemma ParamRebindsFails(fns: Math, g: Graph, h: Graph, p: nat, y: nat, nv: Tensor)
    requires Valid(g) && Valid(h) && Extends(g, h) && Handle(g, p) && y < |h.nodes| && h.nodes[y].val == nv
    ensures UpdateNode(fns, h, PlusOp, p, y).Ok? <==> Plus(g.nodes[p].val, nv).Ok?
  {
    assert h.nodes[p] == g.nodes[p];
  }

  /** Otherwise it appends the addition node and the dependent node the
      parameter handle now points to, both holding the sum. */
  lemma ParamRebinds(fns: Math, g: Graph, h: Graph, p: nat, y: nat, nv: Tensor)
    requires Valid(g) && Valid(h) && Extends(g, h) && Handle(g, p) && y < |h.nodes| && h.nodes[y].val == nv
    requires Plus(g.nodes[p].val, nv).Ok?
    ensures var s := Plus(g.nodes[p].val, nv).value;
      UpdateNode(fns, h, PlusOp, p, y) == Ok(Built(Graph(h.nodes + [Node(Binary(AddExpr, p, y), s), Node(Dependent(|h.nodes|), s)],
        h.grads[|h.nodes| + 1 := ZerosLike(s)]), |h.nodes| + 1))
  {
    assert h.nodes[p] == g.nodes[p];
    var r := UpdateNode(fns, h, PlusOp, p, y).value;
    assert r.graph == Graph(r.graph.nodes, r.graph.grads);
  }

  /** One momentum update as the builders perform it appends exactly the
      seven nodes of `MomentumNodes`, with zero accumulators for the new
      velocity (node |h| + 4) and the new parameter (node |h| + 6): b is the
      graph after the blend (as `VelocityRebinds` gives it) and s the graph
      after the `+=` on it (as `ParamRebinds` gives it). */
  lemma MomentumUpdate(h: Graph, b: Built, s: Graph, mo: real, p: nat, vel: nat, c: Tensor, nv: Tensor, np: Tensor)
    requires vel < |h.nodes| && b.node == |h.nodes| + 4
    requires b.graph.nodes == h.nodes + BlendNodes(|h.nodes|, mo, vel, SubExpr, h.nodes[vel].val, c, nv)
    requires b.graph.grads == h.grads[|h.nodes| + 4 := ZerosLike(nv)]
    requires s.nodes == b.graph.nodes + [Node(Binary(AddExpr, p, b.node), np), Node(Dependent(|b.graph.nodes|), np)]
    requires s.grads == b.graph.grads[|b.graph.nodes| + 1 := ZerosLike(np)]
    ensures s.nodes == h.nodes + MomentumNodes(|h.nodes|, mo, p, vel, h.nodes[vel].val, c, nv, np)
    ensures s.grads == h.grads[|h.nodes| + 4 := ZerosLike(nv)][|h.nodes| + 6 := ZerosLike(np)]
  {
    var m := |h.nodes|;
    Regroup(h.nodes, BlendNodes(m, mo, vel, SubExpr, h.nodes[vel].val, c, nv), [Node(Binary(AddExpr, p, m + 4), np), Node(Dependent(m + 5), np)]);
  }

  /** Appending the seven nodes of one momentum update keeps everything
      and gives zero accumulators to the new velocity and parameter only. */
  method AppendMomentum(h: Graph, mo: real, p: nat, vel: nat, c: Tensor, nv: Tensor, np: Tensor, block: seq<Node>) returns (h2: Graph)
    requires Valid(h) && p < |h.nodes| && vel < |h.nodes|
    requires block == MomentumNodes(|h.nodes|, mo, p, vel, h.nodes[vel].val, c, nv, np)
    ensures Valid(h2) && Fresh(h, h2) && h2.nodes == h.nodes + block
  {
    h2 := AppendAll(h, block);
  }

  /** The seven nodes parameter p's update appends after n nodes, with every
      tensor computed from g. */
  function MomentumBlock(g: Graph, mo: real, lr: real, p: nat, vel: nat, n: nat): seq<Node>
    requires Valid(g) && Handle(g, p) && vel < |g.nodes| && MomentumFits(g, mo, lr, p, vel)
  {
    assert p in TrainableIndices(g.nodes);
    var nv := NewVelocity(g, mo, lr, p, vel).value;
    MomentumNodes(n, mo, p, vel, g.nodes[vel].val, ScaledBy(lr, g.grads[p]), nv, Plus(g.nodes[p].val, nv).value)
  }

  lemma MomentumBlockIs(g: Graph, mo: real, lr: real, p: nat, vel: nat, n: nat, c: Tensor, nv: Tensor, np: Tensor)
    requires Valid(g) && Handle(g, p) && vel < |g.nodes| && MomentumFits(g, mo, lr, p, vel) && p in g.grads
    requires c == ScaledBy(lr, g.grads[p]) && nv == NewVelocity(g, mo, lr, p, vel).value && np == Plus(g.nodes[p].val, nv).value
    ensures MomentumBlock(g, mo, lr, p, vel, n) == MomentumNodes(n, mo, p, vel, g.nodes[vel].val, c, nv, np)
  {
  }

  /** Appends, in order, the seven nodes of each parameter's momentum update,
      given the tensors they hold; blocks lists those runs of nodes. */
  method MomentumLayout(g: Graph, mo: real, params: seq<nat>, vels: seq<nat>, cs: seq<Tensor>, nvs: seq<Tensor>, nps: seq<Tensor>, blocks: seq<seq<Node>>)
    returns (h: Graph)
    requires Valid(g) && |vels| >= |params|
    requires |cs| == |params| && |nvs| == |params| && |nps| == |params| && |blocks| == |params|
    requires forall i | 0 <= i < |params| :: params[i] < |g.nodes| && vels[i] < |g.nodes|
    requires forall i | 0 <= i < |params| ::
      blocks[i] == MomentumNodes(|g.nodes| + 7 * i, mo, params[i], vels[i], g.nodes[vels[i]].val, cs[i], nvs[i], nps[i])
    ensures Valid(h) && Fresh(g, h) && h.nodes == g.nodes + Flatten(blocks)
  {
    var n := |g.nodes|;
    h := g;
    for k := 0 to |params|
      invariant Valid(h) && Fresh(g, h) && |h.nodes| == n + 7 * k
      invariant h.nodes == g.nodes + Flatten(blocks[..k])
    {
      var p, vel := params[k], vels[k];
      assert h.nodes[vel] == g.nodes[vel];
      var s := AppendMomentum(h, mo, p, vel, cs[k], nvs[k], nps[k], blocks[k]);
      FreshTrans(g, h, s);
      FlattenStep(blocks, k);
      Regroup(g.nodes, Flatten(blocks[..k]), blocks[k]);
      h := s;
    }
    assert blocks[..|params|] == blocks;
  }

  /** Block i of a momentum step over params: parameter i's seven nodes,
      placed after the blocks of the parameters before it. */
  function StepBlock(g: Graph, mo: real, lr: real, params: seq<nat>, vels: seq<nat>, i: nat): seq<Node>
    requires Valid(g) && i < |params| && i < |vels| && Handle(g, params[i]) && vels[i] < |g.nodes|
    requires MomentumFits(g, mo, lr, params[i], vels[i])
  {
    MomentumBlock(g, mo, lr, params[i], vels[i], |g.nodes| + 7 * i)
  }

  /** The tensors each parameter's momentum update computes from g (the
      scaled accumulator, the new velocity and the new parameter value), and
      the blocks of nodes that hold them. */
  method MomentumPlan(g: Graph, mo: real, lr: real, params: seq<nat>, vels: seq<nat>)
    returns (cs: seq<Tensor>, nvs: seq<Tensor>, nps: seq<Tensor>, blocks: seq<seq<Node>>)
    requires Valid(g) && Handles(g, params) && |vels| >= |params|
    requires forall i | 0 <= i < |params| :: vels[i] < |g.nodes|
    requires forall i {:trigger MomentumFits(g, mo, lr, params[i], vels[i])} | 0 <= i < |params| :: MomentumFits(g, mo, lr, params[i], vels[i])
    ensures |cs| == |params| && |nvs| == |params| && |nps| == |params| && |blocks| == |params|
    ensures forall i {:trigger blocks[i]} | 0 <= i < |params| :: |blocks[i]| == 7
    ensures forall i {:trigger blocks[i]} | 0 <= i < |params| ::
      blocks[i] == MomentumNodes(|g.nodes| + 7 * i, mo, params[i], vels[i], g.nodes[vels[i]].val, cs[i], nvs[i], nps[i])
    ensures forall i {:trigger StepBlock(g, mo, lr, params, vels, i)} | 0 <= i < |params| ::
      blocks[i] == StepBlock(g, mo, lr, params, vels, i)
  {
    cs, nvs, nps, blocks := [], [], [], [];
    for k := 0 to |params|
      invariant |cs| == k && |nvs| == k && |nps| == k && |blocks| == k
      invariant forall i {:trigger blocks[i]} | 0 <= i < k ::
        blocks[i] == MomentumNodes(|g.nodes| + 7 * i, mo, params[i], vels[i], g.nodes[vels[i]].val, cs[i], nvs[i], nps[i])
      invariant forall i {:trigger StepBlock(g, mo, lr, params, vels, i)} | 0 <= i < k ::
        blocks[i] == StepBlock(g, mo, lr, params, vels, i)
    {
      assert MomentumFits(g, mo, lr, params[k], vels[k]);
      var c, nv, np, block := PlanEntry(g, mo, lr, params, vels, k);
      PlanGrows(g, mo, params, vels, cs, nvs, nps, blocks, c, nv, np, block);
      StepBlocksGrow(g, mo, lr, params, vels, blocks, block);
      cs, nvs, nps, blocks := cs + [c], nvs + [nv], nps + [np], blocks + [block];
    }
  }

  /** The invariant of `MomentumPlan` on the blocks' shape, one entry longer. */
  lemma PlanGrows(g: Graph, mo: real, params: seq<nat>, vels: seq<nat>, cs: seq<Tensor>, nvs: seq<Tensor>, nps: seq<Tensor>,
                  blocks: seq<seq<Node>>, c: Tensor, nv: Tensor, np: Tensor, block: seq<Node>)
    requires |cs| == |blocks| && |nvs| == |blocks| && |nps| == |blocks| && |blocks| < |params| <= |vels|
    requires forall i | 0 <= i < |params| :: vels[i] < |g.nodes|
    requires forall i {:trigger blocks[i]} | 0 <= i < |blocks| ::
      blocks[i] == MomentumNodes(|g.nodes| + 7 * i, mo, params[i], vels[i], g.nodes[vels[i]].val, cs[i], nvs[i], nps[i])
    requires block == MomentumNodes(|g.nodes| + 7 * |blocks|, mo, params[|blocks|], vels[|blocks|], g.nodes[vels[|blocks|]].val, c, nv, np)
    ensures var bs, cs', nvs', nps' := blocks + [block], cs + [c], nvs + [nv], nps + [np];
      forall i {:trigger bs[i]} | 0 <= i < |bs| ::
        bs[i] == MomentumNodes(|g.nodes| + 7 * i, mo, params[i], vels[i], g.nodes[vels[i]].val, cs'[i], nvs'[i], nps'[i])
  {
  }

  /** The invariant of `MomentumPlan` relating blocks to the step, one entry longer. */
  lemma StepBlocksGrow(g: Graph, mo: real, lr: real, params: seq<nat>, vels: seq<nat>, blocks: seq<seq<Node>>, block: seq<Node>)
    requires Valid(g) && Handles(g, params) && |blocks| < |params| && |params| <= |vels|
    requires forall i | 0 <= i < |params| :: vels[i] < |g.nodes|
    requires forall i {:trigger MomentumFits(g, mo, lr, params[i], vels[i])} | 0 <= i < |params| :: MomentumFits(g, mo, lr, params[i], vels[i])
    requires forall i {:trigger StepBlock(g, mo, lr, params, vels, i)} | 0 <= i < |blocks| ::
      blocks[i] == StepBlock(g, mo, lr, params, vels, i)
    requires block == StepBlock(g, mo, lr, params, vels, |blocks|)
    ensures var bs := blocks + [block];
      forall i {:trigger StepBlock(g, mo, lr, params, vels, i)} | 0 <= i < |bs| ::
        bs[i] == StepBlock(g, mo, lr, params, vels, i)
  {
  }

  /** Parameter k's entry of `MomentumPlan`. */
  method PlanEntry(g: Graph, mo: real, lr: real, params: seq<nat>, vels: seq<nat>, k: nat)
    returns (c: Tensor, nv: Tensor, np: Tensor, block: seq<Node>)
    requires Valid(g) && k < |params| && k < |vels| && Handle(g, params[k]) && vels[k] < |g.nodes|
    requires MomentumFits(g, mo, lr, params[k], vels[k])
    ensures block == MomentumNodes(|g.nodes| + 7 * k, mo, params[k], vels[k], g.nodes[vels[k]].val, c, nv, np)
    ensures block == StepBlock(g, mo, lr, params, vels, k)
  {
    var p, vel := params[k], vels[k];
    assert p in g.grads by {
      assert p in TrainableIndices(g.nodes);
    }
    c := ScaledBy(lr, g.grads[p]);
    nv := NewVelocity(g, mo, lr, p, vel).value;
    np := Plus(g.nodes[p].val, nv).value;
    block := MomentumNodes(|g.nodes| + 7 * k, mo, p, vel, g.nodes[vel].val, c, nv, np);
    MomentumBlockIs(g, mo, lr, p, vel, |g.nodes| + 7 * k, c, nv, np);
  }

  /** `Momentum::step`: in list order, velocity i becomes
      momentum * v[i] - lr * grad and parameter i becomes param + v[i], each a
      dependent node over its new operation, with lr read from the scheduler.
      Each update reads only its own parameter's value and accumulator and its
      own velocity (`VelocityRebinds`, `ParamRebinds`), so all of them are
      computed from g and the nodes appended in seven-node blocks. The step
      fails, with a size mismatch, exactly when some update's operands do not
      fit; velocities beyond the list are left alone. */
  method MomentumStep(o: Momentum, g: Graph, params: seq<nat>) returns (res: Result<(Momentum, Graph, seq<nat>)>)
    requires Valid(g) && Handles(g, params) && |params| <= |o.velocities|
    requires forall i | 0 <= i < |params| :: o.velocities[i] < |g.nodes|
    ensures res.Ok? <==> forall i {:trigger MomentumFits(g, o.momentum, o.scheduler.lr, params[i], o.velocities[i])} | 0 <= i < |params| ::
      MomentumFits(g, o.momentum, o.scheduler.lr, params[i], o.velocities[i])
    ensures res.Err? ==> res.error == ShapeMismatch
    ensures res.Ok? ==>
      var (o', h, ps) := res.value;
      && Valid(h) && Fresh(g, h) && |h.nodes| == |g.nodes| + 7 * |params| && |ps| == |params|
    ensures res.Ok? ==>
      var (o', h, ps) := res.value;
      && o'.scheduler == o.scheduler && o'.momentum == o.momentum
      && |o'.velocities| == |o.velocities| && o'.velocities[|params|..] == o.velocities[|params|..]
      && forall i | 0 <= i < |params| :: o'.velocities[i] == |g.nodes| + 7 * i + 4 && ps[i] == |g.nodes| + 7 * i + 6
    ensures res.Ok? ==>
      var (o', h, ps) := res.value;
      var n := |g.nodes|;
      forall i {:trigger StepBlock(g, o.momentum, o.scheduler.lr, params, o.velocities, i)} | 0 <= i < |params| ::
        h.nodes[n + 7 * i .. n + 7 * i + 7] == StepBlock(g, o.momentum, o.scheduler.lr, params, o.velocities, i)
  {
    var n, mo, lr := |g.nodes|, o.momentum, o.scheduler.lr;
    if !(forall i {:trigger MomentumFits(g, mo, lr, params[i], o.velocities[i])} | 0 <= i < |params| :: MomentumFits(g, mo, lr, params[i], o.velocities[i])) {
      return Err(ShapeMismatch);
    }
    var ps: seq<nat> := seq(|params|, i requires 0 <= i < |params| => n + 7 * i + 6);
    var vs: seq<nat> := seq(|params|, i requires 0 <= i < |params| => n + 7 * i + 4);
    var o' := Momentum(o.scheduler, mo, vs + o.velocities[|params|..]);
    var cs, nvs, nps, blocks := MomentumPlan(g, mo, lr, params, o.velocities);
    var h := MomentumLayout(g, mo, params, o.velocities, cs, nvs, nps, blocks);
    StepSlices(g, mo, lr, params, o.velocities, blocks, h.nodes);
    res := Ok((o', h, ps));
  }

  /** Laid out after g's nodes, block i of a momentum step sits at |g| + 7 i. */
  lemma StepSlices(g: Graph, mo: real, lr: real, params: seq<nat>, vels: seq<nat>, blocks: seq<seq<Node>>, nodes: seq<Node>)
    requires Valid(g) && Handles(g, params) && |params| <= |vels| && |blocks| == |params|
    requires forall i | 0 <= i < |params| :: vels[i] < |g.nodes|
    requires forall i {:trigger MomentumFits(g, mo, lr, params[i], vels[i])} | 0 <= i < |params| :: MomentumFits(g, mo, lr, params[i], vels[i])
    requires forall i {:trigger blocks[i]} | 0 <= i < |params| :: |blocks[i]| == 7
    requires forall i {:trigger StepBlock(g, mo, lr, params, vels, i)} | 0 <= i < |params| ::
      blocks[i] == StepBlock(g, mo, lr, params, vels, i)
    requires nodes == g.nodes + Flatten(blocks)
    ensures |nodes| == |g.nodes| + 7 * |params|
    ensures var n := |g.nodes|;
      forall i {:trigger StepBlock(g, mo, lr, params, vels, i)} | 0 <= i < |params| ::
        n + 7 * i + 7 <= |nodes| && nodes[n + 7 * i .. n + 7 * i + 7] == StepBlock(g, mo, lr, params, vels, i)
  {
    BlocksAfter(g.nodes, blocks, 7);
  }

  // ---------------------------------------------------------------------
  // Adam
  // ---------------------------------------------------------------------

  /** `Adam::build`: for each parameter, in order, a second moment v[i] and
      then a first moment m[i], each a fresh independent leaf holding
      `Tensor(param.val.shape)`, appended to the moments already there. Leaf
      n + k is the (k mod 2)-th one made for parameter k / 2. */
  method AdamBuild(o: Adam, g: Graph, params: seq<nat>) returns (o': Adam, h: Graph)
    requires Valid(g) && forall i | 0 <= i < |params| :: params[i] < |g.nodes| && |g.nodes[params[i]].val.shape| >= 1
    ensures Valid(h) && Extends(g, h) && |h.nodes| == |g.nodes| + 2 * |params|
    ensures o'.scheduler == o.scheduler && o'.t == o.t
    ensures |o'.v| == |o.v| + |params| && o'.v[..|o.v|] == o.v
    ensures |o'.m| == |o.m| + |params| && o'.m[..|o.m|] == o.m
    ensures forall i | 0 <= i < |params| :: o'.v[|o.v| + i] == |g.nodes| + 2 * i && o'.m[|o.m| + i] == |g.nodes| + 2 * i + 1
    ensures forall k | 0 <= k < 2 * |params| :: FreshLeaf(h, |g.nodes| + k, FromShape(g.nodes[params[k / 2]].val.shape))
  {
    var n := |g.nodes|;
    var ts := seq(2 * |params|, k requires 0 <= k < 2 * |params| => FromShape(g.nodes[params[k / 2]].val.shape));
    var ps;
    h, ps := AppendLeaves(g, ts);
    forall k | 0 <= k < 2 * |params|
      ensures FreshLeaf(h, n + k, FromShape(g.nodes[params[k / 2]].val.shape))
    {
      assert ts[k] == FromShape(g.nodes[params[k / 2]].val.shape);
      assert ps[k] == n + k && FreshLeaf(h, ps[k], ts[k]);
    }
    var vs: seq<nat> := seq(|params|, i requires 0 <= i < |params| => n + 2 * i);
    var ms: seq<nat> := seq(|params|, i requires 0 <= i < |params| => n + 2 * i + 1);
    o' := Adam(o.scheduler, o.t, o.v + vs, o.m + ms);
  }

  /** `(1 - beta1) * grad`: the raw tensor the first moment adds. */
  function FirstTerm(g: Graph, p: nat): (u: Tensor)
    requires Valid(g) && Handle(g, p)
    ensures p in g.grads && SameDims(u, g.nodes[p].val)
    ensures forall i, j | 0 <= i < Rows(u) && 0 <= j < Cols(u) :: At(u, i, j) == (1.0 - Beta1) * At(g.grads[p], i, j)
  {
    assert p in TrainableIndices(g.nodes);
    ScaledBy(1.0 - Beta1, g.grads[p])
  }

  /** `(1 - beta2) * pow(grad, 2)`: the raw tensor the second moment adds;
      the exponent 2 is promoted to a 1 x 1 tensor and tiled, so every entry
      of the accumulator is squared. */
  function SquareTerm(fns: Math, g: Graph, p: nat): (u: Tensor)
    requires Valid(g) && Handle(g, p)
    ensures p in g.grads && SameDims(u, g.nodes[p].val)
    ensures forall i, j | 0 <= i < Rows(u) && 0 <= j < Cols(u) ::
      At(u, i, j) == (1.0 - Beta2) * (At(g.grads[p], i, j) * At(g.grads[p], i, j))
  {
    assert p in TrainableIndices(g.nodes);
    PowerTwo(fns, g.grads[p]);
    ScaledBy(1.0 - Beta2, Power(fns, g.grads[p], FromScalar(2.0)).value)
  }

  /** `beta1 * m[i] + (1 - beta1) * grad`, from the values in g. */
  function NewFirstMoment(g: Graph, p: nat, mi: nat): Result<Tensor>
    requires Valid(g) && Handle(g, p) && mi < |g.nodes|
  {
    Plus(ScaledBy(Beta1, g.nodes[mi].val), FirstTerm(g, p))
  }

  /** `beta2 * v[i] + (1 - beta2) * pow(grad, 2)`, from the values in g. */
  function NewSecondMoment(fns: Math, g: Graph, p: nat, vi: nat): Result<Tensor>
    requires Valid(g) && Handle(g, p) && vi < |g.nodes|
  {
    Plus(ScaledBy(Beta2, g.nodes[vi].val), SquareTerm(fns, g, p))
  }

  /** Both moment updates of one parameter accept their operands. */
  predicate AdamFits(fns: Math, g: Graph, p: nat, mi: nat, vi: nat)
    requires Valid(g) && Handle(g, p) && mi < |g.nodes| && vi < |g.nodes|
  {
    NewFirstMoment(g, p, mi).Ok? && NewSecondMoment(fns, g, p, vi).Ok?
  }

  /** The ten nodes one parameter's Adam update appends after n nodes: the
      five of the first moment's blend, then the five of the second's. */
  function AdamNodes(n: nat, mi: nat, vi: nat, mv: Tensor, vv: Tensor, a: Tensor, b: Tensor, nm: Tensor, nv: Tensor): (ns: seq<Node>)
    ensures |ns| == 10
  {
    BlendNodes(n, Beta1, mi, AddExpr, mv, a, nm) + BlendNodes(n + 5, Beta2, vi, AddExpr, vv, b, nv)
  }

  /** Node j of the ten of `AdamNodes` refers only to nodes before it, when
      both moments are among the first n nodes. */
  lemma AdamNodesRefer(n: nat, mi: nat, vi: nat, mv: Tensor, vv: Tensor, a: Tensor, b: Tensor, nm: Tensor, nv: Tensor)
    requires mi < n && vi < n
    ensures forall j | 0 <= j < 10 :: AdamNodes(n, mi, vi, mv, vv, a, b, nm, nv)[j].op.RefersBelow(n + j)
  {
  }

  /** `m = beta * m + t` or `v = beta * v + t` (a moment x, a raw tensor t)
      on any graph h that the earlier updates of the same step have
      extended: it fails exactly when the sum computed from g does. */
  lemma MomentRebindsFails(fns: Math, g: Graph, h: Graph, c: real, x: nat, t: Tensor)
    requires Valid(g) && Valid(h) && Extends(g, h) && x < |g.nodes|
    ensures Blend(fns, h, c, x, PlusOp, t).Ok? <==> Plus(ScaledBy(c, g.nodes[x].val), t).Ok?
  {
    assert h.nodes[x] == g.nodes[x];
    BlendFails(fns, h, c, x, PlusOp, t);
  }

  /** Otherwise it appends the five nodes of the blend, the moment node
      holding that sum at |h| + 4 with a zero accumulator. */
  lemma MomentRebinds(fns: Math, g: Graph, h: Graph, c: real, x: nat, t: Tensor, r: Tensor)
    requires Valid(g) && Valid(h) && Extends(g, h) && x < |g.nodes|
    requires Plus(ScaledBy(c, g.nodes[x].val), t) == Ok(r)
    ensures Blend(fns, h, c, x, PlusOp, t).Ok?
    ensures var b := Blend(fns, h, c, x, PlusOp, t).value;
      && b.node == |h.nodes| + 4
      && b.graph.nodes == h.nodes + BlendNodes(|h.nodes|, c, x, AddExpr, g.nodes[x].val, t, r)
      && b.graph.grads == h.grads[|h.nodes| + 4 := ZerosLike(r)]
  {
    assert h.nodes[x] == g.nodes[x];
    BlendAppends(fns, h, c, x, PlusOp, t, r);
    BlendGrads(fns, h, c, x, PlusOp, t, r);
  }

  /** A graph that adds nodes and one accumulator past the end of h still
      extends whatever h extends. */
  lemma ExtendsPast(g: Graph, h: Graph, h1: Graph, ns: seq<Node>, k: nat, z: Tensor)
    requires Valid(h) && Extends(g, h) && h1.nodes == h.nodes + ns && h1.grads == h.grads[k := z] && k >= |h.nodes|
    ensures Extends(g, h1) && Extends(h, h1)
  {
    assert k !in h.grads by {
      assert k !in TrainableIndices(h.nodes);
    }
  }

  /** The accumulator of a parameter, read after earlier updates of the
      step, is the one in g, so the raw tensors the moments add are those
      computed from g. */
  lemma TermsKept(fns: Math, g: Graph, h: Graph, p: nat)
    requires Valid(g) && Valid(h) && Extends(g, h) && Handle(g, p)
    ensures p in h.grads
    ensures ScaledBy(1.0 - Beta1, h.grads[p]) == FirstTerm(g, p)
    ensures Power(fns, h.grads[p], FromScalar(2.0)).Ok?
    ensures ScaledBy(1.0 - Beta2, Power(fns, h.grads[p], FromScalar(2.0)).value) == SquareTerm(fns, g, p)
  {
    HandleKept(g, h, p);
    PowerTwo(fns, h.grads[p]);
  }

  /** One Adam update as the builders perform it appends exactly the ten
      nodes of `AdamNodes`, with zero accumulators for the new first moment
      (node |h| + 4) and the new second moment (node |h| + 9): b1 is the
      graph after the first blend and b2 the one after the second, as
      `MomentRebinds` gives them. */
  lemma AdamUpdate(h: Graph, b1: Built, b2: Built, mi: nat, vi: nat, mv: Tensor, vv: Tensor, a: Tensor, b: Tensor, nm: Tensor, nv: Tensor)
    requires b1.node == |h.nodes| + 4
    requires b1.graph.nodes == h.nodes + BlendNodes(|h.nodes|, Beta1, mi, AddExpr, mv, a, nm)
    requires b1.graph.grads == h.grads[|h.nodes| + 4 := ZerosLike(nm)]
    requires b2.node == |b1.graph.nodes| + 4
    requires b2.graph.nodes == b1.graph.nodes + BlendNodes(|b1.graph.nodes|, Beta2, vi, AddExpr, vv, b, nv)
    requires b2.graph.grads == b1.graph.grads[|b1.graph.nodes| + 4 := ZerosLike(nv)]
    ensures b2.node == |h.nodes| + 9
    ensures b2.graph.nodes == h.nodes + AdamNodes(|h.nodes|, mi, vi, mv, vv, a, b, nm, nv)
    ensures b2.graph.grads == h.grads[|h.nodes| + 4 := ZerosLike(nm)][|h.nodes| + 9 := ZerosLike(nv)]
  {
    var n := |h.nodes|;
    Regroup(h.nodes, BlendNodes(n, Beta1, mi, AddExpr, mv, a, nm), BlendNodes(n + 5, Beta2, vi, AddExpr, vv, b, nv));
  }

  /** Appends blocks of w nodes, in order, each node referring only to nodes
      before it; every trainable one gets a zero accumulator. */
  method AppendBlocks(g: Graph, blocks: seq<seq<Node>>, w: nat) returns (h: Graph)
    requires Valid(g)
    requires forall i | 0 <= i < |blocks| :: |blocks[i]| == w
    requires forall i, j | 0 <= i < |blocks| && 0 <= j < w :: blocks[i][j].op.RefersBelow(|g.nodes| + w * i + j)
    ensures Valid(h) && Fresh(g, h) && h.nodes == g.nodes + Flatten(blocks)
  {
    h := g;
    for k := 0 to |blocks|
      invariant Valid(h) && Fresh(g, h)
      invariant h.nodes == g.nodes + Flatten(blocks[..k])
    {
      FlattenLength(blocks[..k], w);
      assert |h.nodes| == |g.nodes| + w * k;
      var s := AppendAll(h, blocks[k]);
      FreshTrans(g, h, s);
      FlattenStep(blocks, k);
      Regroup(g.nodes, Flatten(blocks[..k]), blocks[k]);
      h := s;
    }
    assert blocks[..|blocks|] == blocks;
  }

  /** Block i of an Adam step over params: parameter i's ten nodes, placed
      after the blocks of the parameters before it. */
  function AdamStepBlock(fns: Math, g: Graph, params: seq<nat>, ms: seq<nat>, vs: seq<nat>, i: nat): seq<Node>
    requires Valid(g) && i < |params| && i < |ms| && i < |vs| && Handle(g, params[i]) && ms[i] < |g.nodes| && vs[i] < |g.nodes|
    requires AdamFits(fns, g, params[i], ms[i], vs[i])
  {
    var p, mi, vi := params[i], ms[i], vs[i];
    AdamNodes(|g.nodes| + 10 * i, mi, vi, g.nodes[mi].val, g.nodes[vi].val, FirstTerm(g, p), SquareTerm(fns, g, p),
      NewFirstMoment(g, p, mi).value, NewSecondMoment(fns, g, p, vi).value)
  }

  /** The four tensors of parameter k's update that are not already in g
      (the two raw terms and the two new moments), and its block. */
  method AdamPlanEntry(fns: Math, g: Graph, params: seq<nat>, ms: seq<nat>, vs: seq<nat>, k: nat)
    returns (a: Tensor, b: Tensor, nm: Tensor, nv: Tensor, block: seq<Node>)
    requires Valid(g) && k < |params| && k < |ms| && k < |vs| && Handle(g, params[k]) && ms[k] < |g.nodes| && vs[k] < |g.nodes|
    requires AdamFits(fns, g, params[k], ms[k], vs[k])
    ensures block == AdamNodes(|g.nodes| + 10 * k, ms[k], vs[k], g.nodes[ms[k]].val, g.nodes[vs[k]].val, a, b, nm, nv)
    ensures block == AdamStepBlock(fns, g, params, ms, vs, k)
  {
    var p, mi, vi := params[k], ms[k], vs[k];
    a, b := FirstTerm(g, p), SquareTerm(fns, g, p);
    nm, nv := NewFirstMoment(g, p, mi).value, NewSecondMoment(fns, g, p, vi).value;
    block := AdamStepBlock(fns, g, params, ms, vs, k);
    AdamBlockIs(fns, g, params, ms, vs, k, a, b, nm, nv);
  }

  /** Block k, spelled out with its four computed tensors named. */
  lemma AdamBlockIs(fns: Math, g: Graph, params: seq<nat>, ms: seq<nat>, vs: seq<nat>, k: nat, a: Tensor, b: Tensor, nm: Tensor, nv: Tensor)
    requires Valid(g) && k < |params| && k < |ms| && k < |vs| && Handle(g, params[k]) && ms[k] < |g.nodes| && vs[k] < |g.nodes|
    requires AdamFits(fns, g, params[k], ms[k], vs[k])
    requires a == FirstTerm(g, params[k]) && b == SquareTerm(fns, g, params[k])
    requires nm == NewFirstMoment(g, params[k], ms[k]).value && nv == NewSecondMoment(fns, g, params[k], vs[k]).value
    ensures AdamStepBlock(fns, g, params, ms, vs, k) == AdamNodes(|g.nodes| + 10 * k, ms[k], vs[k], g.nodes[ms[k]].val, g.nodes[vs[k]].val, a, b, nm, nv)
  {
  }

  /** The tensors of every parameter's Adam update, and the blocks holding them. */
  method AdamPlan(fns: Math, g: Graph, params: seq<nat>, ms: seq<nat>, vs: seq<nat>)
    returns (as_: seq<Tensor>, bs: seq<Tensor>, nms: seq<Tensor>, nvs: seq<Tensor>, blocks: seq<seq<Node>>)
    requires Valid(g) && Handles(g, params) && |params| <= |ms| && |params| <= |vs|
    requires forall i | 0 <= i < |params| :: ms[i] < |g.nodes| && vs[i] < |g.nodes|
    requires forall i {:trigger AdamFits(fns, g, params[i], ms[i], vs[i])} | 0 <= i < |params| :: AdamFits(fns, g, params[i], ms[i], vs[i])
    ensures |as_| == |params| && |bs| == |params| && |nms| == |params| && |nvs| == |params| && |blocks| == |params|
    ensures forall i {:trigger blocks[i]} | 0 <= i < |params| :: |blocks[i]| == 10
    ensures forall i {:trigger blocks[i]} | 0 <= i < |params| ::
      blocks[i] == AdamNodes(|g.nodes| + 10 * i, ms[i], vs[i], g.nodes[ms[i]].val, g.nodes[vs[i]].val, as_[i], bs[i], nms[i], nvs[i])
    ensures forall i {:trigger AdamStepBlock(fns, g, params, ms, vs, i)} | 0 <= i < |params| ::
      blocks[i] == AdamStepBlock(fns, g, params, ms, vs, i)
  {
    as_, bs, nms, nvs, blocks := [], [], [], [], [];
    for k := 0 to |params|
      invariant |as_| == k && |bs| == k && |nms| == k && |nvs| == k && |blocks| == k
      invariant forall i {:trigger blocks[i]} | 0 <= i < k ::
        blocks[i] == AdamNodes(|g.nodes| + 10 * i, ms[i], vs[i], g.nodes[ms[i]].val, g.nodes[vs[i]].val, as_[i], bs[i], nms[i], nvs[i])
      invariant forall i {:trigger AdamStepBlock(fns, g, params, ms, vs, i)} | 0 <= i < k ::
        blocks[i] == AdamStepBlock(fns, g, params, ms, vs, i)
    {
      assert AdamFits(fns, g, params[k], ms[k], vs[k]);
      var a, b, nm, nv, block := AdamPlanEntry(fns, g, params, ms, vs, k);
      AdamPlanGrows(g, params, ms, vs, as_, bs, nms, nvs, blocks, a, b, nm, nv, block);
      AdamBlocksGrow(fns, g, params, ms, vs, blocks, block);
      as_, bs, nms, nvs, blocks := as_ + [a], bs + [b], nms + [nm], nvs + [nv], blocks + [block];
    }
  }

  /** The invariant of `AdamPlan` on the blocks' shape, one entry longer. */
  lemma AdamPlanGrows(g: Graph, params: seq<nat>, ms: seq<nat>, vs: seq<nat>,
                      as_: seq<Tensor>, bs: seq<Tensor>, nms: seq<Tensor>, nvs: seq<Tensor>, blocks: seq<seq<Node>>,
                      a: Tensor, b: Tensor, nm: Tensor, nv: Tensor, block: seq<Node>)
    requires |as_| == |blocks| && |bs| == |blocks| && |nms| == |blocks| && |nvs| == |blocks|
    requires |blocks| < |params| <= |ms| && |params| <= |vs|
    requires forall i | 0 <= i < |params| :: ms[i] < |g.nodes| && vs[i] < |g.nodes|
    requires forall i {:trigger blocks[i]} | 0 <= i < |blocks| ::
      blocks[i] == AdamNodes(|g.nodes| + 10 * i, ms[i], vs[i], g.nodes[ms[i]].val, g.nodes[vs[i]].val, as_[i], bs[i], nms[i], nvs[i])
    requires var k := |blocks|;
      block == AdamNodes(|g.nodes| + 10 * k, ms[k], vs[k], g.nodes[ms[k]].val, g.nodes[vs[k]].val, a, b, nm, nv)
    ensures var bl, as', bs', nms', nvs' := blocks + [block], as_ + [a], bs + [b], nms + [nm], nvs + [nv];
      forall i {:trigger bl[i]} | 0 <= i < |bl| ::
        bl[i] == AdamNodes(|g.nodes| + 10 * i, ms[i], vs[i], g.nodes[ms[i]].val, g.nodes[vs[i]].val, as'[i], bs'[i], nms'[i], nvs'[i])
  {
  }

  /** The invariant of `AdamPlan` relating blocks to the step, one entry longer. */
  lemma AdamBlocksGrow(fns: Math, g: Graph, params: seq<nat>, ms: seq<nat>, vs: seq<nat>, blocks: seq<seq<Node>>, block: seq<Node>)
    requires Valid(g) && Handles(g, params) && |blocks| < |params| && |params| <= |ms| && |params| <= |vs|
    requires forall i | 0 <= i < |params| :: ms[i] < |g.nodes| && vs[i] < |g.nodes|
    requires forall i {:trigger AdamFits(fns, g, params[i], ms[i], vs[i])} | 0 <= i < |params| :: AdamFits(fns, g, params[i], ms[i], vs[i])
    requires forall i {:trigger AdamStepBlock(fns, g, params, ms, vs, i)} | 0 <= i < |blocks| ::
      blocks[i] == AdamStepBlock(fns, g, params, ms, vs, i)
    requires block == AdamStepBlock(fns, g, params, ms, vs, |blocks|)
    ensures var bl := blocks + [block];
      forall i {:trigger AdamStepBlock(fns, g, params, ms, vs, i)} | 0 <= i < |bl| ::
        bl[i] == AdamStepBlock(fns, g, params, ms, vs, i)
  {
  }

  /** Appends, in order, the ten nodes of each parameter's Adam update,
      given the tensors they hold. */
  method AdamLayout(g: Graph, params: seq<nat>, ms: seq<nat>, vs: seq<nat>,
                    as_: seq<Tensor>, bs: seq<Tensor>, nms: seq<Tensor>, nvs: seq<Tensor>, blocks: seq<seq<Node>>)
    returns (h: Graph)
    requires Valid(g) && |params| <= |ms| && |params| <= |vs|
    requires |as_| == |params| && |bs| == |params| && |nms| == |params| && |nvs| == |params| && |blocks| == |params|
    requires forall i | 0 <= i < |params| :: ms[i] < |g.nodes| && vs[i] < |g.nodes|
    requires forall i {:trigger blocks[i]} | 0 <= i < |params| ::
      blocks[i] == AdamNodes(|g.nodes| + 10 * i, ms[i], vs[i], g.nodes[ms[i]].val, g.nodes[vs[i]].val, as_[i], bs[i], nms[i], nvs[i])
    ensures Valid(h) && Fresh(g, h) && h.nodes == g.nodes + Flatten(blocks)
  {
    var n := |g.nodes|;
    forall i | 0 <= i < |blocks|
      ensures |blocks[i]| == 10 && forall j | 0 <= j < 10 :: blocks[i][j].op.RefersBelow(n + 10 * i + j)
    {
      AdamNodesRefer(n + 10 * i, ms[i], vs[i], g.nodes[ms[i]].val, g.nodes[vs[i]].val, as_[i], bs[i], nms[i], nvs[i]);
    }
    h := AppendBlocks(g, blocks, 10);
  }

  /** `Adam::step`: t grows by one and, in list order, m[i] becomes
      beta1 * m[i] + (1 - beta1) * grad and v[i] becomes
      beta2 * v[i] + (1 - beta2) * pow(grad, 2), each a dependent node over
      its new sum. Each update reads only its own moment and its parameter's
      accumulator, which the step never changes (`MomentRebinds`,
      `TermsKept`), so all of them are computed from g and the nodes
      appended in ten-node blocks. No parameter handle moves and g is kept
      whole, so every parameter keeps its node, value and accumulator. The
      step fails, with a size mismatch, exactly when some update's operands
      do not fit; moments beyond the list are left alone. */
  method AdamStep(fns: Math, o: Adam, g: Graph, params: seq<nat>) returns (res: Result<(Adam, Graph)>)
    requires Valid(g) && Handles(g, params) && |params| <= |o.m| && |params| <= |o.v|
    requires forall i | 0 <= i < |params| :: o.m[i] < |g.nodes| && o.v[i] < |g.nodes|
    ensures res.Ok? <==> forall i {:trigger AdamFits(fns, g, params[i], o.m[i], o.v[i])} | 0 <= i < |params| ::
      AdamFits(fns, g, params[i], o.m[i], o.v[i])
    ensures res.Err? ==> res.error == ShapeMismatch
    ensures res.Ok? ==>
      var (o', h) := res.value;
      && o'.scheduler == o.scheduler && o'.t == o.t + 1
      && |o'.m| == |o.m| && o'.m[|params|..] == o.m[|params|..]
      && |o'.v| == |o.v| && o'.v[|params|..] == o.v[|params|..]
      && forall i | 0 <= i < |params| :: o'.m[i] == |g.nodes| + 10 * i + 4 && o'.v[i] == |g.nodes| + 10 * i + 9
    ensures res.Ok? ==>
      var (o', h) := res.value;
      && Valid(h) && Fresh(g, h) && |h.nodes| == |g.nodes| + 10 * |params|
      && forall i {:trigger AdamStepBlock(fns, g, params, o.m, o.v, i)} | 0 <= i < |params| ::
        h.nodes[|g.nodes| + 10 * i .. |g.nodes| + 10 * i + 10] == AdamStepBlock(fns, g, params, o.m, o.v, i)
  {
    var n := |g.nodes|;
    if !(forall i {:trigger AdamFits(fns, g, params[i], o.m[i], o.v[i])} | 0 <= i < |params| :: AdamFits(fns, g, params[i], o.m[i], o.v[i])) {
      return Err(ShapeMismatch);
    }
    var ms: seq<nat> := seq(|params|, i requires 0 <= i < |params| => n + 10 * i + 4);
    var vs: seq<nat> := seq(|params|, i requires 0 <= i < |params| => n + 10 * i + 9);
    var o' := Adam(o.scheduler, o.t + 1, vs + o.v[|params|..], ms + o.m[|params|..]);
    var as_, bs, nms, nvs, blocks := AdamPlan(fns, g, params, o.m, o.v);
    var h := AdamLayout(g, params, o.m, o.v, as_, bs, nms, nvs, blocks);
    AdamSlices(fns, g, params, o.m, o.v, blocks, h.nodes);
    res := Ok((o', h));
  }

  /** Laid out after g's nodes, block i of an Adam step sits at |g| + 10 i. */
  lemma AdamSlices(fns: Math, g: Graph, params: seq<nat>, ms: seq<nat>, vs: seq<nat>, blocks: seq<seq<Node>>, nodes: seq<Node>)
    requires Valid(g) && Handles(g, params) && |params| <= |ms| && |params| <= |vs| && |blocks| == |params|
    requires forall i | 0 <= i < |params| :: ms[i] < |g.nodes| && vs[i] < |g.nodes|
    requires forall i {:trigger AdamFits(fns, g, params[i], ms[i], vs[i])} | 0 <= i < |params| :: AdamFits(fns, g, params[i], ms[i], vs[i])
    requires forall i | 0 <= i < |params| :: |blocks[i]| == 10
    requires forall i {:trigger AdamStepBlock(fns, g, params, ms, vs, i)} | 0 <= i < |params| ::
      blocks[i] == AdamStepBlock(fns, g, params, ms, vs, i)
    requires nodes == g.nodes + Flatten(blocks)
    ensures |nodes| == |g.nodes| + 10 * |params|
    ensures var n := |g.nodes|;
      forall i {:trigger AdamStepBlock(fns, g, params, ms, vs, i)} | 0 <= i < |params| ::
        n + 10 * i + 10 <= |nodes| && nodes[n + 10 * i .. n + 10 * i + 10] == AdamStepBlock(fns, g, params, ms, vs, i)
  {
    BlocksAfter(g.nodes, blocks, 10);
  }
}

=== FILE: schedules.dfy ===
/** Learning-rate schedules: src/stratosml/core/optimizers/schedules.hpp.

    A scheduler holds the current rate `lr`; its constructor validates the
    arguments and `step(epoch)` recomputes the rate from the epoch alone. */
module Schedules {
  import opened Wrappers
  import opened Numerics

  /** The three scheduler classes. `Fixed` is the base class
      `LearningRateScheduler`, whose `step` does nothing. */
  datatype Scheduler =
    | Fixed(lr: real)
    | StepDecay(lr: real, initial: real, decay: real, stepSize: nat)
    | ExponentialDecay(lr: real, initial: real, decay: real)

  const RateMessage := "Initial learning rate must be above zero."
  const DecayMessage := "Decay rate must be above zero and below one."
  const StepMessage := "Step size must be above zero."

  /** What the constructors establish and every `step` keeps: a positive
      initial rate, a decay rate strictly between zero and one, a positive
      step size; under a base or step-decay schedule the current rate lies in
      (0, initial]. */
  predicate Wellformed(s: Scheduler)
  {
    match s
    case Fixed(lr) => lr > 0.0
    case StepDecay(lr, initial, decay, stepSize) =>
      0.0 < lr <= initial && 0.0 < decay < 1.0 && stepSize > 0
    case ExponentialDecay(_, initial, decay) =>
      initial > 0.0 && 0.0 < decay < 1.0
  }

  /** The decay-rate check shared by both decaying schedules. */
  predicate DecayInRange(decay: real)
  {
    0.0 < decay < 1.0
  }

  /** `LearningRateScheduler(initial_lr)`. */
  function NewFixed(initial: real): (res: Result<Scheduler>)
    ensures res.Ok? <==> initial > 0.0
    ensures res.Err? ==> res.error == InvalidArgument(RateMessage)
    ensures res.Ok? ==> res.value.Fixed? && res.value.lr == initial && Wellformed(res.value)
  {
    if initial <= 0.0 then Err(InvalidArgument(RateMessage)) else Ok(Fixed(initial))
  }

  /** `StepDecay(lr, decay_rate, step_size)`: the base constructor's check
      runs first, then the decay rate, then the step size (a `size_t`, so
      "not above zero" means zero). */
  function NewStepDecay(lr: real, decay: real, stepSize: nat): (res: Result<Scheduler>)
    ensures res.Ok? <==> lr > 0.0 && DecayInRange(decay) && stepSize > 0
    ensures lr <= 0.0 ==> res == Err(InvalidArgument(RateMessage))
    ensures lr > 0.0 && !DecayInRange(decay) ==> res == Err(InvalidArgument(DecayMessage))
    ensures lr > 0.0 && DecayInRange(decay) && stepSize == 0 ==> res == Err(InvalidArgument(StepMessage))
    ensures res.Ok? ==> res.value.StepDecay? && res.value.lr == lr && res.value.initial == lr
    ensures res.Ok? ==> Wellformed(res.value)
  {
    var _ :- NewFixed(lr);
    if decay <= 0.0 || decay >= 1.0 then Err(InvalidArgument(DecayMessage))
    else if stepSize == 0 then Err(InvalidArgument(StepMessage))
    else Ok(StepDecay(lr, lr, decay, stepSize))
  }

  /** `ExponentialDecay(lr, decay_rate)`: the base check, then the decay rate. */
  function NewExponentialDecay(lr: real, decay: real): (res: Result<Scheduler>)
    ensures res.Ok? <==> lr > 0.0 && DecayInRange(decay)
    ensures lr <= 0.0 ==> res == Err(InvalidArgument(RateMessage))
    ensures lr > 0.0 && !DecayInRange(decay) ==> res == Err(InvalidArgument(DecayMessage))
    ensures res.Ok? ==> res.value.ExponentialDecay? && res.value.lr == lr && res.value.initial == lr
    ensures res.Ok? ==> Wellformed(res.value)
  {
    var _ :- NewFixed(lr);
    if decay <= 0.0 || decay >= 1.0 then Err(InvalidArgument(DecayMessage))
    else Ok(ExponentialDecay(lr, lr, decay))
  }

  /** initial * exp(-decay * epoch). */
  function ExponentialRate(fns: Math, initial: real, decay: real, epoch: nat): real
  {
    initial * fns.exp(-decay * epoch as real)
  }

  /** `step(epoch)`. The base schedule keeps its rate; step decay sets
      initial * decay^(epoch / step_size) with integer division of the two
      `size_t`s; exponential decay sets initial * exp(-decay * epoch). Only the
      rate changes. */
  function Step(fns: Math, s: Scheduler, epoch: nat): (r: Scheduler)
    requires s.StepDecay? ==> s.stepSize > 0
    ensures r == s.(lr := r.lr)
    ensures s.Fixed? ==> r == s
  {
    match s
    case Fixed(_) => s
    case StepDecay(_, initial, decay, stepSize) => StepDecay(initial * NatPow(decay, epoch / stepSize), initial, decay, stepSize)
    case ExponentialDecay(_, initial, decay) => ExponentialDecay(ExponentialRate(fns, initial, decay, epoch), initial, decay)
  }

  /** A well-formed schedule stays well-formed, whatever the epoch; in
      particular a step-decay rate stays positive and never exceeds the
      initial rate. */
  lemma StepKeepsWellformed(fns: Math, s: Scheduler, epoch: nat)
    requires Wellformed(s)
    ensures Wellformed(Step(fns, s, epoch))
    ensures s.StepDecay? ==> 0.0 < Step(fns, s, epoch).lr <= s.initial
  {
    if s.StepDecay? {
      var n := epoch / s.stepSize;
      NatPowInUnit(s.decay, n);
      var p := NatPow(s.decay, n);
      var r := Step(fns, s, epoch).lr;
      assert r == s.initial * p;
      ScaleMonotone(s.initial, p, 1.0, r, s.initial);
      ScalePositive(s.initial, p, r);
    }
  }

  /** The rate depends only on the epoch: stepping twice at the same epoch
      is stepping once, and a later step forgets earlier ones. */
  lemma StepIdempotent(fns: Math, s: Scheduler, e1: nat, e2: nat)
    requires s.StepDecay? ==> s.stepSize > 0
    ensures Step(fns, Step(fns, s, e1), e2) == Step(fns, s, e2)
  {
    var r := Step(fns, s, e1);
    match s
    case Fixed(_) =>
    case StepDecay(_, initial, decay, stepSize) =>
      assert r == StepDecay(r.lr, initial, decay, stepSize);
    case ExponentialDecay(_, initial, decay) =>
      assert r == ExponentialDecay(r.lr, initial, decay);
  }

  /** Step decay holds the rate constant across each block of `step_size`
      epochs. */
  lemma StepDecayBlocks(fns: Math, s: Scheduler, e1: nat, e2: nat)
    requires s.StepDecay? && s.stepSize > 0
    requires e1 / s.stepSize == e2 / s.stepSize
    ensures Step(fns, s, e1).lr == Step(fns, s, e2).lr
  {
  }

  /** Step decay never raises the rate as the epoch grows, and stays in
      (0, initial]. */
  lemma StepDecayMonotone(fns: Math, s: Scheduler, e1: nat, e2: nat)
    requires Wellformed(s) && s.StepDecay?
    requires e1 <= e2
    ensures 0.0 < Step(fns, s, e2).lr <= Step(fns, s, e1).lr <= s.initial
  {
    DivMonotone(e1, e2, s.stepSize);
    var n1 := e1 / s.stepSize;
    var n2 := e2 / s.stepSize;
    NatPowDecays(s.decay, n1, n2);
    var p1 := NatPow(s.decay, n1);
    var p2 := NatPow(s.decay, n2);
    var r1, r2 := Step(fns, s, e1).lr, Step(fns, s, e2).lr;
    assert r1 == s.initial * p1 && r2 == s.initial * p2;
    ScaleMonotone(s.initial, p2, p1, r2, r1);
    ScaleMonotone(s.initial, p1, 1.0, r1, s.initial);
    ScalePositive(s.initial, p2, r2);
  }

  /** One full block later the step-decay rate is exactly one decay factor
      smaller. */
  lemma StepDecayOneBlock(fns: Math, s: Scheduler, epoch: nat)
    requires s.StepDecay? && s.stepSize > 0
    ensures Step(fns, s, epoch + s.stepSize).lr == s.decay * Step(fns, s, epoch).lr
  {
    var q := epoch / s.stepSize;
    DivNext(epoch, s.stepSize);
    var p := NatPow(s.decay, q);
    assert NatPow(s.decay, q + 1) == s.decay * p;
    assert s.initial * (s.decay * p) == s.decay * (s.initial * p);
  }
}

=== FILE: tensors.dfy ===
/** `Tensor`: a real buffer paired with a separately stored `TensorShape`
    (src/stratosml/core/autodiff/tensor.hpp).

    The stored shape is whatever the constructor was given; it is not derived
    from the buffer and `reshape` does not update it. The shape
    classifications, broadcasting and the operators all look at the buffer. */
module Tensors {
  import opened Wrappers
  import opened Numerics
  import opened Matrices

  datatype Tensor = Tensor(value: Mat, shape: seq<nat>)

  function Rows(t: Tensor): nat { t.value.rows }
  function Cols(t: Tensor): nat { t.value.cols }
  function At(t: Tensor, i: int, j: int): real { Get(t.value, i, j) }

  predicate SameDims(a: Tensor, b: Tensor) { SameSize(a.value, b.value) }

  // ---------------------------------------------------------------------
  // Shape classification (all derived from the buffer)
  // ---------------------------------------------------------------------

  predicate IsScalar(t: Tensor) { Cols(t) == 1 && Rows(t) == 1 }
  predicate IsVector(t: Tensor) { !IsScalar(t) && (Cols(t) == 1 || Rows(t) == 1) }
  predicate IsColVector(t: Tensor) { IsVector(t) && Cols(t) == 1 }
  predicate IsRowVector(t: Tensor) { IsVector(t) && Rows(t) == 1 }

  /** The four classifications in terms of the buffer's dimensions. */
  lemma Classification(t: Tensor)
    ensures IsScalar(t) <==> Rows(t) == 1 && Cols(t) == 1
    ensures IsVector(t) <==> !IsScalar(t) && (Rows(t) == 1 || Cols(t) == 1)
    ensures IsColVector(t) <==> Cols(t) == 1 && Rows(t) != 1
    ensures IsRowVector(t) <==> Rows(t) == 1 && Cols(t) != 1
    ensures IsVector(t) <==> IsColVector(t) || IsRowVector(t)
    ensures !(IsColVector(t) && IsRowVector(t))
    ensures IsScalar(t) ==> !IsColVector(t) && !IsRowVector(t)
  {
  }

  // ---------------------------------------------------------------------
  // Constructors
  // ---------------------------------------------------------------------

  /** `Tensor()`: an empty buffer and an empty stored shape. */
  function Empty(): (t: Tensor)
    ensures Rows(t) == 0 && Cols(t) == 0 && t.shape == []
  {
    Tensor(Fill(0, 0, 0.0), [])
  }

  /** `Tensor(const TensorShape&)`: `shape[1] || 1` is a boolean, always true,
      so the buffer is `shape[0]` x 1 whatever the rank; it is zero-filled.
      The caller's shape is stored as given. Reading `shape[0]` needs rank >= 1. */
  function FromShape(shape: seq<nat>): (t: Tensor)
    requires |shape| >= 1
    ensures Rows(t) == shape[0] && Cols(t) == 1 && t.shape == shape
    ensures forall i | 0 <= i < shape[0] :: At(t, i, 0) == 0.0
  {
    Tensor(Fill(shape[0], 1, 0.0), shape)
  }

  /** `Tensor(T scalar)`: a 1 x 1 buffer and an empty stored shape. */
  function FromScalar(x: real): (t: Tensor)
    ensures IsScalar(t) && t.shape == [] && At(t, 0, 0) == x
  {
    Tensor(Fill(1, 1, x), [])
  }

  /** `Tensor(initializer_list<T>)`: an n x 1 column with stored shape {n}. */
  function FromList(xs: seq<real>): (t: Tensor)
    ensures Rows(t) == |xs| && Cols(t) == 1 && t.shape == [|xs|]
    ensures forall i | 0 <= i < |xs| :: At(t, i, 0) == xs[i]
  {
    Tensor(Tabulate(|xs|, 1, (i, j) => if 0 <= i < |xs| then xs[i] else 0.0), [|xs|])
  }

  /** The longest row of a nested list. */
  function Width(rows: seq<seq<real>>): (w: nat)
    ensures forall i | 0 <= i < |rows| :: |rows[i]| <= w
    ensures |rows| > 0 ==> exists i | 0 <= i < |rows| :: |rows[i]| == w
    ensures |rows| == 0 ==> w == 0
  {
    if |rows| == 0 then 0
    else
      var w := Width(rows[1..]);
      assert forall i | 1 <= i < |rows| :: rows[i] == rows[1..][i - 1];
      if |rows[0]| >= w then |rows[0]| else w
  }

  /** `Tensor(initializer_list<initializer_list<T>>)`: one buffer row per inner
      list, as wide as the longest, short rows padded with zeros; the stored
      shape is {rows, cols} of the buffer. */
  function FromNested(rows: seq<seq<real>>): (t: Tensor)
    ensures Rows(t) == |rows| && Cols(t) == Width(rows) && t.shape == [Rows(t), Cols(t)]
    ensures forall i, j | 0 <= i < |rows| && 0 <= j < |rows[i]| :: At(t, i, j) == rows[i][j]
    ensures forall i, j | 0 <= i < |rows| && |rows[i]| <= j < Cols(t) :: At(t, i, j) == 0.0
  {
    var w := Width(rows);
    Tensor(Tabulate(|rows|, w, (i, j) => if 0 <= i < |rows| && 0 <= j < |rows[i]| then rows[i][j] else 0.0), [|rows|, w])
  }

  /** `Tensor(arma::Mat<T>)`: every operator result goes through this one;
      the stored shape is {rows, cols} of the buffer. */
  function FromMat(m: Mat): (t: Tensor)
    ensures t.value == m && t.shape == [m.rows, m.cols]
  {
    Tensor(m, [m.rows, m.cols])
  }

  /** `Tensor(size, fill::zeros)`. */
  function ZerosOfSize(r: nat, c: nat): (t: Tensor)
    ensures Rows(t) == r && Cols(t) == c && t.shape == [r, c]
    ensures forall i, j | 0 <= i < r && 0 <= j < c :: At(t, i, j) == 0.0
  {
    FromMat(Fill(r, c, 0.0))
  }

  /** `Tensor(tensor, fill::zeros)`: zeros of the same buffer size, same stored shape. */
  function ZerosLike(t: Tensor): (z: Tensor)
    ensures SameDims(z, t) && z.shape == t.shape
    ensures forall i, j | 0 <= i < Rows(t) && 0 <= j < Cols(t) :: At(z, i, j) == 0.0
  {
    Tensor(Fill(Rows(t), Cols(t), 0.0), t.shape)
  }

  /** `reshape(size)`: the buffer takes the new dimensions, the stored shape stays. */
  function Reshaped(t: Tensor, r: nat, c: nat): (u: Tensor)
    ensures Rows(u) == r && Cols(u) == c && u.shape == t.shape
  {
    Tensor(Reshape(t.value, r, c), t.shape)
  }

  /** `t()`. */
  function Transposed(t: Tensor): (u: Tensor)
    ensures Rows(u) == Cols(t) && Cols(u) == Rows(t) && u.shape == [Cols(t), Rows(t)]
    ensures forall i, j | 0 <= i < Cols(t) && 0 <= j < Rows(t) :: At(u, i, j) == At(t, j, i)
  {
    FromMat(Transpose(t.value))
  }

  /** A tensor built from a shape always has one column, whatever the shape;
      `reshape` never brings the stored shape back in line with the buffer. */
  lemma ShapeDrift(shape: seq<nat>, r: nat, c: nat)
    requires |shape| >= 1
    ensures Cols(FromShape(shape)) == 1 && Rows(FromShape(shape)) == shape[0]
    ensures FromShape(shape).shape == shape
    ensures Reshaped(FromShape(shape), r, c).shape == shape
    ensures Rows(Reshaped(FromShape(shape), r, c)) == r && Cols(Reshaped(FromShape(shape), r, c)) == c
  {
  }

  // ---------------------------------------------------------------------
  // In-place broadcast (`broadcast`, used by +=, -=, /=)
  // ---------------------------------------------------------------------

  /** `broadcast(t)`: fit the right operand to this (left) tensor. */
  function Fit(left: Tensor, right: Tensor): Mat
  {
    if IsScalar(left) then Fill(1, 1, Accu(right.value))
    else if IsScalar(right) then Fill(Rows(left), Cols(left), At(right, 0, 0))
    else if IsRowVector(left) && Cols(left) == Rows(right) then Transpose(RowSums(right.value))
    else right.value
  }

  /** Whether `this->value op= broadcast(t)` finds matching sizes. */
  predicate InPlaceFits(left: Tensor, right: Tensor)
  {
    IsScalar(left) || IsScalar(right) || (IsRowVector(left) && Cols(left) == Rows(right))
    || SameDims(left, right)
  }

  /** `left op= right` for an entry-wise op f: the left keeps its buffer size
      and its stored shape. */
  function InPlace(left: Tensor, right: Tensor, f: (real, real) -> real): (res: Result<Tensor>)
    ensures res.Ok? <==> InPlaceFits(left, right)
    ensures res.Ok? ==> SameDims(res.value, left) && res.value.shape == left.shape
    // a scalar left receives the sum of all right entries
    ensures IsScalar(left) ==> At(res.value, 0, 0) == f(At(left, 0, 0), Accu(right.value))
    // a scalar right is tiled
    ensures !IsScalar(left) && IsScalar(right) ==>
      forall i, j | 0 <= i < Rows(left) && 0 <= j < Cols(left) :: At(res.value, i, j) == f(At(left, i, j), At(right, 0, 0))
    // a 1 x n row receives the n row sums of an n-row right
    ensures !IsScalar(left) && !IsScalar(right) && IsRowVector(left) && Cols(left) == Rows(right) ==>
      forall j | 0 <= j < Cols(left) :: At(res.value, 0, j) == f(At(left, 0, j), Sum(Row(right.value, j)))
    // otherwise the right is used unchanged
    ensures res.Ok? && !IsScalar(left) && !IsScalar(right) && !(IsRowVector(left) && Cols(left) == Rows(right)) ==>
      forall i, j | 0 <= i < Rows(left) && 0 <= j < Cols(left) :: At(res.value, i, j) == f(At(left, i, j), At(right, i, j))
  {
    var b := Fit(left, right);
    if SameSize(left.value, b) then Ok(Tensor(Zip(left.value, b, f), left.shape)) else Err(ShapeMismatch)
  }

  function AddReal(x: real, y: real): real { x + y }
  function SubReal(x: real, y: real): real { x - y }
  function MulReal(x: real, y: real): real { x * y }
  function DivReal(x: real, y: real): real { Quot(x, y) }

  /** `+=`, `-=`, `/=`. */
  function AddAssign(left: Tensor, right: Tensor): Result<Tensor> { InPlace(left, right, AddReal) }
  function SubAssign(left: Tensor, right: Tensor): Result<Tensor> { InPlace(left, right, SubReal) }
  function DivAssign(left: Tensor, right: Tensor): Result<Tensor> { InPlace(left, right, DivReal) }

  lemma AccuSingle(a: Mat)
    requires a.rows == 1 && a.cols == 1
    ensures Accu(a) == Get(a, 0, 0)
  {
    var rows := seq(a.rows, i => Sum(Row(a, i)));
    SumOne(Row(a, 0));
    SumOne(rows);
  }

  /** With equal buffer sizes the in-place op is plain entry-wise, in every case. */
  lemma InPlaceSameDims(left: Tensor, right: Tensor, f: (real, real) -> real)
    requires SameDims(left, right)
    ensures InPlace(left, right, f) == Ok(Tensor(Zip(left.value, right.value, f), left.shape))
  {
    var b := Fit(left, right);
    if IsScalar(left) {
      AccuSingle(right.value);
      Ext(b, right.value);
    }
  }

  /** A leaf's accumulator after two backward contributions holds their sum. */
  lemma AccumulateTwice(z: Tensor, g1: Tensor, g2: Tensor)
    requires SameDims(z, g1) && SameDims(z, g2)
    ensures AddAssign(z, g1).Ok?
    ensures AddAssign(AddAssign(z, g1).value, g2).Ok?
    ensures var s := AddAssign(AddAssign(z, g1).value, g2).value;
      SameDims(s, z) && s.shape == z.shape &&
      forall i, j | 0 <= i < Rows(z) && 0 <= j < Cols(z) :: At(s, i, j) == At(z, i, j) + At(g1, i, j) + At(g2, i, j)
  {
    InPlaceSameDims(z, g1, AddReal);
    var s1 := AddAssign(z, g1).value;
    InPlaceSameDims(s1, g2, AddReal);
  }

  /** `-=` by the same right operand undoes `+=`: the fitted right operand
      depends only on the left's buffer size, which `+=` keeps. */
  lemma InPlaceRoundTrip(left: Tensor, right: Tensor)
    requires AddAssign(left, right).Ok?
    ensures SubAssign(AddAssign(left, right).value, right) == Ok(left)
  {
    var s := AddAssign(left, right).value;
    assert Fit(s, right) == Fit(left, right);
    var back := SubAssign(s, right).value;
    Ext(back.value, left.value);
  }

  // ---------------------------------------------------------------------
  // Element-wise operators (`element_wise_broadcast`)
  // ---------------------------------------------------------------------

  /** `element_wise_broadcast(l, r)`: a scalar side is tiled to the other's
      size; otherwise, when l's columns equal r's rows, r is transposed. */
  function PairUp(l: Tensor, r: Tensor): (Mat, Mat)
  {
    if IsScalar(l) then (Fill(Rows(r), Cols(r), At(l, 0, 0)), r.value)
    else if IsScalar(r) then (l.value, Fill(Rows(l), Cols(l), At(r, 0, 0)))
    else if Cols(l) == Rows(r) then (l.value, Transpose(r.value))
    else (l.value, r.value)
  }

  /** Whether the broadcast operands have equal sizes, as Armadillo demands. */
  predicate Combinable(l: Tensor, r: Tensor)
  {
    IsScalar(l) || IsScalar(r) ||
    (if Cols(l) == Rows(r) then Rows(l) == Cols(r) else SameDims(l, r))
  }

  /** `applyTensorElementWiseOperation(l, r, f)`. */
  function Combine(l: Tensor, r: Tensor, f: (real, real) -> real): (res: Result<Tensor>)
    ensures res.Ok? <==> Combinable(l, r)
    ensures res.Ok? ==> res.value.shape == [Rows(res.value), Cols(res.value)]
    // a scalar left is tiled to the right's size
    ensures IsScalar(l) ==> (SameDims(res.value, r) &&
      forall i, j | 0 <= i < Rows(r) && 0 <= j < Cols(r) :: At(res.value, i, j) == f(At(l, 0, 0), At(r, i, j)))
    // a scalar right is tiled to the left's size
    ensures !IsScalar(l) && IsScalar(r) ==> (SameDims(res.value, l) &&
      forall i, j | 0 <= i < Rows(l) && 0 <= j < Cols(l) :: At(res.value, i, j) == f(At(l, i, j), At(r, 0, 0)))
    // l.cols == r.rows: the right is transposed
    ensures res.Ok? && !IsScalar(l) && !IsScalar(r) && Cols(l) == Rows(r) ==> (SameDims(res.value, l) &&
      forall i, j | 0 <= i < Rows(l) && 0 <= j < Cols(l) :: At(res.value, i, j) == f(At(l, i, j), At(r, j, i)))
    // otherwise both are used unchanged
    ensures res.Ok? && !IsScalar(l) && !IsScalar(r) && Cols(l) != Rows(r) ==> (SameDims(res.value, l) &&
      forall i, j | 0 <= i < Rows(l) && 0 <= j < Cols(l) :: At(res.value, i, j) == f(At(l, i, j), At(r, i, j)))
  {
    var (a, b) := PairUp(l, r);
    if SameSize(a, b) then Ok(FromMat(Zip(a, b, f))) else Err(ShapeMismatch)
  }

  function PowReal(fns: Math): (real, real) -> real { (x, y) => Pow(fns, x, y) }

  /** `+`, `-`, `/`, `%` (Armadillo's `%` is the element-wise product, even
      though the library routes it through `std::modulus`) and `pow`. */
  function Plus(l: Tensor, r: Tensor): Result<Tensor> { Combine(l, r, AddReal) }
  function Minus(l: Tensor, r: Tensor): Result<Tensor> { Combine(l, r, SubReal) }
  function Quotient(l: Tensor, r: Tensor): Result<Tensor> { Combine(l, r, DivReal) }
  function Schur(l: Tensor, r: Tensor): Result<Tensor> { Combine(l, r, MulReal) }
  function Power(fns: Math, l: Tensor, r: Tensor): Result<Tensor> { Combine(l, r, PowReal(fns)) }

  /** A scalar operand is tiled whichever side it is on, so for a commutative
      op the two orders agree: `5 + m == m + 5`. */
  lemma ScalarBroadcastCommutes(x: real, t: Tensor)
    ensures Plus(FromScalar(x), t).Ok? && Plus(t, FromScalar(x)).Ok?
    ensures Plus(FromScalar(x), t) == Plus(t, FromScalar(x))
    ensures SameDims(Plus(t, FromScalar(x)).value, t)
    ensures forall i, j | 0 <= i < Rows(t) && 0 <= j < Cols(t) :: At(Plus(t, FromScalar(x)).value, i, j) == At(t, i, j) + x
  {
    var a := Plus(FromScalar(x), t).value;
    var b := Plus(t, FromScalar(x)).value;
    Ext(a.value, b.value);
  }

  /** Subtracting the same operand undoes an addition, on every buffer size
      (for square operands both steps transpose the right operand). */
  lemma MinusUndoesPlus(a: Tensor, b: Tensor)
    requires SameDims(a, b)
    ensures Plus(a, b).Ok?
    ensures Minus(Plus(a, b).value, b) == Ok(FromMat(a.value))
  {
    var s := Plus(a, b).value;
    var d := Minus(s, b).value;
    Ext(d.value, a.value);
  }

  /** The worked example: 5 + [[1,2],[3,4]] and [[1,2],[3,4]] + 5 are both [[6,7],[8,9]]. */
  lemma BroadcastExample()
    ensures Plus(FromScalar(5.0), FromNested([[1.0, 2.0], [3.0, 4.0]])) == Ok(FromNested([[6.0, 7.0], [8.0, 9.0]]))
    ensures Plus(FromNested([[1.0, 2.0], [3.0, 4.0]]), FromScalar(5.0)) == Ok(FromNested([[6.0, 7.0], [8.0, 9.0]]))
  {
    var rm: seq<seq<real>> := [[1.0, 2.0], [3.0, 4.0]];
    var re: seq<seq<real>> := [[6.0, 7.0], [8.0, 9.0]];
    WidthOfPair(rm);
    WidthOfPair(re);
    var m := FromNested(rm);
    var e := FromNested(re);
    ScalarBroadcastCommutes(5.0, m);
    var s := Plus(m, FromScalar(5.0)).value;
    forall i, j | 0 <= i < 2 && 0 <= j < 2
      ensures At(s, i, j) == At(e, i, j)
    {
      assert At(s, i, j) == At(m, i, j) + 5.0;
      assert At(m, i, j) == rm[i][j];
      assert At(e, i, j) == re[i][j];
    }
    Ext(s.value, e.value);
  }

  lemma WidthOfPair(rows: seq<seq<real>>)
    requires |rows| == 2 && |rows[0]| == 2 && |rows[1]| == 2
    ensures Width(rows) == 2
  {
  }

  // ---------------------------------------------------------------------
  // Product (`*`, not element-wise)
  // ---------------------------------------------------------------------

  /** Whether `l * r` is defined: a scalar side, two columns, or a matrix product. */
  predicate Multipliable(l: Tensor, r: Tensor)
  {
    IsScalar(l) || IsScalar(r) || (IsColVector(l) && IsColVector(r)) || Cols(l) == Rows(r)
  }

  /** `operator*(l, r)`. */
  function Product(l: Tensor, r: Tensor): (res: Result<Tensor>)
    ensures res.Ok? <==> Multipliable(l, r)
    ensures res.Ok? ==> res.value.shape == [Rows(res.value), Cols(res.value)]
    // a scalar left scales the right
    ensures IsScalar(l) ==> (SameDims(res.value, r) &&
      forall i, j | 0 <= i < Rows(r) && 0 <= j < Cols(r) :: At(res.value, i, j) == At(l, 0, 0) * At(r, i, j))
    // a scalar right scales the left
    ensures !IsScalar(l) && IsScalar(r) ==> (SameDims(res.value, l) &&
      forall i, j | 0 <= i < Rows(l) && 0 <= j < Cols(l) :: At(res.value, i, j) == At(r, 0, 0) * At(l, i, j))
    // two columns of lengths n and m give the n x m outer product
    ensures IsColVector(l) && IsColVector(r) ==> (Rows(res.value) == Rows(l) && Cols(res.value) == Rows(r) &&
      forall i, j | 0 <= i < Rows(l) && 0 <= j < Rows(r) :: At(res.value, i, j) == At(l, i, 0) * At(r, j, 0))
    // anything else is the matrix product
    ensures res.Ok? && !IsScalar(l) && !IsScalar(r) && !(IsColVector(l) && IsColVector(r)) ==>
      Rows(res.value) == Rows(l) && Cols(res.value) == Cols(r) &&
      forall i, j | 0 <= i < Rows(l) && 0 <= j < Cols(r) :: At(res.value, i, j) == Dot(l.value, r.value, i, j)
  {
    if IsScalar(l) then Ok(FromMat(Scale(At(l, 0, 0), r.value)))
    else if IsScalar(r) then Ok(FromMat(Scale(At(r, 0, 0), l.value)))
    else if IsColVector(r) && IsColVector(l) then Ok(FromMat(OuterProduct(l.value, r.value)))
    else if Cols(l) == Rows(r) then Ok(FromMat(MatMul(l.value, r.value)))
    else Err(ShapeMismatch)
  }

  /** `l * r.t()` for two columns. */
  function OuterProduct(a: Mat, b: Mat): (m: Mat)
    requires a.cols == 1 && b.cols == 1
    ensures m.rows == a.rows && m.cols == b.rows
    ensures forall i, j | 0 <= i < a.rows && 0 <= j < b.rows :: Get(m, i, j) == Get(a, i, 0) * Get(b, j, 0)
  {
    var m := MatMul(a, Transpose(b));
    forall i, j | 0 <= i < a.rows && 0 <= j < b.rows
      ensures Get(m, i, j) == Get(a, i, 0) * Get(b, j, 0)
    {
      SumOne(seq(a.cols, k => Get(a, i, k) * Get(Transpose(b), k, j)));
    }
    m
  }

  /** `T * Tensor` and `Tensor * T`: every entry multiplied by c. */
  function ScaledBy(c: real, t: Tensor): (u: Tensor)
    ensures SameDims(u, t) && u.shape == [Rows(t), Cols(t)]
    ensures forall i, j | 0 <= i < Rows(t) && 0 <= j < Cols(t) :: At(u, i, j) == c * At(t, i, j)
  {
    FromMat(Scale(c, t.value))
  }

  /** A 1 x 1 factor gives the same tensor through `*` on either side, through
      the raw-number overload, and through the element-wise `%`. */
  lemma ScalarProductAgrees(c: real, t: Tensor)
    ensures Product(FromScalar(c), t) == Ok(ScaledBy(c, t))
    ensures Product(t, FromScalar(c)) == Ok(ScaledBy(c, t))
    ensures Schur(FromScalar(c), t) == Ok(ScaledBy(c, t))
  {
    ProductScalarRight(c, t);
    SchurScalarLeft(c, t);
  }

  lemma ProductScalarRight(c: real, t: Tensor)
    ensures Product(t, FromScalar(c)) == Ok(ScaledBy(c, t))
  {
    if IsScalar(t) {
      var p := Product(t, FromScalar(c)).value;
      Ext(p.value, ScaledBy(c, t).value);
    }
  }

  lemma SchurScalarLeft(c: real, t: Tensor)
    ensures Schur(FromScalar(c), t) == Ok(ScaledBy(c, t))
  {
    var s := Schur(FromScalar(c), t).value;
    Ext(s.value, ScaledBy(c, t).value);
  }

  /** Scaling twice is scaling by the product. */
  lemma ScaledTwice(a: real, b: real, t: Tensor)
    ensures ScaledBy(a, ScaledBy(b, t)) == ScaledBy(a * b, t)
  {
    Ext(ScaledBy(a, ScaledBy(b, t)).value, ScaledBy(a * b, t).value);
  }

  /** The difference of two 1 x 1 tensors. */
  lemma ScalarMinus(a: real, b: real)
    ensures Minus(FromScalar(a), FromScalar(b)) == Ok(FromMat(Fill(1, 1, a - b)))
  {
    Ext(Minus(FromScalar(a), FromScalar(b)).value.value, Fill(1, 1, a - b));
  }

  /** Raising to a 1 x 1 exponent of 1 copies the buffer. */
  lemma PowerOne(fns: Math, t: Tensor)
    ensures Power(fns, t, FromMat(Fill(1, 1, 1.0))) == Ok(FromMat(t.value))
  {
    var e := FromMat(Fill(1, 1, 1.0));
    var p := Power(fns, t, e).value;
    forall i, j | 0 <= i < Rows(t) && 0 <= j < Cols(t)
      ensures Get(p.value, i, j) == Get(t.value, i, j)
    {
      PowOneTwo(fns, At(t, i, j));
    }
    Ext(p.value, t.value);
  }

  /** The entry-wise product of two tensors of one size has that size. */
  lemma SchurSameDims(a: Tensor, b: Tensor)
    requires SameDims(a, b)
    ensures Schur(a, b).Ok? && SameDims(Schur(a, b).value, a)
  {
  }

  /** Raising to a 1 x 1 exponent of 2 squares every entry. */
  lemma PowerTwo(fns: Math, t: Tensor)
    ensures Power(fns, t, FromScalar(2.0)).Ok?
    ensures var p := Power(fns, t, FromScalar(2.0)).value;
      SameDims(p, t) && forall i, j | 0 <= i < Rows(t) && 0 <= j < Cols(t) :: At(p, i, j) == At(t, i, j) * At(t, i, j)
  {
    var p := Power(fns, t, FromScalar(2.0)).value;
    forall i, j | 0 <= i < Rows(t) && 0 <= j < Cols(t)
      ensures At(p, i, j) == At(t, i, j) * At(t, i, j)
    {
      PowOneTwo(fns, At(t, i, j));
    }
  }

  // ---------------------------------------------------------------------
  // Unary operations
  // ---------------------------------------------------------------------

  /** An entry-wise function of a tensor, as a fresh tensor. */
  function Apply(t: Tensor, f: real -> real): (u: Tensor)
    ensures SameDims(u, t) && u.shape == [Rows(t), Cols(t)]
    ensures forall i, j | 0 <= i < Rows(t) && 0 <= j < Cols(t) :: At(u, i, j) == f(At(t, i, j))
  {
    FromMat(Map(t.value, f))
  }

  function AbsReal(x: real): real { if x < 0.0 then -x else x }

  /** A smaller non-negative factor gives a product no larger in size:
      with u = a x and w = b x and 0 <= a <= b, |u| <= |w|. */
  lemma SmallerFactor(a: real, b: real, x: real, u: real, w: real)
    requires 0.0 <= a <= b && u == a * x && w == b * x
    ensures AbsReal(u) <= AbsReal(w)
  {
    if x > 0.0 {
      ScaleMonotone(x, a, b, u, w);
    } else if x < 0.0 {
      ScaleMonotone(-x, a, b, -u, -w);
    }
  }

  /** Unary `-`, `abs`, `sin`, `cos`, `tan`, `log`. */
  function Negate(t: Tensor): Tensor { Apply(t, x => -x) }
  function Absolute(t: Tensor): Tensor { Apply(t, AbsReal) }
  function Sine(fns: Math, t: Tensor): Tensor { Apply(t, fns.sin) }
  function Cosine(fns: Math, t: Tensor): Tensor { Apply(t, fns.cos) }
  function Tangent(fns: Math, t: Tensor): Tensor { Apply(t, fns.tan) }
  function Logarithm(fns: Math, t: Tensor): Tensor { Apply(t, fns.log) }

  /** `mean`: per column, so an n x 1 input yields a 1 x 1 result. */
  function Mean(t: Tensor): (u: Tensor)
    ensures Rows(t) > 0 ==> Rows(u) == 1 && Cols(u) == Cols(t)
    ensures Rows(t) > 0 && Cols(t) == 1 ==> IsScalar(u)
    ensures Rows(t) > 0 ==> forall j | 0 <= j < Cols(t) :: At(u, 0, j) == Sum(Col(t.value, j)) / (Rows(t) as real)
    ensures u.shape == [Rows(u), Cols(u)]
  {
    FromMat(ColMeans(t.value))
  }

  /** `stddev`: per column, with the n - 1 normalisation. */
  function Stddev(fns: Math, t: Tensor): (u: Tensor)
    ensures Rows(t) > 0 ==> Rows(u) == 1 && Cols(u) == Cols(t)
    ensures Rows(t) > 0 && Cols(t) == 1 ==> IsScalar(u)
    ensures Rows(t) == 1 ==> forall j | 0 <= j < Cols(t) :: At(u, 0, j) == 0.0
  {
    FromMat(ColStddevs(t.value, fns.sqrt))
  }

  /** A buffer with no entries: zero rows or zero columns. */
  predicate NoEntries(t: Tensor) { Rows(t) == 0 || Cols(t) == 0 }

  /** `max()`: the largest entry, or Armadillo's failure when there is none. */
  function Largest(t: Tensor): (r: Result<real>)
    ensures r.Ok? <==> !NoEntries(t)
    ensures r.Err? ==> r.error == NoElements
    ensures r.Ok? ==> forall i, j | 0 <= i < Rows(t) && 0 <= j < Cols(t) :: At(t, i, j) <= r.value
    ensures r.Ok? ==> exists i, j | 0 <= i < Rows(t) && 0 <= j < Cols(t) :: At(t, i, j) == r.value
  {
    if NoEntries(t) then Err(NoElements)
    else
      var m := MaxEntry(t.value);
      assert exists i, j | 0 <= i < Rows(t) && 0 <= j < Cols(t) :: At(t, i, j) == m by {
        var i, j :| 0 <= i < Rows(t) && 0 <= j < Cols(t) && Get(t.value, i, j) == m;
        assert At(t, i, j) == m;
      }
      Ok(m)
  }

  /** `min()`: the smallest entry, or Armadillo's failure when there is none. */
  function Smallest(t: Tensor): (r: Result<real>)
    ensures r.Ok? <==> !NoEntries(t)
    ensures r.Err? ==> r.error == NoElements
    ensures r.Ok? ==> forall i, j | 0 <= i < Rows(t) && 0 <= j < Cols(t) :: r.value <= At(t, i, j)
    ensures r.Ok? ==> exists i, j | 0 <= i < Rows(t) && 0 <= j < Cols(t) :: At(t, i, j) == r.value
  {
    if NoEntries(t) then Err(NoElements)
    else
      var m := MinEntry(t.value);
      assert exists i, j | 0 <= i < Rows(t) && 0 <= j < Cols(t) :: At(t, i, j) == m by {
        var i, j :| 0 <= i < Rows(t) && 0 <= j < Cols(t) && Get(t.value, i, j) == m;
        assert At(t, i, j) == m;
      }
      Ok(m)
  }

  /** The mean of a buffer holding one value throughout is that value. */
  lemma MeanOfConstant(r: nat, c: nat, x: real)
    requires r > 0
    ensures forall j | 0 <= j < c :: At(Mean(FromMat(Fill(r, c, x))), 0, j) == x
  {
    var m := Fill(r, c, x);
    forall j | 0 <= j < c
      ensures At(Mean(FromMat(m)), 0, j) == x
    {
      SumConstant(Col(m, j), x);
      CancelFactor(r as real, x, Sum(Col(m, j)));
    }
  }
}

=== FILE: wrappers.dfy ===
/** Failure-compatible result types and the library's error taxonomy.

    The C++ library signals failure by throwing; the model returns `Err`
    with the kind of exception that would have been thrown instead. */
module Wrappers {

  datatype Option<+T> = None | Some(value: T)

  /** The exceptions the modelled code can raise. */
  datatype Error =
    /** Armadillo's size-mismatch failure (element-wise op, matrix product, in-place op). */
    | ShapeMismatch
    /** An out-of-range index: Armadillo's bounds check or `std::vector::at`. */
    | IndexOutOfBounds
    /** `std::invalid_argument`, with the library's message. */
    | InvalidArgument(message: string)
    /** The string thrown by `DataFrame::RemoveColumn`. */
    | Thrown(message: string)
    /** Armadillo's debug check on `min()` or `max()` of a buffer with no entries. */
    | NoElements

  datatype Result<+T> = Ok(value: T) | Err(error: Error) {

    predicate IsFailure() {
      Err?
    }

    function PropagateFailure<U>(): Result<U>
      requires Err?
    {
      Err(error)
    }

    function Extract(): T
      requires Ok?
    {
      value
    }
  }
}
